=== FILE: README.md ===
# Oikkoboddho Bangladesh: a Dafny model of the incident map's core

The application is a map-first emergency client. People report incidents from the map. A
server endpoint relays each report to a Telegram channel and to the reporter's emergency
contacts. The map shows:
- incidents, with a YouTube or Facebook video embedded when a link is found;
- public CCTV cameras;
- the positions of other volunteers.

A public chat has four feeds: nearby, nationwide, official and support. The official and
support feeds share one table, told apart by tags in the `media_type` column. Preferences and
emergency contacts live in local storage. A one-time purge clears old local data after the
fresh launch. Camera owners register their cameras by picking a point on the map. A
standalone Telegram bot tells users their chat id.

The model is a set of pure functions over immutable datatypes, one module per component.
Network answers, database answers, time and randomness are inputs:
- the outcome of each Telegram call is a function `(chatId, payload) -> Delivery`;
- a query's answer is an `Option`;
- the upload's stamp is a string.

Shared modules:
- `JsText`: the JavaScript string operations the components use (`includes`, `split`,
  `trim`, `replace` with a string pattern, and the `/i` video-extension regular expression).
- `JsNumber`: the `!isNaN` string grammar, and integer-to-text conversion.
- `UriComponent`: `encodeURIComponent` and its inverse.
- `JsonStrings`: `JSON.stringify` / `JSON.parse` for booleans and string arrays.
- `Seqs`: `filter` and `[...new Set(xs)]`.
- `Options`.

The components are modelled as written, including their quirks:
- A coordinate of exactly `0` counts as missing. It hides nearby chat messages and refuses
  a camera form.
- The header's hide-on-scroll rule keeps a reference point that only moves on large jumps.
- A failed optimistic camera toggle writes back the state the button passed, not the state
  the list held.

## Model

| member | source | states |
|---|---|---|
| IncidentRelay.MapLink | app/api/send-incident/route.js:16 | the Maps link starts with the search URL and ends with `,` and the longitude |
| IncidentRelay.ReporterOr | app/api/send-incident/route.js:17 | the reporter shown is never empty, and a given reporter is kept as it is |
| IncidentRelay.Caption | app/api/send-incident/route.js:17-21 | the video line is appended exactly when a video link is present, after the base caption |
| IncidentRelay.CaptionLayout | app/api/send-incident/route.js:16-17 | the caption opens with the alert banner and the Maps link, carries the description, and its base part ends with the reporter or `Anonymous` |
| IncidentRelay.Recipients | app/api/send-incident/route.js:25-27 | the primary channel comes first; a contact is a recipient iff it is non-empty and starts with `@` or is numeric text; there are no duplicates |
| IncidentRelay.RecipientsOrder | app/api/send-incident/route.js:25-27 | the contacts after the primary channel follow the order of their first occurrence in the contact list |
| IncidentRelay.PrimaryFirstAndOnce | app/api/send-incident/route.js:26-27 | the primary channel is first and appears once, even when a contact repeats it |
| IncidentRelay.RecipientsOfCleanList | app/api/send-incident/route.js:25-27 | distinct valid contacts other than the primary pass through unchanged and in order |
| IncidentRelay.ContactFilterExamples | app/api/send-incident/route.js:25 | `@fire_dept`, `123456789` and `-1001234` are kept; the empty string, `Alice`, `12a` and `123abc` are dropped |
| JsNumber.DigitsThenTextNotNumeric | app/api/send-incident/route.js:25 | a text that starts with digits and then has a non-digit, with no `e`, `E` or `.` anywhere, no trailing space, and not a lone leading `0` (which could start `0x`), makes `isNaN` true, so such a contact is dropped |
| IncidentRelay.PayloadFor | app/api/send-incident/route.js:33-62 | a video URL gives `sendVideo`, any other media URL gives `sendPhoto`, no media gives `sendMessage`; every payload carries the caption and `Markdown` |
| IncidentRelay.TelegramUrl | app/api/send-incident/route.js:30-55 | the bot URL is the token followed by the method its payload needs |
| IncidentRelay.StatusOf | app/api/send-incident/route.js:64-79 | an ok answer is `sent`, a non-ok answer is `failed` with its data, a thrown call is `error` with its message |
| IncidentRelay.FanOut | app/api/send-incident/route.js:29-80 | one outcome per recipient, in order, each from that recipient's own call |
| IncidentRelay.Relay | app/api/send-incident/route.js:7-88 | missing credentials answer 500 without any call; an unreadable body or non-list contacts answer 500; otherwise the answer is success with the fan-out's outcomes |
| IncidentRelay.NoContactOnRejection | app/api/send-incident/route.js:11-14 | a rejected request gives the same answer whatever the Telegram calls would return |
| IncidentRelay.SuccessWhateverOutcomes | app/api/send-incident/route.js:82 | an accepted request reports success even when every call failed |
| JsNumber.DigitsAreNumeric | app/api/send-incident/route.js:25 | a digit string is numeric text for `!isNaN`, so a numeric chat id passes the contact filter |
| JsNumber.NatToStringRoundTrip | scripts/bot-listener.js:54-61 | the decimal text of a number reads back as that number |
| JsNumber.NatToStringNoLeadingZero | scripts/bot-listener.js:54-61 | integer text has no leading zero except for `0` itself |
| Seqs.Dedupe | app/api/send-incident/route.js:27 | the result has no duplicates, keeps every element, adds none, and keeps the first element first |
| Seqs.DedupeOrder | app/api/send-incident/route.js:27 | the values come out in the order of their first occurrence in the input |
| Seqs.FilterKeepsOrder | app/api/send-incident/route.js:26 | filtering keeps the order in which the kept values first occur |
| Seqs.DedupeDistinct | app/api/send-incident/route.js:27 | a list without duplicates passes through the set unchanged |
| Seqs.DedupeIdempotent | app/api/send-incident/route.js:27 | de-duplicating twice equals de-duplicating once |
| Seqs.Filter | app/api/send-incident/route.js:25 | exactly the kept elements survive, and the result is no longer than the input |
| Seqs.FilterAppend | app/api/send-incident/route.js:25 | filtering a concatenation is the concatenation of the filtered parts |
| JsText.SplitJoin | scripts/bot-listener.js:11 | joining the pieces of a split with the separator gives back the text, and no piece contains the separator |
| JsText.SplitSingleIff | scripts/bot-listener.js:11 | a split yields one piece iff the separator does not occur |
| JsText.TrimIdempotent | components/SettingsView.js:37-38 | trimming twice equals trimming once |
| JsText.TrimEmptyIff | components/SettingsView.js:37 | a text trims to empty iff it is all white space |
| JsText.AfterLastSpec | components/ReportForm.js:50 | the last piece of a split is a separator-free suffix, preceded by the separator when one occurs |
| JsText.VideoFileUrlExamples | components/IncidentHistory.js:148 | the video pattern is case-insensitive, anchored at the end and needs the dot |
| JsText.VideoFileUrlOfName | components/IncidentHistory.js:148 | every name followed by `.mp4`, `.mov`, `.webm`, `.avi` or `.mkv` is a video URL |
| JsText.VideoFileUrlIgnoresCase | components/IncidentHistory.js:148 | the video test gives the same answer for a URL and its lower-case form, as the `i` flag makes it |
| Uploads.UploadName | components/ReportForm.js:50-51 | the storage name is the stamp, a dot, and the text after the file name's last dot: it starts with `stamp.`, ends with that extension, and has no further dot |
| Uploads.UploadNameKeepsExtension | components/ChatInput.js:111-112 | the storage name's extension is the picked file's extension |
| UriComponent.Encode | components/MapDisplay.js:342 | each character is kept or percent-encoded, so the encoding is never shorter than the text; its alphabet and inverse are the lemmas below |
| UriComponent.EncodeAlphabet | components/MapDisplay.js:342 | the encoding holds only unreserved characters, `%` and upper-case hex digits |
| UriComponent.DecodeEncode | components/MapDisplay.js:342 | decoding the percent-encoding of any text gives the text back |
| UriComponent.EncodeInjective | components/MapDisplay.js:342 | distinct links encode to distinct texts |
| UriComponent.EncodeUnreserved | components/MapDisplay.js:342 | a text of unreserved characters encodes to itself |
| MapMarkers.YouTubeId | components/MapDisplay.js:330-336 | with `v=`, the id is a prefix of the text after the first `v=` and holds no `&` and no `v=`; the id stops exactly at the end of that text, at an `&` or at a `v=`; otherwise, with `youtu.be/`, a prefix of the text after it holding no `?` that stops at its end or at a `?`; with neither, it is empty |
| MapMarkers.WatchLinkId | components/MapDisplay.js:332-333 | a watch link `…v=<id>` or `…v=<id>&…` yields `id` |
| MapMarkers.ShortLinkId | components/MapDisplay.js:334-335 | a short link `…youtu.be/<id>` or `…youtu.be/<id>?…` without `v=` yields `id` |
| MapMarkers.EmbedOf | components/MapDisplay.js:313-345 | YouTube hosts take precedence and need a non-empty id; Facebook hosts embed the encoded link; otherwise there is no embed |
| MapMarkers.FacebookHrefRoundTrip | components/MapDisplay.js:342-343 | the plugin URL's `href` parameter decodes back to the link |
| MapMarkers.ApplyUserEvent | components/MapDisplay.js:202-223 | the device's own insert or update is ignored; another user's marker is created or moved; a delete removes it; nothing else changes |
| MapMarkers.SeedUsers | components/MapDisplay.js:231-246 | every listed user except the device gets a marker; markers already shown are not moved; a new marker sits at the position of that user's first row |
| MapMarkers.OwnNeverShown | components/MapDisplay.js:205-235 | after the seed and any event sequence, the device's own id has no marker unless it had one before |
| MapMarkers.SeedUsersIdempotent | components/MapDisplay.js:234-244 | seeding the same rows twice equals seeding them once |
| MapMarkers.UserEventsCommute | components/MapDisplay.js:202-223 | events about different users can be applied in either order |
| MapMarkers.AddCamera | components/MapDisplay.js:282-291 | an existing marker only moves and keeps its popup; otherwise one marker is created; other cameras are untouched |
| MapMarkers.ApplyCameraEvent | components/MapDisplay.js:268-277 | a delete, or an update to inactive, removes the marker of the old row's id; an active insert or update adds or moves it |
| MapMarkers.CameraEventLocal | components/MapDisplay.js:268-277 | an event changes at most its own camera's marker |
| MapMarkers.CameraOffThenOn | components/MapDisplay.js:271-276 | switching off removes the marker; switching back on shows it at its new position with its current stream and name |
| MapMarkers.SeedCameras | components/MapDisplay.js:262-265 | the markers are the old ones plus the fetched cameras; each sits at its camera's last fetched position (or stays put if not fetched); shown markers keep stream and name, and a new one takes them from the camera's first row |
| MapMarkers.SeedCamerasTwice | components/MapDisplay.js:262-265 | seeding the same camera rows twice equals seeding them once |
| MapMarkers.AddIncident | components/MapDisplay.js:307-358 | an id already on the map is left alone; a new id gets its position and embed |
| MapMarkers.AddIncidentIdempotent | components/MapDisplay.js:308 | a second incident with a shown id, whatever its content, changes nothing |
| MapMarkers.AddIncidents | components/MapDisplay.js:297-302 | markers already shown keep their contents, every incident has a marker afterwards, no other id gets one, and a new marker is built from that id's first incident |
| MapMarkers.AddIncidentsTwice | components/MapDisplay.js:298-302 | re-delivering incidents changes nothing |
| MapMarkers.Toggle3D | components/MapDisplay.js:372-377 | without a map nothing changes; with one, the 3D flag flips and the pitch becomes 60 or 0 |
| MapMarkers.Locate | components/MapDisplay.js:379-384 | with a position and a map the view is 3D at pitch 60; otherwise nothing changes |
| MapMarkers.LocateSettles | components/MapDisplay.js:372-384 | locating keeps the 3D flag and pitch in agreement, locating twice equals once, and a tilt toggle after a locate gives the flat view |
| MapMarkers.ToggleTwice | components/MapDisplay.js:372-377 | two toggles restore the flag, and the first toggle from the initial state flattens the map |
| LinkScan.FirstKnown | components/MapDisplay.js:319-324 | the result is the first match naming YouTube or Facebook, or none when no match does |
| LinkScan.VideoLinkOf | components/MapDisplay.js:313-327 | an explicit video link wins; otherwise the URL used is the first one in the description that names a known host, and every earlier URL names none |
| LinkScan.MatchesAreTokens | components/MapDisplay.js:317 | every match starts with `http://` or `https://` and holds no white space |
| LinkScan.FirstKnownAfterUnknown | components/MapDisplay.js:319-325 | a known link after matches naming no known host is the one found |
| ReportSubmission.PlatformOf | components/ReportForm.js:21-29 | the badge is Facebook iff the link names a Facebook host, YouTube iff it names only a YouTube host |
| ReportSubmission.PlatformAgreesWithEmbed | components/ReportForm.js:21-29 | for a link naming one host family, the form's badge and the map's embed agree |
| ReportSubmission.DbDescription | components/ReportForm.js:61 | with a link, the stored text is the typed text, the separator and the link; without one it is the typed text |
| ReportSubmission.DbRecordOf | components/ReportForm.js:58-66 | the stored row has the location, an `open` status and the reporter or `Anonymous` |
| ReportSubmission.RelayBody | components/ReportForm.js:77-82 | the relay gets the row's fields, the text as typed, the link and the contacts |
| ReportSubmission.Submit | components/ReportForm.js:37-110 | without a location it alerts and writes nothing; an upload or insert error means an error status; a stored row means success and a cleared form |
| ReportSubmission.RelayOutcomeIgnored | components/ReportForm.js:73-93 | the form's result is the same whatever the relay call does |
| ReportSubmission.RelayBodyMatchesRow | components/ReportForm.js:58-82 | the stored description is the relayed text with the relayed link appended |
| ReportSubmission.MapFindsAppendedLink | components/ReportForm.js:61 | a known-host link appended to a description without earlier known links is the one the map embeds |
| IncidentHistory.Latest | components/IncidentHistory.js:32-36 | the query returns the newest `min(n, 100)` rows, newest first |
| IncidentHistory.FetchDone | components/IncidentHistory.js:38-40 | an answer replaces the list, a failed query keeps it, and loading ends either way |
| IncidentHistory.OnInsert | components/IncidentHistory.js:48-49 | an insert goes on top and the rest is unchanged |
| IncidentHistory.DisplayOf | components/IncidentHistory.js:94-103 | a spinner iff loading; otherwise the cards of exactly the loaded rows when there are rows, and the empty notice when there are none |
| IncidentHistory.FirstFetchShown | components/IncidentHistory.js:32-40 | after the first fetch the panel shows the latest reports as cards, or the empty notice when the table is empty or the query fails |
| IncidentHistory.InsertShown | components/IncidentHistory.js:48-49 | once loaded, an insert is shown on top of the cards; while loading the spinner stays |
| IncidentHistory.PrependMatchesRefetch | components/IncidentHistory.js:32-49 | the prepended list begins with what a refetch would return, and equals it while the table is under the limit |
| IncidentHistory.ReporterLabel | components/IncidentHistory.js:126 | the label is a space-free prefix of the reporter text ending at its first space, or `Anonymous` for empty text |
| IncidentHistory.LabelOfSubmittedReport | components/IncidentHistory.js:126 | a one-word reporter from the form is shown as typed; an empty one is shown as `Anonymous` |
| IncidentHistory.MediaOf | components/IncidentHistory.js:146-160 | no media iff there is no URL; a video player iff the URL has a video extension |
| IncidentHistory.UploadedVideoPlays | components/IncidentHistory.js:146-160 | an uploaded file plays as a video iff its own name has a video extension |
| ChatFeed.OnInsert | components/ChatList.js:165-177 | a realtime message is appended iff the feed admits it: admin needs an admin message; support needs a support tag; other feeds need its absence |
| ChatFeed.OnInsertsAppendAdmitted | components/ChatList.js:165-177 | a run of inserts appends exactly the admitted messages, in arrival order |
| ChatFeed.RealtimeAddsOnlyAdmitted | components/ChatList.js:168-173 | the support feed and the public feeds never receive the same realtime message |
| ChatFeed.AfterFetch | components/ChatList.js:134-155 | an admin error uses the fallback rows if any, keeps the list when the fallback returns no rows, and empties it when the fallback throws; otherwise returned rows replace the list, a bare error or a throw empties it, and an answer with no rows and no error keeps it |
| ChatFeed.RetryOnlyForAdmin | components/ChatList.js:137-144 | the fallback query matters only for the admin feed after an error |
| ChatFeed.FailedFetchFallback | components/ChatList.js:136-154 | after an error a non-admin feed shows that answer's rows or nothing; the admin feed shows the fallback's rows, keeps its list when the fallback returns no rows, or empties it when the fallback query throws |
| ChatFeed.Shown | components/ChatList.js:190-198 | the nearby feed keeps exactly the messages with non-zero coordinates within 50000 km of a known viewer; other feeds keep all |
| ChatFeed.ShownAppend | components/ChatList.js:190-198 | `filter` works message by message: a concatenation shows the two shown lists in order, and one nearby message is shown exactly once when near the viewer, else not at all |
| ChatFeed.ZeroCoordinateHidden | components/ChatList.js:193 | a nearby message at latitude or longitude 0 is hidden even at distance 0 |
| ChatFeed.RawType | components/ChatList.js:31 | a type without `support_` is unchanged, and removing the tag never lengthens it |
| ChatFeed.MediaViewOf | components/ChatList.js:29-33 | there is media iff there is a URL; it is a video for `video`, audio for `audio`, otherwise an image |
| ChatFeed.RawTypeOfTagged | components/ChatList.js:31 | the support tag added in front of a kind is removed again |
| ChatFeed.PostingName | components/ChatInput.js:141 | the posting name is never empty, and a stored name is used as it is |
| ChatFeed.IsOwnIff | components/ChatList.js:214 | ownership is by name for a named viewer, otherwise by a non-empty device id |
| ChatCompose.MediaKind | components/ChatInput.js:124-125 | the kind is `audio`, `image` or `video`: `audio` iff the MIME type starts with `audio/`, `image` iff it starts with `image/` but not `audio/` |
| ChatCompose.TaggedType | components/ChatInput.js:128-131 | ordinary feeds store the kind as it is; the support feed stores `support_text` for a kindless message and `support_` followed by the kind otherwise |
| ChatCompose.MediaKindShown | components/ChatInput.js:124-131 | a sent file comes back in the list as an audio player iff its MIME type is `audio/`, an image iff `image/` but not `audio/`, and a video otherwise, on every feed |
| ChatCompose.TaggedTypeRoundTrip | components/ChatInput.js:128-131 | the tag marks a support message exactly on the support feed, and the list strips it back to the kind |
| ChatCompose.Record | components/ChatInput.js:133-146 | the inserted row has the trimmed text, the posting name, the device id, and coordinates only on the nearby feed |
| ChatCompose.Submit | components/ChatInput.js:81-161 | a blank draft without media, or one in flight, sends nothing; an upload error inserts nothing; success clears the draft; any failure alerts |
| ChatCompose.SentMessageShowsInOwnFeed | components/ChatInput.js:128-146 | a sent message is admitted by its own feed's list unless that feed is admin, and is recognised as the sender's own |
| ChatCompose.FormatTime | components/ChatInput.js:163-167 | the timer text has at least four characters, and a colon stands before the last two digits |
| ChatCompose.FormatTimeRoundTrip | components/ChatInput.js:163-167 | the minutes and seconds read back from the timer text |
| ChatCompose.FormatTimeInjective | components/ChatInput.js:163-167 | distinct durations render differently |
| ChatTabs.ListFeed | components/ChatHub.js:111 | the nationwide tab lists `public`, every other tab lists its own id, and no tab asks for a `nationwide` feed |
| ChatTabs.InputFeed | components/ChatHub.js:114-116 | every tab but the official one has a composer, and it posts to the feed its list shows |
| ChatTabs.Step | components/ChatHub.js:56-131 | a button that is not on screen changes nothing, and the support tab is entered only from the official tab through its footer |
| ChatTabs.SupportOnlyViaOfficial | components/ChatHub.js:118-131 | from the initial tab, the support tab is reached only through the footer of the official tab |
| ChatTabs.TabIdInjective | components/ChatHub.js:12 | distinct tabs have distinct ids |
| ChatTabs.ComposerFeedsItsList | components/ChatHub.js:111-116 | a message sent from any tab's composer is admitted by that tab's list, and is support exactly on the support tab |
| JsonStrings.ParseBool | components/AppContext.js:30-31 | exactly the texts `true` and `false` parse as booleans |
| JsonStrings.BoolRoundTrip | components/AppContext.js:72-82 | a stored flag parses back to the flag |
| JsonStrings.StringifyRoundTrip | components/AppContext.js:32-94 | a stored contact list parses back to the list |
| JsonStrings.StringifyInjective | components/AppContext.js:88-94 | distinct contact lists are stored as distinct texts |
| Preferences.LoadFlag | components/AppContext.js:21-31 | an absent key keeps the default; a stored JSON boolean replaces it; other text is an error |
| Preferences.Load | components/AppContext.js:17-32 | only a non-empty language, a `dark` theme, present flags and a non-empty contact list replace the defaults; the flags and contacts loaded are the parsed stored values; loading fails iff a present flag or a non-empty contact text does not parse |
| Preferences.ToggleLanguage | components/AppContext.js:52-56 | `en` becomes `bn`, anything else becomes `en`, and the store holds the new value |
| Preferences.ToggleDarkMode | components/AppContext.js:58-67 | the theme flips and the store holds `dark` or `light` |
| Preferences.ToggleNotifications | components/AppContext.js:69-77 | the flag flips and the store holds its JSON text |
| Preferences.ToggleSatellite | components/AppContext.js:79-83 | the flag flips and the store holds its JSON text |
| Preferences.AddContact | components/AppContext.js:85-89 | the contact is appended, duplicates allowed, and the store holds the new list |
| Preferences.RemoveContact | components/AppContext.js:91-95 | exactly the contact at the index goes; an out-of-range index changes nothing |
| Preferences.ToggleLanguagePersisted | components/AppContext.js:52-56 | the language toggle keeps memory and storage in agreement |
| Preferences.ToggleDarkModePersisted | components/AppContext.js:58-67 | the theme toggle keeps memory and storage in agreement |
| Preferences.ToggleNotificationsPersisted | components/AppContext.js:69-77 | the notification toggle keeps memory and storage in agreement |
| Preferences.ToggleSatellitePersisted | components/AppContext.js:79-83 | the satellite toggle keeps memory and storage in agreement |
| Preferences.AddContactPersisted | components/AppContext.js:85-89 | adding a contact keeps memory and storage in agreement |
| Preferences.RemoveContactPersisted | components/AppContext.js:91-95 | removing a contact keeps memory and storage in agreement |
| Preferences.ToggleLanguageTwice | components/AppContext.js:52-56 | two toggles restore `en` and `bn`; any other language ends at `bn` |
| Preferences.AddThenRemoveLast | components/AppContext.js:85-95 | removing the contact just added restores the previous list |
| SettingsPanel.HandleAddContact | components/SettingsView.js:35-41 | text that is non-blank after trimming is added trimmed and the field clears; otherwise nothing changes |
| SettingsPanel.BlankFieldEnabledButInert | components/SettingsView.js:35-41 | a field of white space enables the button but adds nothing |
| SettingsPanel.AddedContactIsTrimmed | components/SettingsView.js:37-38 | an added contact is non-blank and has no white space at either end |
| SettingsPanel.DeleteRowRemovesIt | components/AppContext.js:91-95 | a row's delete button removes one copy of its contact and keeps the others in order |
| ScrollHide.OnScroll | components/SettingsView.js:27-33 | a move of at most 20 changes nothing; a larger move makes the position the new reference; the visibility only changes together with the reference |
| ScrollHide.ScrollKeepsHiddenPastFloor | components/IncidentHistory.js:21-27 | over any scroll run from the top, a hidden header has its reference point past 50 |
| ScrollHide.DirectionDecides | components/IncidentHistory.js:23-24 | a large move up always shows the header; a large move down past 50 always hides it |
| ScrollHide.OnScrollIdempotent | components/SettingsView.js:27-33 | repeating the same position changes nothing more |
| StoragePurge.LexLessIrreflexive | app/page.js:38 | no date string sorts before itself, so the stored launch date does not re-trigger the purge |
| StoragePurge.CollectKeys | app/page.js:40-52 | the collected keys are exactly the listed keys the application wrote |
| StoragePurge.RemoveAll | app/page.js:54 | the removed keys are gone and every other key keeps its value |
| StoragePurge.RunPurge | LOCALSTORAGE_CLEANUP.js:4-33 | with no marker or an earlier one, the application's keys go and the marker is set; otherwise nothing changes |
| StoragePurge.MarkerKeyKept | app/page.js:43-55 | the marker key is not one of the keys the purge removes |
| StoragePurge.PurgeSettles | app/page.js:34-58 | after a purge the purge is no longer due, and the keys the application did not write are untouched |
| StoragePurge.PurgeRemovesExactly | app/page.js:38-55 | after a purge, an application key is absent, and any other key is present iff it was before or is the marker |
| StoragePurge.GuardExamples | app/page.js:35-38 | earlier dates and a missing marker trigger the purge; later dates do not |
| HomeShell.TabChange | app/page.js:60-85 | the map tab closes the four panels; history and chat open their panel but leave cameras as they were; settings and cctv open theirs alone; other tabs, the report and the share dialog are untouched |
| HomeShell.PressHighlights | app/page.js:205-216 | a pressed dock button is highlighted, and the map button is highlighted iff no other button is |
| HomeShell.HighlightCount | app/page.js:60-85 | history or chat opened over the camera panel leaves two buttons highlighted; settings and cctv leave one |
| HomeShell.SosHelperOnMap | app/page.js:164 | back on the map the SOS helper shows iff neither the report form nor the share dialog is open |
| HomeShell.StartPick | app/page.js:87-92 | the camera panel closes and picking starts |
| HomeShell.HandleMapClick | app/page.js:94-100 | while picking, a click stores the point, ends picking and reopens the camera panel; otherwise nothing |
| HomeShell.MapClickCorrected | app/page.js:94-100 | a click while not picking changes nothing |
| HomeShell.PickNeverCompletesAsWritten | components/MapDisplay.js:87-91 | with the listener registered once on mount, a pick never completes |
| HomeShell.PickRoundTripCorrected | app/page.js:87-100 | a click that reads the current state completes the pick, and the reopened dashboard shows the add view with the point filled in |
| HomeShell.StalePickReapplied | components/CCTVDashboard.js:29-34 | the picked point outlives the pick, so a later reopening of the camera panel jumps to the add view again |
| CameraRegistry.UserIdOf | components/CCTVDashboard.js:14-19 | the stored device id, or `anon` when there is none; never empty |
| CameraRegistry.Opened | components/CCTVDashboard.js:11-27 | the dashboard opens on an empty list view with an empty form |
| CameraRegistry.ApplyPicked | components/CCTVDashboard.js:29-34 | a picked point fills both coordinates and shows the add view, keeping name and stream; no point changes nothing |
| CameraRegistry.Refetch | components/CCTVDashboard.js:40-55 | an answer replaces the list, a failed query keeps it |
| CameraRegistry.Save | components/CCTVDashboard.js:57-80 | an empty field alerts without inserting; otherwise the owner's inactive camera is inserted; a failure alerts and keeps everything; a success resets the form and returns to the list |
| CameraRegistry.Delete | components/CCTVDashboard.js:82-96 | the delete is sent iff confirmed; on success every camera with that id leaves the list and nothing else does; on failure it alerts |
| CameraRegistry.DeleteTwice | components/CCTVDashboard.js:82-96 | a second successful delete of the same id changes nothing |
| CameraRegistry.RefetchAgreesWithDelete | components/CCTVDashboard.js:40-55 | refetching the owner's table after a delete shows the same list as the local removal; a failed refetch keeps the list |
| CameraRegistry.SetActive | components/CCTVDashboard.js:100 | the cameras with that id take the new state; the others are unchanged |
| CameraRegistry.ToggleActive | components/CCTVDashboard.js:98-113 | success leaves the target at the flipped state; failure alerts and leaves it at the state the button passed |
| CameraRegistry.ToggleFailureRestores | components/CCTVDashboard.js:98-113 | when the passed state is the shown one, a failed toggle gives back the starting list, and a successful one flips the target |
| CameraRegistry.ToggleFailureStale | components/CCTVDashboard.js:108-111 | a failed toggle with a stale state does not restore the list |
| CameraRegistry.PickThenSave | components/CCTVDashboard.js:29-80 | a picked point is saved iff neither coordinate is 0; the insert carries the owner, the name and the point, inactive |
| CameraRegistry.SavedCameraHiddenUntilActivated | components/CCTVDashboard.js:63-70 | a newly saved camera leaves the public map unchanged until it is switched on, then it appears at its saved point |
| BotListener.MatchLine | scripts/bot-listener.js:12 | a match splits the line at its first `=` into a non-empty key and a rest without line terminators; no match means no `=`, a leading `=`, or a line terminator after the first `=` |
| BotListener.StripQuotes | scripts/bot-listener.js:15 | one quote character at each end is removed, the two need not match; anything else is unchanged |
| BotListener.ParseLine | scripts/bot-listener.js:12-16 | a matching line yields its trimmed key and its trimmed, unquoted value |
| BotListener.AddLine | scripts/bot-listener.js:12-17 | one line keeps every key already set, and a key it adds is the key that line sets |
| BotListener.AddLines | scripts/bot-listener.js:11-18 | a key already set stays set; which value it ends with is stated by the round-trip lemmas below |
| BotListener.LoadEnv | scripts/bot-listener.js:5-25 | a missing or unreadable file gives an empty environment |
| BotListener.AddLinesKeys | scripts/bot-listener.js:11-18 | every key the file adds comes from a line that matches the pattern |
| BotListener.Token | scripts/bot-listener.js:27-34 | the bot starts iff `TELEGRAM_BOT_TOKEN` is set and non-empty |
| BotListener.QuotedLineRoundTrip | scripts/bot-listener.js:12-16 | `KEY="value"` reads back as the key and value, for a trimmed key and a value without line terminators |
| BotListener.EnvFileRoundTrip | scripts/bot-listener.js:5-25 | a file of quoted lines loads back as those settings, the last winning for a repeated key |
| BotListener.DuplicateKeyLastWins | scripts/bot-listener.js:16 | of two lines for one key the later wins |
| BotListener.CrlfLineIgnored | scripts/bot-listener.js:11-12 | a line ending in a carriage return after its `=` is not a setting |
| BotListener.IdText | scripts/bot-listener.js:54-61 | a chat id renders as non-empty text that starts with `-` iff the id is negative |
| BotListener.IdTextInjective | scripts/bot-listener.js:61 | distinct chat ids render differently |
| BotListener.RepliesExactly | scripts/bot-listener.js:48-63 | each update carrying text is answered in its own chat with its id, and every reply answers such an update |
| BotListener.PollOnce | scripts/bot-listener.js:43-73 | a successful non-empty answer moves the offset past the last update and replies to each text message in order; otherwise the offset stays and nothing is sent |
| BotListener.OffsetPassesBatch | scripts/bot-listener.js:49-51 | with increasing update ids the new offset is past every handled update |

## Left out

- BotListener.PollOnce: every message carries a sender first name; the script reads `update.message.from.first_name` (scripts/bot-listener.js:55), which would throw after the offset has moved if `from` were absent. Telegram supplies `from` for private messages, so that failure is not modelled.
- Great-circle distance (`getDistanceFromLatLonInKm`, ChatList.js:10-26) is floating-point trigonometry. `ChatFeed.Shown` takes the distance as a function parameter.
- Database queries are inputs, given as an `Option` of the returned rows. Their filtering, ordering and row-level security are not modelled. This covers the 24-hour chat window, the five-minute presence window, `is_active` and `owner_id` filters, and the map's `limit(20)` on incidents (MapDisplay.js:297). The history's `limit(100)` is modelled by `IncidentHistory.Latest`.
- `IncidentHistory.Latest` assumes the table's insertion order is its `created_at` order.
- Each Telegram, storage and `fetch` call is a parameter, and so is its outcome. Timers are left out: the 3-second form close, the 5-second poll retry, the 10-second presence upsert, the recording clock and the 100 ms scroll. So are `setImmediate` and the unending poll loop. `BotListener.PollOnce` models one round.
- The DOM, map-library calls, iframe HTML, the satellite layer, the resize observer, zoom buttons, animations, translations and the install prompt are presentation only.
- `console` output is left out.
- `Preferences.ToggleNotifications`: turning notifications on also calls `Notification.requestPermission()` (AppContext.js:74-76). That browser prompt is a side effect outside the preferences and is left out.
- `Preferences.Load` reads only these JSON texts: `true`, `false`, and arrays of strings without white space between tokens. Any other stored text is treated as a parse error (`None`), where the program would parse or throw. Surrogate escapes (`\uD83D`) in a contact are not decoded.
- `IncidentRelay.Relay`: contacts are a list of strings. A JSON number in `emergencyContacts` would pass `!isNaN(c)` (app/api/send-incident/route.js:25) and be sent as a numeric `chat_id`; non-string contacts are not modelled, as the app's own client sends strings only (components/AppContext.js:85-89).
- `ReportSubmission.RelayBody`: coordinates reach the relay as `String(number)`. That rendering is the parameter `numText`, not the JavaScript number-to-text algorithm. The same holds for the `parseFloat` parameter of `CameraRegistry.Save`.
- `formatDistanceToNow` (relative timestamps) and NaN coordinates are not modelled.
- `MapMarkers.SeedUsers`: the device id chosen with `Math.random` is a parameter, and the presence upsert is a side effect outside the marker state.
- IncidentHistory.js:29-30 opens `useEffect(() => {` twice, so the file does not parse as written. The model follows the evidently intended single effect.
- `BotListener.MatchLine`: a carriage return before the first `=` does not block a match. The pattern `[^=]` accepts `\r`, and only a line terminator after the first `=` fails `(.*)$`.
- `MapMarkers.YouTubeId`: `split('v=')[1]` stops at the next `v=` as well as at `&`. This is modelled as written.
- `ChatFeed.RawType`: `replace('support_', '')` removes the first occurrence anywhere, not only a prefix. This is modelled as written.
- `ReportSubmission.PlatformOf`: the form checks Facebook hosts first, the map checks YouTube hosts first. A link naming both families is therefore badged Facebook and embedded as YouTube.
- `CameraRegistry.ToggleFailureRestores`: holds only when the button passed the state the list shows. `CameraRegistry.ToggleFailureStale` shows the other case.
- The `!userId` guard of `fetchCameras` (CCTVDashboard.js:41) never fires, because the id defaults to `anon`. It is not modelled.
- Microphone capture, object URLs and the file picker are left out. The draft holds the attached file's name and MIME type.
- `AnimatedIntro`, `BottomNav`, `ShareModal`, `MapLoader`, the layout and the service worker are not part of this model.

## Findings

| source | as written | input that shows it | evidently intended | confidence | as-written member | corrected member |
|---|---|---|---|---|---|---|
| components/MapDisplay.js:87-91 | the click listener is registered once, inside the mount effect (lines 26-97, empty dependency list), so it keeps the first render's `isPickingLocation` (false) and `onMapClick` | open the camera panel, press "pick on map", then click the map: the click is ignored, picking never ends and the panel never reopens | a click during a pick stores the point, ends picking and reopens the camera dashboard with the coordinates filled in | high; not executed | HomeShell.PickNeverCompletesAsWritten | HomeShell.PickRoundTripCorrected |

=== FILE: bot_listener.dfy ===
/** The Telegram helper bot: it reads its token from the `.env.local` file with a line parser
    of its own, then long-polls for updates, acknowledges each one through the offset, and
    answers every text message with the sender's chat id. */
module BotListener {
  import opened Options
  import opened JsText
  import opened JsNumber

  type Env = map<string, string>

  /** No character a regular-expression `.` refuses to match. */
  predicate NoLineTerminator(s: string) {
    forall k :: 0 <= k < |s| ==> !IsLineTerminator(s[k])
  }

  /** `line.match(/^([^=]+)=(.*)$/)`: the raw key is everything before the first `=` and
      must not be empty; the rest of the line must hold no line terminator. */
  function MatchLine(line: string): (r: Option<(string, string)>)
    ensures r.Some? ==> line == r.value.0 + "=" + r.value.1
    ensures r.Some? ==> r.value.0 != "" && !Includes(r.value.0, "=") && NoLineTerminator(r.value.1)
    ensures r.None? ==> !Includes(line, "=") || (IndexOf(line, "=", 0) == Some(0))
                        || !NoLineTerminator(line[IndexOf(line, "=", 0).value + 1..])
  {
    match IndexOf(line, "=", 0)
    case None => None
    case Some(i) =>
      NoEarlierOccurrence(line, "=", i);
      assert line == line[..i] + "=" + line[i + 1..] by {
        assert line[i..i + 1] == "=";
      }
      if i == 0 || !NoLineTerminator(line[i + 1..]) then None
      else Some((line[..i], line[i + 1..]))
  }

  predicate IsQuote(c: char) { c == '"' || c == '\'' }

  /** `value.replace(/^["'](.*)["']$/, '$1')`: one quote character at each end is removed,
      the two need not be the same; anything else is left as it is. */
  function StripQuotes(v: string): (r: string)
    ensures |v| >= 2 && IsQuote(v[0]) && IsQuote(v[|v| - 1]) && NoLineTerminator(v[1..|v| - 1]) ==> r == v[1..|v| - 1]
    ensures !(|v| >= 2 && IsQuote(v[0]) && IsQuote(v[|v| - 1])) ==> r == v
  {
    if |v| >= 2 && IsQuote(v[0]) && IsQuote(v[|v| - 1]) && NoLineTerminator(v[1..|v| - 1]) then v[1..|v| - 1]
    else v
  }

  /** One line of the file: the trimmed key, and the trimmed value with its quotes removed. */
  function ParseLine(line: string): (r: Option<(string, string)>)
    ensures r.Some? <==> MatchLine(line).Some?
    ensures r.Some? ==> r.value.0 == Trim(MatchLine(line).value.0)
                        && r.value.1 == StripQuotes(Trim(MatchLine(line).value.1))
  {
    match MatchLine(line)
    case None => None
    case Some((k, v)) => Some((Trim(k), StripQuotes(Trim(v))))
  }

  /** The key a line sets, if it sets one. */
  function LineKey(line: string): Option<string> {
    match ParseLine(line)
    case None => None
    case Some((k, _)) => Some(k)
  }

  /** One line: a line that parses sets its key, any other line changes nothing. */
  function AddLine(env: Env, line: string): (r: Env)
    ensures forall k :: k in env ==> k in r
    ensures forall k :: k in r && k !in env ==> LineKey(line) == Some(k)
  {
    match ParseLine(line)
    case None => env
    case Some((k, v)) => env[k := v]
  }

  /** The lines in order; a later line for a key overwrites an earlier one. */
  function AddLines(env: Env, lines: seq<string>): (r: Env)
    ensures forall k :: k in env ==> k in r
    decreases |lines|
  {
    if lines == [] then env else AddLines(AddLine(env, lines[0]), lines[1..])
  }

  /** Every key the lines add comes from a line that parses. */
  lemma {:induction false} AddLinesKeys(env: Env, lines: seq<string>)
    ensures forall k :: k in AddLines(env, lines) ==>
              k in env || exists i :: 0 <= i < |lines| && LineKey(lines[i]) == Some(k)
    decreases |lines|
  {
    if lines != [] {
      var next := AddLine(env, lines[0]);
      var rest := lines[1..];
      AddLinesKeys(next, rest);
      forall k | k in AddLines(env, lines) && k !in env
        ensures exists i :: 0 <= i < |lines| && LineKey(lines[i]) == Some(k)
      {
        if k in next {
          assert LineKey(lines[0]) == Some(k);
        } else {
          var j :| 0 <= j < |rest| && LineKey(rest[j]) == Some(k);
          assert rest[j] == lines[j + 1];
        }
      }
    }
  }

  /** `loadEnv`: the parsed file, or nothing when the file is missing or cannot be read. */
  function LoadEnv(file: Option<string>): (r: Env)
    ensures file.None? ==> r == map[]
  {
    match file
    case None => map[]
    case Some(content) => AddLines(map[], Split(content, "\n"))
  }

  /** The bot's token: it only starts with a non-empty `TELEGRAM_BOT_TOKEN`. */
  function Token(env: Env): (r: Option<string>)
    ensures r.Some? <==> "TELEGRAM_BOT_TOKEN" in env && env["TELEGRAM_BOT_TOKEN"] != ""
    ensures r.Some? ==> r.value == env["TELEGRAM_BOT_TOKEN"]
  {
    if "TELEGRAM_BOT_TOKEN" in env && env["TELEGRAM_BOT_TOKEN"] != "" then Some(env["TELEGRAM_BOT_TOKEN"])
    else None
  }

  /** A key the writer below can store: not empty, free of `=` and of line breaks, with no
      white space at either end. */
  predicate GoodKey(k: string) {
    k != "" && !Includes(k, "=") && !Includes(k, "\n") && !IsSpace(k[0]) && !IsSpace(k[|k| - 1])
  }

  /** A setting written as `KEY="value"`. */
  function QuotedLine(k: string, v: string): string {
    k + "=" + ("\"" + v + "\"")
  }

  /** The pairs in order as an environment, a later pair overwriting an earlier one. */
  function PairsEnv(env: Env, pairs: seq<(string, string)>): Env
    decreases |pairs|
  {
    if pairs == [] then env else PairsEnv(env[pairs[0].0 := pairs[0].1], pairs[1..])
  }

  function EnvLines(pairs: seq<(string, string)>): (r: seq<string>)
    ensures |r| == |pairs|
    ensures forall i :: 0 <= i < |r| ==> r[i] == QuotedLine(pairs[i].0, pairs[i].1)
  {
    seq(|pairs|, i requires 0 <= i < |pairs| => QuotedLine(pairs[i].0, pairs[i].1))
  }

  /** A quoted setting reads back as its key and value, whatever the value holds besides
      line terminators. */
  lemma QuotedLineRoundTrip(k: string, v: string)
    requires GoodKey(k) && NoLineTerminator(v)
    ensures ParseLine(QuotedLine(k, v)) == Some((k, v))
  {
    var raw := "\"" + v + "\"";
    QuotedValue(v);
    assert MatchLine(QuotedLine(k, v)) == Some((k, raw)) by {
      MatchKeyValue(k, raw);
    }
    TrimNoEdgeSpaces(k);
    TrimNoEdgeSpaces(raw);
    assert StripQuotes(raw) == v;
  }

  /** A value in double quotes: quotes at both ends around the value, and no line
      terminator. */
  lemma QuotedValue(v: string)
    requires NoLineTerminator(v)
    ensures var raw := "\"" + v + "\"";
            && |raw| >= 2 && raw[0] == '"' && raw[|raw| - 1] == '"' && raw[1..|raw| - 1] == v
            && NoLineTerminator(raw)
  {
    var raw := "\"" + v + "\"";
    forall j | 0 <= j < |raw|
      ensures !IsLineTerminator(raw[j])
    {
      if 0 < j < |raw| - 1 {
        assert raw[j] == v[j - 1];
      }
    }
    assert raw[1..|raw| - 1] == v;
  }

  /** A key without `=` followed by `=` and a value without line terminators matches with
      that key and value. */
  lemma MatchKeyValue(k: string, raw: string)
    requires k != "" && !Includes(k, "=") && NoLineTerminator(raw)
    ensures MatchLine(k + "=" + raw) == Some((k, raw))
  {
    var line := k + "=" + raw;
    FirstOccurrenceAfter(k, "=", raw);
    assert line[|k| + 1..] == raw;
    assert line[..|k|] == k;
  }

  /** Splitting lines joined with line feeds gives the lines back when none holds one. */
  lemma {:induction false} SplitJoinedLines(xs: seq<string>)
    requires |xs| >= 1
    requires forall i :: 0 <= i < |xs| ==> !Includes(xs[i], "\n")
    ensures Split(Join(xs, "\n"), "\n") == xs
    decreases |xs|
  {
    if |xs| == 1 {
      SplitSingleIff(xs[0], "\n");
    } else {
      var rest := Join(xs[1..], "\n");
      FirstOccurrenceAfter(xs[0], "\n", rest);
      assert Join(xs, "\n") == xs[0] + "\n" + rest;
      SplitUnfold(Join(xs, "\n"), "\n");
      assert (xs[0] + "\n" + rest)[|xs[0]| + 1..] == rest;
      assert (xs[0] + "\n" + rest)[..|xs[0]|] == xs[0];
      SplitJoinedLines(xs[1..]);
      assert [xs[0]] + xs[1..] == xs;
    }
  }

  /** Reading the quoted lines of some pairs adds the pairs in order. */
  lemma {:induction false} AddQuotedLines(env: Env, pairs: seq<(string, string)>)
    requires forall i :: 0 <= i < |pairs| ==> GoodKey(pairs[i].0) && NoLineTerminator(pairs[i].1)
    ensures AddLines(env, EnvLines(pairs)) == PairsEnv(env, pairs)
    decreases |pairs|
  {
    if pairs != [] {
      var rest := pairs[1..];
      var next := env[pairs[0].0 := pairs[0].1];
      assert AddLines(env, EnvLines(pairs)) == AddLines(next, EnvLines(rest)) by {
        FirstQuotedLine(env, pairs);
      }
      assert forall i :: 0 <= i < |rest| ==> GoodKey(rest[i].0) && NoLineTerminator(rest[i].1) by {
        forall i | 0 <= i < |rest| ensures GoodKey(rest[i].0) && NoLineTerminator(rest[i].1) {
          assert rest[i] == pairs[i + 1];
        }
      }
      AddQuotedLines(next, rest);
    }
  }

  /** Reading the first quoted line sets its pair; the other lines follow. */
  lemma FirstQuotedLine(env: Env, pairs: seq<(string, string)>)
    requires pairs != [] && GoodKey(pairs[0].0) && NoLineTerminator(pairs[0].1)
    ensures AddLines(env, EnvLines(pairs)) == AddLines(env[pairs[0].0 := pairs[0].1], EnvLines(pairs[1..]))
  {
    EnvLinesCons(pairs);
    QuotedLineRoundTrip(pairs[0].0, pairs[0].1);
    AddLinesFirst(env, EnvLines(pairs), pairs[0].0, pairs[0].1);
  }

  lemma EnvLinesCons(pairs: seq<(string, string)>)
    requires pairs != []
    ensures EnvLines(pairs)[0] == QuotedLine(pairs[0].0, pairs[0].1)
    ensures EnvLines(pairs)[1..] == EnvLines(pairs[1..])
  {
  }

  /** A first line that sets `k` to `v`. */
  lemma AddLinesFirst(env: Env, lines: seq<string>, k: string, v: string)
    requires lines != [] && ParseLine(lines[0]) == Some((k, v))
    ensures AddLines(env, lines) == AddLines(env[k := v], lines[1..])
  {
    assert AddLine(env, lines[0]) == env[k := v];
  }

  /** A file written as one quoted line per setting loads back as those settings, the last
      one winning for a repeated key. */
  lemma EnvFileRoundTrip(pairs: seq<(string, string)>)
    requires |pairs| >= 1
    requires forall i :: 0 <= i < |pairs| ==> GoodKey(pairs[i].0) && NoLineTerminator(pairs[i].1)
    ensures LoadEnv(Some(Join(EnvLines(pairs), "\n"))) == PairsEnv(map[], pairs)
  {
    var lines := EnvLines(pairs);
    forall i | 0 <= i < |lines|
      ensures !Includes(lines[i], "\n")
    {
      QuotedLineNoLineFeed(pairs[i].0, pairs[i].1);
    }
    SplitJoinedLines(lines);
    AddQuotedLines(map[], pairs);
  }

  /** Of two lines for the same key the later one wins. */
  lemma DuplicateKeyLastWins(k: string, v1: string, v2: string)
    requires GoodKey(k) && NoLineTerminator(v1) && NoLineTerminator(v2)
    ensures LoadEnv(Some(QuotedLine(k, v1) + "\n" + QuotedLine(k, v2))) == map[k := v2]
  {
    var pairs := [(k, v1), (k, v2)];
    EnvFileRoundTrip(pairs);
    assert EnvLines(pairs) == [QuotedLine(k, v1), QuotedLine(k, v2)];
    assert Join(EnvLines(pairs), "\n") == QuotedLine(k, v1) + "\n" + QuotedLine(k, v2);
    assert pairs[1..] == [(k, v2)] && [(k, v2)][1..] == [];
    assert PairsEnv(map[], pairs) == PairsEnv(map[k := v1], [(k, v2)]);
    assert PairsEnv(map[k := v1], [(k, v2)]) == PairsEnv(map[k := v1][k := v2], []);
    assert map[k := v1][k := v2] == map[k := v2];
  }

  /** A text includes a one-character text exactly when the character occurs in it. */
  lemma CharIncludes(s: string, c: char)
    ensures Includes(s, [c]) <==> exists i :: 0 <= i < |s| && s[i] == c
  {
    IncludesIff(s, [c]);
    if exists i :: 0 <= i < |s| && s[i] == c {
      var i :| 0 <= i < |s| && s[i] == c;
      assert s[i..i + 1] == [c];
      assert OccursAt(s, [c], i);
    } else {
      forall j ensures !OccursAt(s, [c], j) {
        if 0 <= j && j + 1 <= |s| {
          assert s[j..j + 1][0] == s[j];
        }
      }
    }
  }

  /** A quoted setting is a single line. */
  lemma QuotedLineNoLineFeed(k: string, v: string)
    requires !Includes(k, "\n") && NoLineTerminator(v)
    ensures !Includes(QuotedLine(k, v), "\n")
  {
    var line := QuotedLine(k, v);
    assert "\n" == ['\n'];
    CharIncludes(k, '\n');
    CharIncludes(line, '\n');
    forall j | 0 <= j < |line|
      ensures line[j] != '\n'
    {
      if j < |k| {
        assert line[j] == k[j];
      } else if |k| + 2 <= j < |line| - 1 {
        assert line[j] == v[j - |k| - 2];
      }
    }
  }

  /** A line that ends in a carriage return after its `=`, as every line of a file saved with
      CRLF line ends does, is not a setting. */
  lemma CrlfLineIgnored(k: string, v: string)
    ensures ParseLine(k + "=" + v + "\r") == None
  {
    var line := k + "=" + v + "\r";
    match IndexOf(line, "=", 0)
    case None =>
    case Some(i) =>
      assert line[|line| - 1] == '\r';
      assert line[i + 1..][|line| - i - 2] == '\r';
  }

  // ---------------------------------------------------------------- polling

  datatype Message = Message(chatId: int, firstName: string, text: string)

  /** An update; `message` is `None` for updates that carry no message. */
  datatype Update = Update(updateId: int, message: Option<Message>)

  /** The answer of one `getUpdates` call: `Failed` when the request or its decoding throws. */
  datatype PollAnswer = Failed | Answered(ok: bool, result: seq<Update>)

  datatype Reply = Reply(chatId: int, text: string)

  /** A chat id as JavaScript writes an integer. */
  function IdText(id: int): (r: string)
    ensures r != [] && (r[0] == '-' <==> id < 0)
  {
    if id < 0 then "-" + NatToString(-id) else NatToString(id)
  }

  /** Reading a chat id back from its text. */
  lemma IdTextInjective(a: int, b: int)
    requires IdText(a) == IdText(b)
    ensures a == b
  {
    IdTextDigits(a);
    IdTextDigits(b);
    if a < 0 {
      NatToStringRoundTrip(-a);
      NatToStringRoundTrip(-b);
    } else {
      NatToStringRoundTrip(a);
      NatToStringRoundTrip(b);
    }
  }

  /** The digits of a chat id's text: all of it, or all after the minus sign. */
  lemma IdTextDigits(id: int)
    ensures id < 0 ==> IdText(id)[1..] == NatToString(-id)
    ensures id >= 0 ==> IdText(id) == NatToString(id)
  {
    if id < 0 {
      assert ("-" + NatToString(-id))[1..] == NatToString(-id);
    }
  }

  /** The greeting sent back, with the chat id between backticks. */
  function ReplyText(firstName: string, chatId: int): string {
    "Hello " + firstName + "! \U{1F44B}\n\nYour Telegram Chat ID is:\n`" + IdText(chatId)
    + "`\n\nCopy this and add it to the NCP App Settings."
  }

  /** The update gets a reply when it carries a message with text. */
  predicate HasText(u: Update) {
    u.message.Some? && u.message.value.text != ""
  }

  /** The replies a batch of updates calls for, in order. */
  function RepliesFor(us: seq<Update>): (r: seq<Reply>)
    ensures |r| <= |us|
    decreases |us|
  {
    if us == [] then []
    else
      var last := us[|us| - 1];
      RepliesFor(us[..|us| - 1])
      + (if HasText(last) then [Reply(last.message.value.chatId, ReplyText(last.message.value.firstName, last.message.value.chatId))] else [])
  }

  /** Every update with text is answered in its chat, and every reply answers such an
      update. */
  lemma {:induction false} RepliesExactly(us: seq<Update>)
    ensures forall i :: 0 <= i < |us| && HasText(us[i]) ==>
              Reply(us[i].message.value.chatId, ReplyText(us[i].message.value.firstName, us[i].message.value.chatId)) in RepliesFor(us)
    ensures forall r :: r in RepliesFor(us) ==>
              exists i :: 0 <= i < |us| && HasText(us[i]) && r.chatId == us[i].message.value.chatId
                          && r.text == ReplyText(us[i].message.value.firstName, r.chatId)
    decreases |us|
  {
    if us != [] {
      var init := us[..|us| - 1];
      RepliesExactly(init);
      forall r | r in RepliesFor(us)
        ensures exists i :: 0 <= i < |us| && HasText(us[i]) && r.chatId == us[i].message.value.chatId
                            && r.text == ReplyText(us[i].message.value.firstName, r.chatId)
      {
        if r in RepliesFor(init) {
          var i :| 0 <= i < |init| && HasText(init[i]) && r.chatId == init[i].message.value.chatId
                   && r.text == ReplyText(init[i].message.value.firstName, r.chatId);
          assert us[i] == init[i];
        } else {
          assert HasText(us[|us| - 1]);
        }
      }
      forall i | 0 <= i < |us| && HasText(us[i])
        ensures Reply(us[i].message.value.chatId, ReplyText(us[i].message.value.firstName, us[i].message.value.chatId)) in RepliesFor(us)
      {
        if i < |us| - 1 {
          assert us[i] == init[i];
        }
      }
    }
  }

  /** One round of `poll`: for a successful non-empty answer, each update in turn moves the
      offset past itself and, when it carries text, is answered; any other answer leaves the
      offset and sends nothing. */
  method PollOnce(offset: int, answer: PollAnswer) returns (next: int, replies: seq<Reply>)
    ensures answer.Failed? || !answer.ok || answer.result == [] ==> next == offset && replies == []
    ensures answer.Answered? && answer.ok && answer.result != [] ==>
              next == answer.result[|answer.result| - 1].updateId + 1 && replies == RepliesFor(answer.result)
  {
    next := offset;
    replies := [];
    if answer.Failed? || !answer.ok || answer.result == [] {
      return;
    }
    var us := answer.result;
    var i := 0;
    while i < |us|
      invariant 0 <= i <= |us|
      invariant replies == RepliesFor(us[..i])
      invariant i > 0 ==> next == us[i - 1].updateId + 1
    {
      RepliesForStep(us, i);
      next := us[i].updateId + 1;
      if HasText(us[i]) {
        var m := us[i].message.value;
        replies := replies + [Reply(m.chatId, ReplyText(m.firstName, m.chatId))];
      }
      i := i + 1;
    }
    assert us[..i] == us;
  }

  /** Handling one more update adds its reply, if any, after the earlier ones. */
  lemma RepliesForStep(us: seq<Update>, i: nat)
    requires i < |us|
    ensures var u := us[i];
            RepliesFor(us[..i + 1]) == RepliesFor(us[..i])
              + (if HasText(u) then [Reply(u.message.value.chatId, ReplyText(u.message.value.firstName, u.message.value.chatId))] else [])
  {
    assert us[..i + 1][..i] == us[..i];
  }

  /** Update ids arrive in increasing order, so the new offset is past every update just
      handled and none of them is delivered again. */
  lemma OffsetPassesBatch(us: seq<Update>)
    requires us != []
    requires forall i, j :: 0 <= i < j < |us| ==> us[i].updateId < us[j].updateId
    ensures forall i :: 0 <= i < |us| ==> us[i].updateId < us[|us| - 1].updateId + 1
  {
  }
}

=== FILE: camera_registry.dfy ===
/** The owner's camera dashboard: the device id cameras are filed under, the add form and the
    location picked on the map, saving a camera, deleting one, and switching one on or off
    with an optimistic update that is undone when the write fails. */
module CameraRegistry {
  import opened Options
  import opened Seqs
  import MapMarkers

  /** The id cameras are saved under: the stored device id, `anon` when there is none. */
  function UserIdOf(stored: string): (r: string)
    ensures r != ""
    ensures stored != "" ==> r == stored
    ensures stored == "" ==> r == "anon"
  {
    if stored != "" then stored else "anon"
  }

  /** A coordinate field of the form: text typed into the input, or a number filled in from a
      location picked on the map. */
  datatype Coord = Typed(text: string) | Picked(value: real)

  /** JavaScript truthiness of a field: a non-empty text, a non-zero number. */
  predicate Filled(c: Coord) {
    match c
    case Typed(t) => t != ""
    case Picked(v) => v != 0.0
  }

  /** `parseFloat` of a field: the given text parser for typed text; a picked number reads
      back as itself. */
  function CoordValue(c: Coord, parseFloat: string -> real): real {
    match c
    case Typed(t) => parseFloat(t)
    case Picked(v) => v
  }

  datatype CameraForm = CameraForm(name: string, streamUrl: string, lat: Coord, lng: Coord)

  const EmptyForm: CameraForm := CameraForm("", "", Typed(""), Typed(""))

  datatype View = ListView | AddView

  /** A row of the owner's camera table. */
  datatype CameraRow = CameraRow(
    id: string,
    ownerId: string,
    name: string,
    streamUrl: string,
    lat: real,
    lng: real,
    active: bool)

  /** The record handed to the insert; the table assigns the id. */
  datatype NewCamera = NewCamera(ownerId: string, name: string, streamUrl: string, lat: real, lng: real, active: bool)

  /** The dashboard's state: the listed cameras, the view, the form and the owner id. */
  datatype Dashboard = Dashboard(cameras: seq<CameraRow>, view: View, form: CameraForm, userId: string)

  /** The dashboard as first shown: no cameras, the list view, an empty form. */
  function Opened(storedId: string): (r: Dashboard)
    ensures r.cameras == [] && r.view == ListView && r.form == EmptyForm
    ensures r.userId == UserIdOf(storedId)
  {
    Dashboard([], ListView, EmptyForm, UserIdOf(storedId))
  }

  /** The effect on a picked location: both coordinates are filled in, name and stream are
      kept, and the add view is shown; without a picked location nothing changes. */
  function ApplyPicked(d: Dashboard, picked: Option<MapMarkers.Pos>): (r: Dashboard)
    ensures picked.None? ==> r == d
    ensures picked.Some? ==>
              && r.view == AddView
              && r.form == d.form.(lat := Picked(picked.value.lat), lng := Picked(picked.value.lng))
              && r.cameras == d.cameras && r.userId == d.userId
  {
    match picked
    case None => d
    case Some(p) => d.(form := d.form.(lat := Picked(p.lat), lng := Picked(p.lng)), view := AddView)
  }

  /** `fetchCameras`: an answer replaces the list, a failed query keeps it. */
  function Refetch(cameras: seq<CameraRow>, answer: Option<seq<CameraRow>>): (r: seq<CameraRow>)
    ensures answer.Some? ==> r == answer.value
    ensures answer.None? ==> r == cameras
  {
    answer.GetOr(cameras)
  }

  /** Saving requires every field to be filled. */
  predicate SaveAllowed(f: CameraForm) {
    f.name != "" && f.streamUrl != "" && Filled(f.lat) && Filled(f.lng)
  }

  /** What a save did: the dashboard afterwards, the record handed to the insert (if any),
      and whether an alert was shown. */
  datatype SaveResult = SaveResult(after: Dashboard, inserted: Option<NewCamera>, alerted: bool)

  /** `handleSave`: a form with an empty field raises an alert and inserts nothing; otherwise
      the owner's inactive camera is inserted. A failed insert alerts and keeps everything; a
      successful one empties the form, returns to the list and refetches it. */
  function Save(d: Dashboard, parseFloat: string -> real, insertOk: bool, refetched: Option<seq<CameraRow>>): (r: SaveResult)
    ensures !SaveAllowed(d.form) ==> r == SaveResult(d, None, true)
    ensures SaveAllowed(d.form) ==>
              r.inserted == Some(NewCamera(d.userId, d.form.name, d.form.streamUrl,
                                           CoordValue(d.form.lat, parseFloat),
                                           CoordValue(d.form.lng, parseFloat), false))
    ensures r.inserted.Some? ==> !r.inserted.value.active && r.inserted.value.ownerId == d.userId
    ensures r.alerted <==> !(SaveAllowed(d.form) && insertOk)
    ensures r.alerted ==> r.after == d
    ensures !r.alerted ==>
              r.after == Dashboard(Refetch(d.cameras, refetched), ListView, EmptyForm, d.userId)
  {
    if !SaveAllowed(d.form) then SaveResult(d, None, true)
    else
      var rec := NewCamera(d.userId, d.form.name, d.form.streamUrl,
                           CoordValue(d.form.lat, parseFloat), CoordValue(d.form.lng, parseFloat), false);
      if !insertOk then SaveResult(d, Some(rec), true)
      else SaveResult(Dashboard(Refetch(d.cameras, refetched), ListView, EmptyForm, d.userId), Some(rec), false)
  }

  /** What a delete did: the dashboard afterwards, whether the delete was sent, and whether an
      alert was shown. */
  datatype DeleteResult = DeleteResult(after: Dashboard, sent: bool, alerted: bool)

  /** `handleDelete`: nothing without confirmation; after a successful delete every listed
      camera with that id is gone, after a failed one an alert is shown and the list kept. */
  function Delete(d: Dashboard, id: string, confirmed: bool, deleteOk: bool): (r: DeleteResult)
    ensures r.sent <==> confirmed
    ensures r.alerted <==> confirmed && !deleteOk
    ensures !(confirmed && deleteOk) ==> r.after == d
    ensures r.after == d.(cameras := r.after.cameras)
    ensures confirmed && deleteOk ==>
              forall c :: c in r.after.cameras <==> c in d.cameras && c.id != id
    ensures |r.after.cameras| <= |d.cameras|
  {
    if !confirmed then DeleteResult(d, false, false)
    else if !deleteOk then DeleteResult(d, true, true)
    else DeleteResult(d.(cameras := Filter((c: CameraRow) => c.id != id, d.cameras)), true, false)
  }

  /** `map(c => c.id === id ? {...c, is_active: value} : c)`. */
  function SetActive(cameras: seq<CameraRow>, id: string, value: bool): (r: seq<CameraRow>)
    ensures |r| == |cameras|
    ensures forall i :: 0 <= i < |r| && cameras[i].id == id ==> r[i] == cameras[i].(active := value)
    ensures forall i :: 0 <= i < |r| && cameras[i].id != id ==> r[i] == cameras[i]
    decreases |cameras|
  {
    if cameras == [] then []
    else [if cameras[0].id == id then cameras[0].(active := value) else cameras[0]]
         + SetActive(cameras[1..], id, value)
  }

  /** What a toggle did: the list afterwards and whether an alert was shown. */
  datatype ToggleResult = ToggleResult(cameras: seq<CameraRow>, alerted: bool)

  /** `toggleActive(id, currentState)`: the camera is switched to `!currentState` at once;
      when the write fails it is set back to `currentState` and an alert is shown. */
  function ToggleActive(cameras: seq<CameraRow>, id: string, currentState: bool, updateOk: bool): (r: ToggleResult)
    ensures r.alerted <==> !updateOk
    ensures |r.cameras| == |cameras|
    ensures forall i :: 0 <= i < |cameras| && cameras[i].id != id ==> r.cameras[i] == cameras[i]
    ensures forall i :: 0 <= i < |cameras| && cameras[i].id == id ==>
              r.cameras[i] == cameras[i].(active := if updateOk then !currentState else currentState)
  {
    var optimistic := SetActive(cameras, id, !currentState);
    if updateOk then ToggleResult(optimistic, false)
    else ToggleResult(SetActive(optimistic, id, currentState), true)
  }

  /** When the button passed the camera's shown state, a failed toggle gives back exactly the
      list it started from, and a successful one flips just that camera. */
  lemma ToggleFailureRestores(cameras: seq<CameraRow>, id: string, currentState: bool)
    requires forall c :: c in cameras && c.id == id ==> c.active == currentState
    ensures ToggleActive(cameras, id, currentState, false).cameras == cameras
    ensures forall i :: 0 <= i < |cameras| && cameras[i].id == id ==>
              ToggleActive(cameras, id, currentState, true).cameras[i].active != cameras[i].active
  {
    var r := ToggleActive(cameras, id, currentState, false).cameras;
    forall i | 0 <= i < |cameras|
      ensures r[i] == cameras[i]
    {
      assert cameras[i] in cameras;
    }
  }

  /** A failed toggle on a stale state does not restore: the camera ends at the state the
      button passed, whatever the list held. */
  lemma ToggleFailureStale(c: CameraRow)
    ensures ToggleActive([c], c.id, !c.active, false).cameras == [c.(active := !c.active)]
  {
    var r := ToggleActive([c], c.id, !c.active, false).cameras;
    assert r[0] == c.(active := !c.active);
  }

  /** Picking a location and saving a named camera inserts the owner's inactive camera at the
      picked point, and leaves an empty form on the list view. A point on the equator or the
      prime meridian reads as an empty field and is refused. */
  lemma PickThenSave(d: Dashboard, p: MapMarkers.Pos, parseFloat: string -> real, refetched: Option<seq<CameraRow>>)
    requires d.form.name != "" && d.form.streamUrl != ""
    ensures var r := Save(ApplyPicked(d, Some(p)), parseFloat, true, refetched);
            (p.lat != 0.0 && p.lng != 0.0 <==> !r.alerted)
            && (!r.alerted ==>
                  && r.inserted == Some(NewCamera(d.userId, d.form.name, d.form.streamUrl, p.lat, p.lng, false))
                  && r.after.form == EmptyForm && r.after.view == ListView)
  {
  }

  /** A saved camera is inserted switched off, so the public map leaves its markers as they
      are until the owner switches it on; switching it on then shows it at its saved place. */
  lemma SavedCameraHiddenUntilActivated(reg: map<MapMarkers.Id, MapMarkers.CameraMarker>, rec: NewCamera, id: string)
    requires !rec.active
    ensures var cam := MapMarkers.Camera(id, MapMarkers.Pos(rec.lat, rec.lng), rec.streamUrl, rec.name, rec.active);
            && MapMarkers.ApplyCameraEvent(reg, MapMarkers.CameraEvent(MapMarkers.Insert, Some(cam), None)) == reg
            && MapMarkers.ApplyCameraEvent(reg, MapMarkers.CameraEvent(MapMarkers.Update, Some(cam.(active := true)), None))[id].pos
               == MapMarkers.Pos(rec.lat, rec.lng)
  {
  }

  /** A second successful delete of the same id finds nothing left to remove. */
  lemma DeleteTwice(d: Dashboard, id: string)
    ensures var once := Delete(d, id, true, true).after;
            Delete(once, id, true, true).after == once
  {
    var keep := (c: CameraRow) => c.id != id;
    var once := Delete(d, id, true, true).after;
    assert once.cameras == Filter(keep, d.cameras);
    assert forall i :: 0 <= i < |once.cameras| ==> keep(once.cameras[i]) by {
      forall i | 0 <= i < |once.cameras| ensures keep(once.cameras[i]) {
        assert once.cameras[i] in once.cameras;
      }
    }
    FilterAll(keep, once.cameras);
  }

  /** After a successful delete, refetching the owner's table (which the delete has also
      left without that id) shows what the local list already shows. */
  lemma RefetchAgreesWithDelete(d: Dashboard, id: string)
    ensures var after := Delete(d, id, true, true).after;
            Refetch(after.cameras, Some(Filter((c: CameraRow) => c.id != id, d.cameras))) == after.cameras
    ensures Refetch(d.cameras, None) == d.cameras
  {
  }
}

=== FILE: chat_compose.dfy ===
/** The chat composer: the submit guard, the media kind of an attached file, the `support_`
    tag that marks support messages, the record handed to the insert, the state after a
    submit attempt, the upload file name and the `m:ss` recording timer. */
module ChatCompose {
  import opened Options
  import opened JsText
  import opened JsNumber
  import opened ChatFeed
  import opened Uploads

  /** An attached file (picked or recorded): its name and MIME type. */
  datatype MediaFile = MediaFile(name: string, mimeType: string)

  /** The composer's state: the typed text, the attached file and the in-flight flag. */
  datatype Draft = Draft(message: string, media: Option<MediaFile>, sending: bool)

  const EmptyDraft: Draft := Draft("", None, false)

  /** Submit does nothing when there is neither text (after trimming) nor media, or while a
      send is in flight. */
  predicate Blocked(d: Draft) {
    (Trim(d.message) == "" && d.media.None?) || d.sending
  }

  /** The stored media kind of an attached file, from its MIME type. */
  function MediaKind(mime: string): (r: string)
    ensures r == "audio" || r == "image" || r == "video"
    ensures r == "audio" <==> StartsWith(mime, "audio/")
    ensures r == "image" <==> !StartsWith(mime, "audio/") && StartsWith(mime, "image/")
  {
    if StartsWith(mime, "audio/") then "audio"
    else if StartsWith(mime, "image/") then "image"
    else "video"
  }

  /** The `media_type` column: the kind (`""` for none) on ordinary feeds; on the support feed
      the kind behind a `support_` tag, or `support_text` for a message without media. */
  function TaggedType(feed: string, kind: string): (r: string)
    ensures feed != SupportFeed ==> r == kind
    ensures feed == SupportFeed ==> StartsWith(r, "support_")
    ensures feed == SupportFeed && kind == "" ==> r == "support_text"
    ensures feed == SupportFeed && kind != "" ==> r[8..] == kind
  {
    if feed == SupportFeed then
      var t := if kind != "" then "support_" + kind else "support_text";
      assert t[..8] == "support_";
      t
    else kind
  }

  /** The tag is exactly what the list removes again, and it marks the message as support
      exactly on the support feed. */
  lemma TaggedTypeRoundTrip(feed: string, kind: string)
    requires kind == "audio" || kind == "image" || kind == "video"
    ensures RawType(TaggedType(feed, kind)) == kind
    ensures var t := TaggedType(feed, kind);
            (t != "" && StartsWith(t, "support")) <==> feed == SupportFeed
  {
    var t := TaggedType(feed, kind);
    if feed == SupportFeed {
      RawTypeOfTagged(kind);
      assert t[..7] == "support";
    }
  }

  /** The environment a submit runs in: the device location (`None` when denied or
      unavailable), the public URL of the uploaded file (`None` when the upload reports an
      error), whether the insert succeeds, the stored username and device id (`""` when
      absent), and the time-and-random stamp of the upload name. */
  datatype Environment = Environment(
    location: Option<Point>,
    upload: Option<string>,
    insertOk: bool,
    storedName: string,
    storedId: string,
    stamp: string)

  /** What a submit attempt did: the record handed to the insert (if any), the name the file
      was uploaded under (if any), whether the failure alert was shown, and the composer
      state afterwards. */
  datatype Submission = Submission(
    record: Option<ChatMessage>,
    uploadName: Option<string>,
    alerted: bool,
    after: Draft)

  /** The record inserted for a message, given the uploaded media's URL and kind. */
  function Record(feed: string, message: string, media: Option<(string, string)>, env: Environment): (r: ChatMessage)
    ensures r.content == Trim(message) && !r.isAdmin
    ensures r.username == PostingName(env.storedName) && r.userId == env.storedId
    ensures media.None? ==> r.mediaUrl == ""
    ensures media.Some? ==> r.mediaUrl == media.value.0
    ensures r.mediaType == TaggedType(feed, if media.Some? then media.value.1 else "")
    ensures feed == NearbyFeed && env.location.Some? ==>
              r.lat == Some(env.location.value.lat) && r.lng == Some(env.location.value.lng)
    ensures feed != NearbyFeed || env.location.None? ==> r.lat.None? && r.lng.None?
  {
    var lat := if feed == NearbyFeed && env.location.Some? then Some(env.location.value.lat) else None;
    var lng := if feed == NearbyFeed && env.location.Some? then Some(env.location.value.lng) else None;
    var url := if media.Some? then media.value.0 else "";
    var kind := if media.Some? then media.value.1 else "";
    ChatMessage(Trim(message), url, TaggedType(feed, kind), PostingName(env.storedName), env.storedId, false, lat, lng)
  }

  /** `handleSubmit`: the guard, the upload (whose error aborts before the insert), the insert,
      then clearing on success or an alert on failure; the in-flight flag always ends false. */
  function Submit(feed: string, d: Draft, env: Environment): (r: Submission)
    ensures Blocked(d) ==> r == Submission(None, None, false, d)
    ensures !Blocked(d) ==> !r.after.sending
    ensures !Blocked(d) ==> (r.after == EmptyDraft <==> r.record.Some? && env.insertOk)
    ensures !Blocked(d) ==> (r.alerted <==> !(r.record.Some? && env.insertOk))
    ensures r.alerted ==> r.after == d.(sending := false)
    ensures r.record.Some? <==> !Blocked(d) && (d.media.None? || env.upload.Some?)
    ensures r.uploadName.Some? <==> !Blocked(d) && d.media.Some?
  {
    if Blocked(d) then Submission(None, None, false, d)
    else
      var failed := Submission(None, None, true, d.(sending := false));
      match d.media
      case None =>
        var rec := Record(feed, d.message, None, env);
        if env.insertOk then Submission(Some(rec), None, false, EmptyDraft)
        else failed.(record := Some(rec))
      case Some(f) =>
        var name := UploadName(env.stamp, f.name);
        match env.upload
        case None => failed.(uploadName := Some(name))
        case Some(url) =>
          var rec := Record(feed, d.message, Some((url, MediaKind(f.mimeType))), env);
          if env.insertOk then Submission(Some(rec), Some(name), false, EmptyDraft)
          else failed.(record := Some(rec), uploadName := Some(name))
  }

  /** A message sent from a feed's composer reaches the same feed's realtime list: it is
      admitted there (every feed but the admin one), shown with the media kind of its file,
      and recognised as the sender's own when the sender has a device id. */
  lemma SentMessageShowsInOwnFeed(feed: string, d: Draft, env: Environment)
    requires feed != AdminFeed
    requires env.upload.Some? ==> env.upload.value != ""
    requires Submit(feed, d, env).record.Some?
    ensures var rec := Submit(feed, d, env).record.value;
            && Admitted(feed, rec)
            && !Admitted(AdminFeed, rec)
            && (env.storedId != "" ==> IsOwn(env.storedName, env.storedId, rec))
            && (d.media.None? ==> MediaViewOf(rec) == NoMedia)
            && (d.media.Some? ==>
                  var kind := MediaKind(d.media.value.mimeType);
                  (MediaViewOf(rec) == VideoPlayer <==> kind == "video")
                  && (MediaViewOf(rec) == AudioPlayer <==> kind == "audio"))
  {
    var rec := Submit(feed, d, env).record.value;
    if d.media.Some? {
      TaggedTypeRoundTrip(feed, MediaKind(d.media.value.mimeType));
    } else if feed == SupportFeed {
      assert rec.mediaType == "support_text";
      assert rec.mediaType[..7] == "support";
    }
  }

  /** `formatTime`: whole minutes, a colon, and the seconds padded to two digits. */
  function FormatTime(seconds: nat): (r: string)
    ensures |r| >= 4 && r[|r| - 3] == ':'
  {
    var secs := seconds % 60;
    NatToStringNoLeadingZero(seconds / 60);
    SecondsWidth(secs);
    NatToString(seconds / 60) + ":" + (if secs < 10 then "0" else "") + NatToString(secs)
  }

  /** A number of seconds below a minute renders in one digit below ten and two otherwise. */
  lemma SecondsWidth(secs: nat)
    requires secs < 60
    ensures |NatToString(secs)| == (if secs < 10 then 1 else 2)
  {
    NatToStringNoLeadingZero(secs);
    if secs >= 10 {
      NatToStringNoLeadingZero(secs / 10);
    }
  }

  /** Reading the timer back: the text before the colon is the number of minutes, and the two
      digits after it are the remaining seconds. */
  lemma FormatTimeRoundTrip(seconds: nat)
    ensures var r := FormatTime(seconds);
            AllDigits(r[..|r| - 3]) && AllDigits(r[|r| - 2..])
            && DigitsValue(r[..|r| - 3]) == seconds / 60
            && DigitsValue(r[|r| - 2..]) == seconds % 60
  {
    var r := FormatTime(seconds);
    var secs := seconds % 60;
    var mins := NatToString(seconds / 60);
    var pad := if secs < 10 then "0" else "";
    var tail := pad + NatToString(secs);
    SecondsWidth(secs);
    assert r == mins + ":" + tail;
    assert r[..|r| - 3] == mins;
    assert r[|r| - 2..] == tail;
    NatToStringRoundTrip(seconds / 60);
    NatToStringRoundTrip(secs);
    if secs < 10 {
      assert tail[..1] == "0";
      assert tail[1..] == NatToString(secs);
      assert DigitsValue(tail[..1]) == 0;
    } else {
      assert tail == NatToString(secs);
    }
  }

  /** Two renderings of the timer coincide only for the same number of seconds. */
  lemma FormatTimeInjective(a: nat, b: nat)
    requires FormatTime(a) == FormatTime(b)
    ensures a == b
  {
    FormatTimeRoundTrip(a);
    FormatTimeRoundTrip(b);
  }

  /** The stored kind comes back as the player the list shows: audio files play as audio,
      images show as images, and anything else plays as video, on every feed. */
  lemma MediaKindShown(feed: string, mime: string, m: ChatMessage)
    requires m.mediaUrl != "" && m.mediaType == TaggedType(feed, MediaKind(mime))
    ensures MediaViewOf(m) == AudioPlayer <==> StartsWith(mime, "audio/")
    ensures MediaViewOf(m) == ImageView <==> !StartsWith(mime, "audio/") && StartsWith(mime, "image/")
    ensures MediaViewOf(m) == VideoPlayer <==> !StartsWith(mime, "audio/") && !StartsWith(mime, "image/")
  {
    TaggedTypeRoundTrip(feed, MediaKind(mime));
  }
}

=== FILE: chat_feed.dfy ===
/** The chat list of one feed: which realtime inserts a feed admits, how the initial fetch
    and its fallbacks set the list, the client-side nearby filter, the media view of a
    message, and the "own message" test. Feeds are named by the strings the list receives:
    `"nearby"`, `"public"`, `"admin"`, `"support"` (any other name behaves like a public
    feed). */
module ChatFeed {
  import opened Options
  import opened Seqs
  import opened JsText

  /** A row of `public_chats`. A null or missing text column is `""`; a missing coordinate
      is `None`. */
  datatype ChatMessage = ChatMessage(
    content: string,
    mediaUrl: string,
    mediaType: string,
    username: string,
    userId: string,
    isAdmin: bool,
    lat: Option<real>,
    lng: Option<real>)

  const AdminFeed: string := "admin"
  const SupportFeed: string := "support"
  const NearbyFeed: string := "nearby"

  /** Support messages carry a `media_type` starting with `support` (case-sensitive). */
  predicate IsSupport(m: ChatMessage) {
    m.mediaType != "" && StartsWith(m.mediaType, "support")
  }

  /** The messages a feed should ever show from the realtime channel: the admin feed only
      admin messages, the support feed exactly the support messages, every other feed
      exactly the non-support ones. */
  predicate Admitted(feed: string, m: ChatMessage) {
    (feed == AdminFeed ==> m.isAdmin) && (IsSupport(m) <==> feed == SupportFeed)
  }

  /** The realtime INSERT handler: the three early returns, then an append at the end. */
  function OnInsert(feed: string, shown: seq<ChatMessage>, m: ChatMessage): (r: seq<ChatMessage>)
    ensures Admitted(feed, m) ==> r == shown + [m]
    ensures !Admitted(feed, m) ==> r == shown
  {
    if feed == AdminFeed && !m.isAdmin then shown
    else
      var isSupport := m.mediaType != "" && StartsWith(m.mediaType, "support");
      if feed == SupportFeed && !isSupport then shown
      else if feed != SupportFeed && isSupport then shown
      else shown + [m]
  }

  /** A run of realtime inserts, in arrival order. */
  function OnInserts(feed: string, shown: seq<ChatMessage>, ms: seq<ChatMessage>): seq<ChatMessage>
    decreases |ms|
  {
    if ms == [] then shown else OnInserts(feed, OnInsert(feed, shown, ms[0]), ms[1..])
  }

  /** Realtime inserts append exactly the admitted messages, in arrival order, after what was
      already shown. */
  lemma {:induction false} OnInsertsAppendAdmitted(feed: string, shown: seq<ChatMessage>, ms: seq<ChatMessage>)
    ensures OnInserts(feed, shown, ms) == shown + Filter(m => Admitted(feed, m), ms)
    decreases |ms|
  {
    if ms != [] {
      var keep := m => Admitted(feed, m);
      OnInsertsAppendAdmitted(feed, OnInsert(feed, shown, ms[0]), ms[1..]);
      assert ms == [ms[0]] + ms[1..];
      FilterAppend(keep, [ms[0]], ms[1..]);
      assert Filter(keep, [ms[0]]) == (if keep(ms[0]) then [ms[0]] else []) by {
        assert [ms[0]][1..] == [];
      }
    }
  }

  /** Everything the realtime channel adds to a feed is admitted there, so the support feed
      and every other feed never receive the same message. */
  lemma RealtimeAddsOnlyAdmitted(feed: string, shown: seq<ChatMessage>, ms: seq<ChatMessage>)
    ensures var r := OnInserts(feed, shown, ms);
            |shown| <= |r| && r[..|shown|] == shown
            && (forall k :: |shown| <= k < |r| ==> Admitted(feed, r[k]))
            && (forall k :: |shown| <= k < |r| ==> (IsSupport(r[k]) <==> feed == SupportFeed))
  {
    OnInsertsAppendAdmitted(feed, shown, ms);
    var added := Filter(m => Admitted(feed, m), ms);
    var r := shown + added;
    forall k | |shown| <= k < |r| ensures Admitted(feed, r[k]) {
      assert r[k] == added[k - |shown|];
      assert r[k] in added;
    }
  }

  /** What the row query returned: `data` is null (`None`) or a list of rows, and the error
      flag says whether the query reported an error. */
  datatype QueryAnswer = QueryAnswer(data: Option<seq<ChatMessage>>, failed: bool)

  /** One run of `fetchMessages`: the first query either threw or answered, and the admin
      fallback query (consulted only after an admin query error) either threw or answered
      with `data` (null as `None`). */
  datatype FetchRun =
    | QueryThrew
    | Answered(first: QueryAnswer, retry: RetryRun)

  datatype RetryRun = RetryThrew | RetryAnswered(data: Option<seq<ChatMessage>>)

  /** The list after `fetchMessages`, given the list shown when it finished. */
  function AfterFetch(feed: string, current: seq<ChatMessage>, run: FetchRun): (r: seq<ChatMessage>)
    ensures run.QueryThrew? ==> r == []
    ensures run.Answered? && run.first.failed && feed == AdminFeed ==>
              r == (match run.retry
                    case RetryThrew => []
                    case RetryAnswered(d) => d.GetOr(current))
    ensures run.Answered? && !(run.first.failed && feed == AdminFeed) ==>
              r == (if run.first.data.Some? then run.first.data.value
                    else if run.first.failed then [] else current)
  {
    match run
    case QueryThrew => []
    case Answered(first, retry) =>
      if first.failed && feed == AdminFeed then
        match retry
        case RetryThrew => []
        case RetryAnswered(d) => if d.Some? then d.value else current
      else if first.data.Some? then first.data.value
      else if first.failed then []
      else current
  }

  /** Only the admin feed ever consults the fallback query, and only after an error. */
  lemma RetryOnlyForAdmin(feed: string, current: seq<ChatMessage>, first: QueryAnswer, a: RetryRun, b: RetryRun)
    requires feed != AdminFeed || !first.failed
    ensures AfterFetch(feed, current, Answered(first, a)) == AfterFetch(feed, current, Answered(first, b))
  {
  }

  /** After an error a non-admin feed shows that answer's rows or nothing; the admin feed
      shows the fallback's rows, keeps its list, or empties it. */
  lemma FailedFetchFallback(feed: string, current: seq<ChatMessage>, first: QueryAnswer, retry: RetryRun)
    requires first.failed
    ensures var r := AfterFetch(feed, current, Answered(first, retry));
            feed != AdminFeed ==> r == first.data.GetOr([])
    ensures var r := AfterFetch(feed, current, Answered(first, retry));
            feed == AdminFeed ==> r == [] || r == current || (retry.RetryAnswered? && retry.data == Some(r))
  {
  }

  /** `!x` for a coordinate: missing, or zero. */
  predicate Truthy(x: Option<real>) { x.Some? && x.value != 0.0 }

  /** The nearby radius actually used by the filter (in the distance function's units). */
  const NearbyRadius: real := 50000.0

  /** The viewer's location, once the browser has reported it. */
  datatype Point = Point(lat: real, lng: real)

  /** The client-side filter of one message. The great-circle distance is the parameter
      `dist(lat1, lng1, lat2, lng2)`. */
  predicate Visible(feed: string, me: Option<Point>, dist: (real, real, real, real) -> real, m: ChatMessage) {
    if feed == NearbyFeed then
      if !Truthy(m.lat) || !Truthy(m.lng) || me.None? then false
      else dist(me.value.lat, me.value.lng, m.lat.value, m.lng.value) < NearbyRadius
    else true
  }

  /** Within radius of a known viewer location, with both coordinates present and non-zero. */
  predicate NearViewer(me: Option<Point>, dist: (real, real, real, real) -> real, m: ChatMessage) {
    && Truthy(m.lat) && Truthy(m.lng) && me.Some?
    && dist(me.value.lat, me.value.lng, m.lat.value, m.lng.value) < NearbyRadius
  }

  /** `filteredMessages`: the nearby feed keeps exactly the messages near the viewer, in
      order; every other feed keeps the list as it is. */
  function Shown(feed: string, me: Option<Point>, dist: (real, real, real, real) -> real, msgs: seq<ChatMessage>): (r: seq<ChatMessage>)
    ensures feed != NearbyFeed ==> r == msgs
    ensures feed == NearbyFeed ==> forall m :: m in r <==> m in msgs && NearViewer(me, dist, m)
    ensures feed == NearbyFeed && me.None? ==> r == []
  {
    var keep := m => Visible(feed, me, dist, m);
    var r := Filter(keep, msgs);
    assert feed != NearbyFeed ==> r == msgs by {
      if feed != NearbyFeed { FilterAll(keep, msgs); }
    }
    assert |r| > 0 ==> r[0] in r;
    r
  }

  /** The filter works message by message: the list shown for a concatenation is the two
      shown lists in order, and a single message is shown once when near the viewer and
      not at all otherwise. Together these fix the order and the count of what is shown. */
  lemma ShownAppend(feed: string, me: Option<Point>, dist: (real, real, real, real) -> real, xs: seq<ChatMessage>, ys: seq<ChatMessage>)
    ensures Shown(feed, me, dist, xs + ys) == Shown(feed, me, dist, xs) + Shown(feed, me, dist, ys)
    ensures forall m :: Shown(NearbyFeed, me, dist, [m]) == if NearViewer(me, dist, m) then [m] else []
  {
    FilterAppend(m => Visible(feed, me, dist, m), xs, ys);
    forall m ensures Shown(NearbyFeed, me, dist, [m]) == if NearViewer(me, dist, m) then [m] else [] {
      assert [m][1..] == [];
    }
  }

  /** The nearby feed hides a message at latitude or longitude exactly zero, even when the
      viewer stands on it. */
  lemma ZeroCoordinateHidden(dist: (real, real, real, real) -> real, m: ChatMessage)
    requires m.lat == Some(0.0)
    ensures Shown(NearbyFeed, Some(Point(0.0, 0.0)), dist, [m]) == []
  {
    var r := Shown(NearbyFeed, Some(Point(0.0, 0.0)), dist, [m]);
    assert forall x :: x !in r;
  }

  /** How `ChatItem` shows a message's media. */
  datatype MediaView = NoMedia | VideoPlayer | AudioPlayer | ImageView

  /** `media_type` with the first `support_` removed (wherever it occurs), `""` when unset. */
  function RawType(mediaType: string): (r: string)
    ensures !Includes(mediaType, "support_") ==> r == mediaType
    ensures |r| <= |mediaType|
  {
    if mediaType == "" then "" else ReplaceFirst(mediaType, "support_", "")
  }

  /** No media without a media URL; with one, a video or audio player for the types `video`
      and `audio` (after the support tag is removed), an image for any other type. */
  function MediaViewOf(m: ChatMessage): (r: MediaView)
    ensures r.NoMedia? <==> m.mediaUrl == ""
    ensures r.VideoPlayer? <==> m.mediaUrl != "" && RawType(m.mediaType) == "video"
    ensures r.AudioPlayer? <==> m.mediaUrl != "" && RawType(m.mediaType) == "audio"
  {
    var raw := RawType(m.mediaType);
    if m.mediaUrl == "" then NoMedia
    else if raw == "video" then VideoPlayer
    else if raw == "audio" then AudioPlayer
    else ImageView
  }

  /** The support tag put in front of a kind is the one `RawType` removes. */
  lemma RawTypeOfTagged(kind: string)
    ensures RawType("support_" + kind) == kind
  {
    var s := "support_" + kind;
    assert OccursAt(s, "support_", 0) by { assert s[..8] == "support_"; }
    assert IndexOf(s, "support_", 0) == Some(0);
    assert s[8..] == kind;
  }

  /** A tag that is not a prefix is removed too: the first occurrence goes wherever it is. */
  lemma RawTypeStripsInside()
    ensures RawType("x_support_video") == "x_video"
  {
    TagFoundAtTwo();
    TagRemovedAtTwo();
  }

  /** The tag's first occurrence in `x_support_video` is at index 2. */
  lemma TagFoundAtTwo()
    ensures IndexOf("x_support_video", "support_", 0) == Some(2)
  {
    var s := "x_support_video";
    var tag := "support_";
    assert OccursAt(s, tag, 2) by { assert s[2..10] == tag; }
    assert forall j :: 0 <= j < 2 ==> !OccursAt(s, tag, j) by {
      assert s[0..8][0] == 'x' && s[1..9][0] == '_';
    }
    IndexOfFirst(s, tag, 2);
  }

  /** Removing the eight tag characters at index 2 leaves `x_video`. */
  lemma TagRemovedAtTwo()
    ensures var s := "x_support_video"; s[..2] + "" + s[2 + 8..] == "x_video"
  {
    var s := "x_support_video";
    assert s[..2] == ['x', '_'];
    assert s[10..] == ['v', 'i', 'd', 'e', 'o'];
  }

  /** The name a viewer posts under: the stored username, or `Anonymous` when none (or an
      empty one) is stored. */
  function PostingName(storedName: string): (r: string)
    ensures r != ""
    ensures storedName != "" ==> r == storedName
  {
    if storedName != "" then storedName else "Anonymous"
  }

  /** `isOwn` for a viewer with the given stored username and device id (`""` when absent). */
  predicate IsOwn(storedName: string, storedId: string, m: ChatMessage) {
    var me := PostingName(storedName);
    if me != "Anonymous" && m.username == me then true
    else m.userId != "" && m.userId == storedId
  }

  /** Ownership: by name only for a viewer whose name is not `Anonymous`, otherwise by a
      non-empty device id; a viewer with neither owns nothing. */
  lemma IsOwnIff(storedName: string, storedId: string, m: ChatMessage)
    ensures IsOwn(storedName, storedId, m) <==>
              (storedName != "" && storedName != "Anonymous" && m.username == storedName)
              || (m.userId != "" && m.userId == storedId)
    ensures (storedName == "" || storedName == "Anonymous") && storedId == "" ==> !IsOwn(storedName, storedId, m)
  {
  }
}

=== FILE: chat_tabs.dfy ===
/** The chat hub: the active tab, the feed its list and composer are given, and the buttons
    that change tabs. */
module ChatTabs {
  import opened Options
  import opened ChatFeed
  import opened ChatCompose

  /** The hub's tabs; the support tab has no button of its own. */
  datatype Tab = Nearby | Nationwide | Official | Support

  const InitialTab: Tab := Nearby

  /** The tab id kept in state. */
  function TabId(t: Tab): string {
    match t
    case Nearby => "nearby"
    case Nationwide => "nationwide"
    case Official => "admin"
    case Support => "support"
  }

  /** The feed name handed to the list: `public` for the nationwide tab, the tab id itself
      otherwise. */
  function ListFeed(t: Tab): (r: string)
    ensures r != "nationwide"
    ensures t == Nationwide ==> r == "public"
    ensures t != Nationwide ==> r == TabId(t)
  {
    if TabId(t) == "nationwide" then "public" else TabId(t)
  }

  /** The composer is rendered on the nearby, nationwide and support tabs, with the same feed
      as the list. */
  function InputFeed(t: Tab): (r: Option<string>)
    ensures r.Some? <==> t != Official
    ensures r.Some? ==> r.value == ListFeed(t)
  {
    var id := TabId(t);
    if id == "nearby" || id == "nationwide" || id == "support" then
      Some(if id == "nationwide" then "public" else id)
    else None
  }

  /** The hub's buttons: the three tab buttons, and the support footer that is only on
      screen on the official tab. */
  datatype Press = PressNearby | PressNationwide | PressOfficial | PressSupportFooter

  /** The footer button is shown only on the official tab. */
  predicate OnScreen(t: Tab, p: Press) {
    p != PressSupportFooter || t == Official
  }

  /** The tab after pressing a button that is on screen; a button that is not shown cannot
      be pressed and leaves the tab. */
  function Step(t: Tab, p: Press): (r: Tab)
    ensures !OnScreen(t, p) ==> r == t
    ensures r == Support ==> t == Support || (t == Official && p == PressSupportFooter)
  {
    if !OnScreen(t, p) then t
    else
      match p
      case PressNearby => Nearby
      case PressNationwide => Nationwide
      case PressOfficial => Official
      case PressSupportFooter => Support
  }

  function Run(t: Tab, ps: seq<Press>): Tab
    decreases |ps|
  {
    if ps == [] then t else Run(Step(t, ps[0]), ps[1..])
  }

  /** Starting from the initial tab, the support tab is reached only by pressing the footer
      while on the official tab. */
  lemma {:induction false} SupportOnlyViaOfficial(t: Tab, ps: seq<Press>)
    requires t != Support
    requires Run(t, ps) == Support
    ensures exists k :: 0 <= k < |ps| && ps[k] == PressSupportFooter && Run(t, ps[..k]) == Official
    decreases |ps|
  {
    if ps != [] {
      var u := Step(t, ps[0]);
      if u == Support {
        assert ps[..0] == [];
        assert Run(t, ps[..0]) == Official;
      } else {
        SupportOnlyViaOfficial(u, ps[1..]);
        var k :| 0 <= k < |ps[1..]| && ps[1..][k] == PressSupportFooter && Run(u, ps[1..][..k]) == Official;
        assert ps[..k + 1][1..] == ps[1..][..k];
        assert Run(t, ps[..k + 1]) == Run(u, ps[1..][..k]);
      }
    }
  }

  /** Distinct tabs keep distinct ids. */
  lemma TabIdInjective(t: Tab, u: Tab)
    requires TabId(t) == TabId(u)
    ensures t == u
  {
  }

  /** Whatever tab is active, a message its composer sends is admitted by the list on the
      same tab, and it is a support message exactly on the support tab. */
  lemma ComposerFeedsItsList(t: Tab, d: Draft, env: Environment)
    requires InputFeed(t).Some?
    requires env.upload.Some? ==> env.upload.value != ""
    requires Submit(InputFeed(t).value, d, env).record.Some?
    ensures var rec := Submit(InputFeed(t).value, d, env).record.value;
            Admitted(ListFeed(t), rec) && (IsSupport(rec) <==> t == Support)
  {
    SentMessageShowsInOwnFeed(InputFeed(t).value, d, env);
  }
}

=== FILE: home_shell.dfy ===
/** The home screen: which panels are open, the dock that switches them and highlights the
    current one, the SOS helper text, and the flow that lets the camera dashboard pick a
    location by clicking the map. */
module HomeShell {
  import opened Options
  import MapMarkers
  import CameraRegistry

  /** The open flags of the home screen's panels and overlays. */
  datatype Panels = Panels(settings: bool, history: bool, chat: bool, cctv: bool, report: bool, share: bool)

  const AllClosed: Panels := Panels(false, false, false, false, false, false)

  /** The dock's buttons, in order. */
  const DockTabs: seq<string> := ["map", "history", "cctv", "chat", "settings"]

  /** `handleTabChange`: the map tab closes the four panels; history and chat open their own
      panel and close the other two but leave the camera panel as it is; settings and cctv
      open their panel and close the other three; any other tab changes nothing. The report
      form and the share dialog are never touched. */
  function TabChange(p: Panels, tab: string): (r: Panels)
    ensures r.report == p.report && r.share == p.share
    ensures tab == "map" ==> !r.settings && !r.history && !r.chat && !r.cctv
    ensures tab == "history" ==> r.history && !r.settings && !r.chat && r.cctv == p.cctv
    ensures tab == "chat" ==> r.chat && !r.settings && !r.history && r.cctv == p.cctv
    ensures tab == "settings" ==> r.settings && !r.history && !r.chat && !r.cctv
    ensures tab == "cctv" ==> r.cctv && !r.settings && !r.history && !r.chat
    ensures tab !in DockTabs ==> r == p
  {
    if tab == "map" then p.(settings := false, history := false, chat := false, cctv := false)
    else if tab == "history" then p.(settings := false, history := true, chat := false)
    else if tab == "chat" then p.(settings := false, history := false, chat := true)
    else if tab == "settings" then p.(history := false, chat := false, cctv := false, settings := true)
    else if tab == "cctv" then p.(settings := false, history := false, chat := false, cctv := true)
    else p
  }

  /** Whether a dock button is highlighted: the map button when none of the four panels is
      open, every other button when its panel is open. */
  predicate Highlighted(p: Panels, tab: string) {
    (tab == "map" && !p.settings && !p.history && !p.chat && !p.cctv)
    || (tab == "history" && p.history)
    || (tab == "chat" && p.chat)
    || (tab == "cctv" && p.cctv)
    || (tab == "settings" && p.settings)
  }

  /** The helper text above the SOS button shows when no panel or overlay is open. */
  predicate SosHelperShown(p: Panels) {
    !p.report && !p.settings && !p.history && !p.chat && !p.cctv && !p.share
  }

  /** Pressing a dock button highlights it; the map button is highlighted exactly when no
      other button is. */
  lemma PressHighlights(p: Panels, tab: string)
    requires tab in DockTabs
    ensures Highlighted(TabChange(p, tab), tab)
    ensures Highlighted(p, "map") <==> forall t :: t in DockTabs && t != "map" ==> !Highlighted(p, t)
  {
    assert DockTabs[1] == "history" && DockTabs[2] == "cctv" && DockTabs[3] == "chat" && DockTabs[4] == "settings";
    if forall t :: t in DockTabs && t != "map" ==> !Highlighted(p, t) {
      assert !Highlighted(p, DockTabs[1]) && !Highlighted(p, DockTabs[2]);
      assert !Highlighted(p, DockTabs[3]) && !Highlighted(p, DockTabs[4]);
    }
  }

  /** Opening history or chat while the camera panel is open leaves two buttons highlighted,
      while settings and cctv always leave just one. */
  lemma HighlightCount(p: Panels)
    ensures p.cctv ==> Highlighted(TabChange(p, "history"), "cctv") && Highlighted(TabChange(p, "history"), "history")
    ensures p.cctv ==> Highlighted(TabChange(p, "chat"), "cctv") && Highlighted(TabChange(p, "chat"), "chat")
    ensures forall u :: u in DockTabs && u != "settings" ==> !Highlighted(TabChange(p, "settings"), u)
    ensures forall u :: u in DockTabs && u != "cctv" ==> !Highlighted(TabChange(p, "cctv"), u)
  {
  }

  /** Back on the map, the SOS helper shows unless the report form or the share dialog is
      open. */
  lemma SosHelperOnMap(p: Panels)
    ensures SosHelperShown(TabChange(p, "map")) <==> !p.report && !p.share
    ensures SosHelperShown(p) ==> Highlighted(p, "map")
  {
  }

  /** The home screen's state for the pick flow: the panels, whether a location is being
      picked, and the last picked location. */
  datatype Shell = Shell(panels: Panels, picking: bool, picked: Option<MapMarkers.Pos>)

  const InitialShell: Shell := Shell(AllClosed, false, None)

  /** `handlePickLocation`: the camera panel closes and picking starts. */
  function StartPick(s: Shell): (r: Shell)
    ensures r.picking && !r.panels.cctv
    ensures r.picked == s.picked && r.panels == s.panels.(cctv := false)
  {
    s.(panels := s.panels.(cctv := false), picking := true)
  }

  /** `handleMapClick` as rendered when `isPickingLocation` was `seenPicking`: while picking,
      the point is stored, picking ends and the camera panel reopens; otherwise nothing. */
  function HandleMapClick(s: Shell, seenPicking: bool, point: MapMarkers.Pos): (r: Shell)
    ensures !seenPicking ==> r == s
    ensures seenPicking ==> r.picked == Some(point) && !r.picking && r.panels == s.panels.(cctv := true)
  {
    if seenPicking then Shell(s.panels.(cctv := true), false, Some(point)) else s
  }

  /** The map's click listener as registered: the map is set up once, on mount, and the
      listener keeps the `isPickingLocation` and the click callback of that first render,
      both of which see picking as off. */
  function MapClickAsWritten(s: Shell, point: MapMarkers.Pos): (r: Shell)
  {
    var mountPicking := InitialShell.picking;
    if mountPicking then HandleMapClick(s, mountPicking, point) else s
  }

  /** A listener that reads the current picking state. */
  function MapClickCorrected(s: Shell, point: MapMarkers.Pos): (r: Shell)
    ensures !s.picking ==> r == s
  {
    if s.picking then HandleMapClick(s, s.picking, point) else s
  }

  /** As registered, a pick never completes: after starting one, every click leaves the
      home screen picking with the camera panel closed and nothing picked. */
  lemma PickNeverCompletesAsWritten(s: Shell, point: MapMarkers.Pos)
    ensures var t := StartPick(s);
            MapClickAsWritten(t, point) == t && t.picking && !t.panels.cctv
            && MapClickAsWritten(t, point).picked == s.picked
  {
  }

  /** With the current state read, a click during a pick stores the point, ends the pick and
      reopens the camera panel, whose freshly mounted dashboard fills both coordinates from
      the point and shows the add view; the name and stream typed before the pick are gone,
      since closing the panel unmounted the dashboard. */
  lemma PickRoundTripCorrected(s: Shell, point: MapMarkers.Pos, storedId: string)
    ensures var t := MapClickCorrected(StartPick(s), point);
            && t.picked == Some(point) && !t.picking && t.panels.cctv
            && var d := CameraRegistry.ApplyPicked(CameraRegistry.Opened(storedId), t.picked);
               && d.view == CameraRegistry.AddView
               && d.form == CameraRegistry.CameraForm("", "", CameraRegistry.Picked(point.lat), CameraRegistry.Picked(point.lng))
  {
  }

  /** The picked location outlives the pick: reopening the camera panel later from the dock
      mounts a dashboard that jumps to the add view with the old point filled in. */
  lemma StalePickReapplied(s: Shell, point: MapMarkers.Pos, storedId: string)
    ensures var t := MapClickCorrected(StartPick(s), point);
            var later := t.(panels := TabChange(TabChange(t.panels, "map"), "cctv"));
            && later.panels.cctv && later.picked == Some(point)
            && CameraRegistry.ApplyPicked(CameraRegistry.Opened(storedId), later.picked).view == CameraRegistry.AddView
  {
  }
}

=== FILE: incident_history.dfy ===
/** The incident history panel: the latest reports, newest first, kept current by prepending
    each realtime insert; the reporter label and the media kind of each card. The header's
    hide-on-scroll rule is the one in `ScrollHide`. */
module IncidentHistory {
  import opened Options
  import opened JsText
  import opened Uploads
  import ReportSubmission
  import MapMarkers

  /** The columns of a report the history shows. */
  datatype HistoryRow = HistoryRow(id: string, reporterInfo: string, description: string, imageUrl: string)

  /** How many reports the history query asks for. */
  const HistoryLimit: nat := 100

  /** The rows of `rows` from the last to the first. */
  function NewestFirst(rows: seq<HistoryRow>): (r: seq<HistoryRow>)
    ensures |r| == |rows|
    ensures forall i :: 0 <= i < |r| ==> r[i] == rows[|rows| - 1 - i]
    decreases |rows|
  {
    if rows == [] then [] else [rows[|rows| - 1]] + NewestFirst(rows[..|rows| - 1])
  }

  /** The history query (`order created_at desc`, `limit 100`) on a table whose rows are in
      insertion order, so that later rows are newer. */
  function Latest(table: seq<HistoryRow>): (r: seq<HistoryRow>)
    ensures |r| == if |table| < HistoryLimit then |table| else HistoryLimit
    ensures forall i :: 0 <= i < |r| ==> r[i] == table[|table| - 1 - i]
  {
    var k := if |table| < HistoryLimit then |table| else HistoryLimit;
    NewestFirst(table[|table| - k..])
  }

  /** The panel's state: the listed reports and whether the first fetch is pending. */
  datatype History = History(rows: seq<HistoryRow>, loading: bool)

  const InitialHistory: History := History([], true)

  /** The fetch's end: an answer replaces the list, a failed query keeps it; loading ends
      either way. */
  function FetchDone(h: History, answer: Option<seq<HistoryRow>>): (r: History)
    ensures !r.loading
    ensures answer.Some? ==> r.rows == answer.value
    ensures answer.None? ==> r.rows == h.rows
  {
    History(answer.GetOr(h.rows), false)
  }

  /** A realtime insert goes to the top of the list. */
  function OnInsert(h: History, row: HistoryRow): (r: History)
    ensures |r.rows| == |h.rows| + 1 && r.rows[0] == row && r.rows[1..] == h.rows
    ensures r.loading == h.loading
  {
    h.(rows := [row] + h.rows)
  }

  /** What the panel shows: a spinner while loading, the empty notice, or the cards. */
  datatype Display = Spinner | NoActivity | Cards(rows: seq<HistoryRow>)

  function DisplayOf(h: History): (r: Display)
    ensures r.Cards? ==> r.rows == h.rows && |h.rows| > 0
    ensures r == Spinner <==> h.loading
    ensures !h.loading && h.rows != [] ==> r == Cards(h.rows)
    ensures !h.loading && h.rows == [] ==> r == NoActivity
  {
    if h.loading then Spinner else if h.rows == [] then NoActivity else Cards(h.rows)
  }

  /** The list kept by prepending agrees with a refetched query: once loaded, a new report on
      top of the listed ones is what refetching would show, except that the prepended list
      keeps growing past the query's limit. */
  lemma {:induction false} PrependMatchesRefetch(table: seq<HistoryRow>, row: HistoryRow)
    ensures var kept := OnInsert(History(Latest(table), false), row).rows;
            var refetched := Latest(table + [row]);
            && |refetched| <= |kept|
            && kept[..|refetched|] == refetched
            && (|table| < HistoryLimit ==> kept == refetched)
  {
    var kept := OnInsert(History(Latest(table), false), row).rows;
    var refetched := Latest(table + [row]);
    var t := table + [row];
    forall i | 0 <= i < |refetched|
      ensures kept[i] == refetched[i]
    {
      if i > 0 {
        assert kept[i] == Latest(table)[i - 1];
        assert t[|t| - 1 - i] == table[|table| - i];
      }
    }
  }

  /** The label on a card: the reporter text up to its first space, or `Anonymous` when
      there is no reporter text. */
  function ReporterLabel(reporterInfo: string): (r: string)
    ensures reporterInfo == "" ==> r == "Anonymous"
    ensures reporterInfo != "" ==>
              && StartsWith(reporterInfo, r) && !Includes(r, " ")
              && (|r| == |reporterInfo| || OccursAt(reporterInfo, " ", |r|))
  {
    if reporterInfo == "" then "Anonymous"
    else
      SplitFirst(reporterInfo, " ");
      Split(reporterInfo, " ")[0]
  }

  /** A report submitted from the form is labelled with the reporter's name when it is one
      word, and `Anonymous` when the field was left empty. */
  lemma LabelOfSubmittedReport(location: MapMarkers.Pos, f: ReportSubmission.Form, imageUrl: string)
    ensures var rec := ReportSubmission.DbRecordOf(location, f, imageUrl);
            && (f.reporter == "" ==> ReporterLabel(rec.reporterInfo) == "Anonymous")
            && (f.reporter != "" && !Includes(f.reporter, " ") ==> ReporterLabel(rec.reporterInfo) == f.reporter)
  {
    var rec := ReportSubmission.DbRecordOf(location, f, imageUrl);
    if f.reporter == "" {
      assert rec.reporterInfo == "Anonymous";
      AnonymousLabel();
    } else if !Includes(f.reporter, " ") {
      OneWordLabel(f.reporter);
    }
  }

  /** The stored default reporter is labelled as itself. */
  lemma AnonymousLabel()
    ensures ReporterLabel("Anonymous") == "Anonymous"
  {
    assert !Includes("Anonymous", " ") by { NoSpaceChar("Anonymous"); }
    OneWordLabel("Anonymous");
  }

  /** A reporter text without a space is its own label. */
  lemma OneWordLabel(reporter: string)
    requires reporter != "" && !Includes(reporter, " ")
    ensures ReporterLabel(reporter) == reporter
  {
    SplitFirst(reporter, " ");
    BeforeFirstAbsent(reporter, " ");
  }

  /** A text without a space character does not include `" "`. */
  lemma NoSpaceChar(s: string)
    requires forall i :: 0 <= i < |s| ==> s[i] != ' '
    ensures !Includes(s, " ")
  {
    forall j ensures !OccursAt(s, " ", j) {
      if 0 <= j && j + 1 <= |s| {
        assert s[j..j + 1][0] == s[j];
      }
    }
    IncludesIff(s, " ");
  }

  /** How a card shows its media. */
  datatype CardMedia = NoMedia | VideoPlayer | Picture

  /** A media URL naming a video container plays as a video; any other shows as a picture. */
  function MediaOf(imageUrl: string): (r: CardMedia)
    ensures r == NoMedia <==> imageUrl == ""
    ensures r == VideoPlayer <==> imageUrl != "" && IsVideoFileUrl(imageUrl)
  {
    if imageUrl == "" then NoMedia else if IsVideoFileUrl(imageUrl) then VideoPlayer else Picture
  }

  /** A suffix pattern `"." + p` no longer than `"." + e` reads the same characters of two
      texts that both end with `"." + e`. */
  lemma ShortPatternSame(a: string, b: string, e: string, p: string)
    requires EndsWith(a, "." + e) && EndsWith(b, "." + e)
    requires |p| <= |e|
    ensures EndsWithIgnoreCase(a, "." + p) <==> EndsWithIgnoreCase(b, "." + p)
  {
    var n := |p| + 1;
    var la := LowerAsciiString(a);
    var lb := LowerAsciiString(b);
    var ta := a[|a| - n..];
    var tb := b[|b| - n..];
    assert ta == tb by {
      forall k | 0 <= k < n
        ensures ta[k] == tb[k]
      {
        assert ta[k] == a[|a| - |e| - 1..][|e| + 1 - n + k];
        assert tb[k] == b[|b| - |e| - 1..][|e| + 1 - n + k];
      }
    }
    var sa := la[|a| - n..];
    var sb := lb[|b| - n..];
    assert sa == sb by {
      forall k | 0 <= k < n
        ensures sa[k] == sb[k]
      {
        assert sa[k] == LowerAscii(ta[k]);
        assert sb[k] == LowerAscii(tb[k]);
      }
    }
  }

  /** A suffix pattern `"." + p` longer than `"." + e`, with no dot in `p`, cannot end a text
      that ends with `"." + e`: the pattern would need a letter where the text has its dot. */
  lemma DotBlocksLongPattern(a: string, e: string, p: string)
    requires EndsWith(a, "." + e)
    requires |p| > |e|
    requires forall i :: 0 <= i < |p| ==> p[i] != '.'
    ensures !EndsWithIgnoreCase(a, "." + p)
  {
    var n := |p| + 1;
    var la := LowerAsciiString(a);
    if |a| >= n {
      var j := |a| - |e| - 1;
      assert a[j] == a[|a| - |e| - 1..][0];
      assert la[j] == '.';
      assert la[|a| - n..][j - (|a| - n)] == la[j];
      assert ("." + p)[j - (|a| - n)] == p[j - (|a| - n) - 1];
    }
  }

  /** Two texts with the same extension agree on one video pattern. */
  lemma SamePattern(a: string, b: string, e: string, p: string)
    requires EndsWith(a, "." + e) && EndsWith(b, "." + e)
    requires forall i :: 0 <= i < |p| ==> p[i] != '.'
    ensures EndsWithIgnoreCase(a, "." + p) <==> EndsWithIgnoreCase(b, "." + p)
  {
    if |p| <= |e| {
      ShortPatternSame(a, b, e, p);
    } else {
      DotBlocksLongPattern(a, e, p);
      DotBlocksLongPattern(b, e, p);
    }
  }

  /** Two texts that end with the same dot-free extension are both video URLs or neither. */
  lemma SameExtensionSameVideo(a: string, b: string, e: string)
    requires EndsWith(a, "." + e) && EndsWith(b, "." + e)
    ensures IsVideoFileUrl(a) <==> IsVideoFileUrl(b)
  {
    assert EndsWithIgnoreCase(a, ".mp4") <==> EndsWithIgnoreCase(b, ".mp4") by {
      SamePattern(a, b, e, "mp4");
      assert "." + "mp4" == ".mp4";
    }
    assert EndsWithIgnoreCase(a, ".mov") <==> EndsWithIgnoreCase(b, ".mov") by {
      SamePattern(a, b, e, "mov");
      assert "." + "mov" == ".mov";
    }
    assert EndsWithIgnoreCase(a, ".webm") <==> EndsWithIgnoreCase(b, ".webm") by {
      SamePattern(a, b, e, "webm");
      assert "." + "webm" == ".webm";
    }
    assert EndsWithIgnoreCase(a, ".avi") <==> EndsWithIgnoreCase(b, ".avi") by {
      SamePattern(a, b, e, "avi");
      assert "." + "avi" == ".avi";
    }
    assert EndsWithIgnoreCase(a, ".mkv") <==> EndsWithIgnoreCase(b, ".mkv") by {
      SamePattern(a, b, e, "mkv");
      assert "." + "mkv" == ".mkv";
    }
  }

  /** A file uploaded with a report keeps its extension in the stored URL, so the history
      plays it as a video exactly when the picked file's name says it is one. */
  lemma UploadedVideoPlays(base: string, stamp: string, fileName: string)
    requires Includes(fileName, ".")
    ensures var url := base + UploadName(stamp, fileName);
            MediaOf(url) == VideoPlayer <==> IsVideoFileUrl(fileName)
  {
    var ext := AfterLast(fileName, ".");
    FileEndsWithExtension(fileName);
    UrlEndsWithExtension(base, stamp, ext);
    assert base + UploadName(stamp, fileName) == base + stamp + "." + ext;
    SameExtensionSameVideo(base + stamp + "." + ext, fileName, ext);
  }

  /** A file name with a dot ends with a dot and the text after its last dot. */
  lemma FileEndsWithExtension(fileName: string)
    requires Includes(fileName, ".")
    ensures EndsWith(fileName, "." + AfterLast(fileName, "."))
  {
    var ext := AfterLast(fileName, ".");
    AfterLastSpec(fileName, ".");
    var head := fileName[..|fileName| - |ext|];
    assert fileName == head + ext by {
      assert fileName[|fileName| - |ext|..] == ext;
    }
    assert head[|head| - 1] == '.' by {
      assert head[|head| - 1..] == ".";
    }
    assert fileName[|fileName| - |ext| - 1..] == head[|head| - 1..] + ext;
  }

  /** A stored URL ends with a dot and the extension. */
  lemma UrlEndsWithExtension(base: string, stamp: string, ext: string)
    ensures EndsWith(base + stamp + "." + ext, "." + ext)
  {
    var url := base + stamp + "." + ext;
    assert url[|url| - |ext| - 1..] == "." + ext;
  }

  /** The first fetch decides the panel: the latest reports as cards, or the empty notice
      when the table is empty or the query fails. */
  lemma FirstFetchShown(table: seq<HistoryRow>)
    ensures DisplayOf(FetchDone(InitialHistory, Some(Latest(table)))) ==
              if table == [] then NoActivity else Cards(Latest(table))
    ensures DisplayOf(FetchDone(InitialHistory, None)) == NoActivity
  {
    if table != [] {
      assert |Latest(table)| > 0;
    }
  }

  /** Once loaded, a realtime insert is always on screen, on top of the cards. */
  lemma InsertShown(h: History, row: HistoryRow)
    ensures !h.loading ==> DisplayOf(OnInsert(h, row)) == Cards([row] + h.rows)
    ensures h.loading ==> DisplayOf(OnInsert(h, row)) == Spinner
  {
  }
}

=== FILE: js_number.dfy ===
/** The two places the application meets JavaScript numbers as text: the `StringToNumber`
    grammar behind `isNaN(c)` on a string (section 7.1.4.1.1 of ECMA-262), and the decimal
    rendering of a non-negative integer in a template literal. */
module JsNumber {
  import opened JsText

  predicate IsDigit(c: char) { '0' <= c <= '9' }

  predicate AllDigits(s: string) {
    forall i :: 0 <= i < |s| ==> IsDigit(s[i])
  }

  /** DecimalDigits: one or more decimal digits. */
  predicate IsDigits(s: string) { |s| > 0 && AllDigits(s) }

  predicate IsHexDigit(c: char) {
    IsDigit(c) || ('a' <= c <= 'f') || ('A' <= c <= 'F')
  }

  /** SignedInteger: DecimalDigits with an optional sign. */
  predicate IsSignedInteger(s: string) {
    IsDigits(s) || (|s| > 0 && (s[0] == '+' || s[0] == '-') && IsDigits(s[1..]))
  }

  /** ExponentPart: `e` or `E`, then a SignedInteger. */
  predicate IsExponentPart(s: string) {
    |s| > 0 && (s[0] == 'e' || s[0] == 'E') && IsSignedInteger(s[1..])
  }

  /** The part of a StrUnsignedDecimalLiteral before its exponent:
      `DecimalDigits`, `DecimalDigits . DecimalDigits?` or `. DecimalDigits`. */
  predicate IsMantissa(s: string) {
    var dot := IndexOf(s, ".", 0);
    if dot.None? then IsDigits(s)
    else
      var left := s[..dot.value];
      var right := s[dot.value + 1..];
      AllDigits(left) && AllDigits(right) && (|left| > 0 || |right| > 0)
  }

  /** Index of the first `e` or `E`, or `|s|`. */
  function ExponentStart(s: string, i: nat): (r: nat)
    requires i <= |s|
    ensures i <= r <= |s|
    ensures forall k :: i <= k < r ==> s[k] != 'e' && s[k] != 'E'
    ensures r < |s| ==> s[r] == 'e' || s[r] == 'E'
    decreases |s| - i
  {
    if i == |s| || s[i] == 'e' || s[i] == 'E' then i else ExponentStart(s, i + 1)
  }

  /** StrUnsignedDecimalLiteral: `Infinity`, or a mantissa with an optional exponent. */
  predicate IsUnsignedDecimal(s: string) {
    s == "Infinity"
    || (var e := ExponentStart(s, 0);
        IsMantissa(s[..e]) && (e == |s| || IsExponentPart(s[e..])))
  }

  /** StrDecimalLiteral: an unsigned decimal literal with an optional sign. */
  predicate IsStrDecimal(s: string) {
    IsUnsignedDecimal(s)
    || (|s| > 0 && (s[0] == '+' || s[0] == '-') && IsUnsignedDecimal(s[1..]))
  }

  /** NonDecimalIntegerLiteral: `0x`, `0o` or `0b` (either case) and its digits, unsigned. */
  predicate IsNonDecimalInteger(s: string) {
    |s| > 2 && s[0] == '0'
    && (|| ((s[1] == 'x' || s[1] == 'X') && forall i :: 2 <= i < |s| ==> IsHexDigit(s[i]))
        || ((s[1] == 'o' || s[1] == 'O') && forall i :: 2 <= i < |s| ==> '0' <= s[i] <= '7')
        || ((s[1] == 'b' || s[1] == 'B') && forall i :: 2 <= i < |s| ==> s[i] == '0' || s[i] == '1'))
  }

  /** `!isNaN(s)` for a string `s`: `StringToNumber` does not give NaN exactly when the text
      between leading and trailing white space is empty or a StrNumericLiteral. */
  predicate IsNumeric(s: string) {
    var t := Trim(s);
    t == "" || IsStrDecimal(t) || IsNonDecimalInteger(t)
  }

  /** Every non-empty run of decimal digits, with or without a leading minus sign (the form
      of a Telegram chat id), passes the coercion test. */
  lemma DigitsAreNumeric(s: string)
    requires IsDigits(s) || (|s| > 1 && s[0] == '-' && IsDigits(s[1..]))
    ensures IsNumeric(s)
  {
    TrimNoEdgeSpaces(s);
    var u := if IsDigits(s) then s else s[1..];
    assert ExponentStart(u, 0) == |u|;
    assert u[..|u|] == u;
    NoDotInDigits(u);
  }

  lemma NoDotInDigits(u: string)
    requires AllDigits(u)
    ensures IndexOf(u, ".", 0).None?
  {
    forall j | 0 <= j < |u| ensures !OccursAt(u, ".", j) {
      assert u[j..j + 1][0] == u[j];
    }
  }

  /** Blank text passes the coercion test (it converts to 0). */
  lemma BlankIsNumeric()
    ensures IsNumeric("   ")
  {
    TrimEmptyIff("   ");
  }

  /** An exponent form passes the coercion test. */
  lemma ExponentIsNumeric()
    ensures IsNumeric("1e3")
  {
    TrimNoEdgeSpaces("1e3");
    assert ExponentStart("1e3", 1) == 1;
    assert "1e3"[..1] == "1" && "1e3"[1..] == "e3";
    assert "e3"[1..] == "3";
    NoDotInDigits("1");
  }

  /** A hexadecimal literal passes the coercion test. */
  lemma HexIsNumeric()
    ensures IsNumeric("0x1A")
  {
    TrimNoEdgeSpaces("0x1A");
  }

  /** A mantissa starts with a digit or a dot. */
  lemma MantissaStart(m: string)
    requires IsMantissa(m)
    ensures |m| > 0 && (IsDigit(m[0]) || m[0] == '.')
  {
    var dot := IndexOf(m, ".", 0);
    if dot.Some? && dot.value == 0 {
      assert m[0..1][0] == m[0];
    } else if dot.Some? {
      assert m[..dot.value][0] == m[0];
    }
  }

  /** Text that starts with a character no numeric literal starts with, and has no white space
      to trim, is not numeric. */
  lemma NotNumericStart(s: string)
    requires |s| > 0 && !IsDigit(s[0]) && s[0] != '.' && s[0] != '+' && s[0] != '-' && s[0] != 'I'
    requires !IsSpace(s[0]) && !IsSpace(s[|s| - 1])
    ensures !IsNumeric(s)
  {
    TrimNoEdgeSpaces(s);
    assert s != "Infinity" by { assert "Infinity"[0] == 'I'; }
    var e := ExponentStart(s, 0);
    if IsMantissa(s[..e]) {
      MantissaStart(s[..e]);
      assert false;
    }
  }

  /** A channel handle is not numeric; the relay keeps it for its `@` instead. */
  lemma HandleIsNotNumeric()
    ensures !IsNumeric("@fire_dept")
  {
    NotNumericStart("@fire_dept");
  }

  /** Digits followed by text with no exponent marker, no dot and no trailing white space
      are not numeric: without an exponent or a dot the whole text would have to be digits. */
  lemma DigitsThenTextNotNumeric(s: string, k: nat)
    requires 0 < k < |s| && !IsDigit(s[k]) && !IsSpace(s[|s| - 1])
    requires forall i :: 0 <= i < k ==> IsDigit(s[i])
    requires forall i :: 0 <= i < |s| ==> s[i] != 'e' && s[i] != 'E' && s[i] != '.'
    requires k >= 2 || s[0] != '0'
    ensures !IsNumeric(s)
  {
    assert IsDigit(s[0]);
    TrimNoEdgeSpaces(s);
    assert ExponentStart(s, 0) == |s|;
    assert s[..|s|] == s;
    assert IndexOf(s, ".", 0).None? by {
      forall j | 0 <= j < |s| ensures !OccursAt(s, ".", j) {
        assert s[j..j + 1][0] == s[j];
      }
    }
    assert !IsDigits(s);
    assert s != "Infinity" by { assert "Infinity"[0] == 'I'; }
    if s[0] == '0' {
      assert IsDigit(s[1]);
    }
  }

  /** Trailing letters make a string non-numeric. */
  lemma TrailingLetterIsNotNumeric()
    ensures !IsNumeric("12a")
    ensures !IsNumeric("123abc")
  {
    DigitsThenTextNotNumeric("12a", 2);
    DigitsThenTextNotNumeric("123abc", 3);
  }

  /** Decimal rendering of a non-negative integer, as in `${n}`. */
  function NatToString(n: nat): (r: string)
    ensures IsDigits(r)
    decreases n
  {
    var d := ['0' + (n % 10) as char];
    if n < 10 then d else NatToString(n / 10) + d
  }

  /** Value of a string of decimal digits. */
  function DigitsValue(s: string): nat
    requires AllDigits(s)
    decreases |s|
  {
    if s == [] then 0
    else DigitsValue(s[..|s| - 1]) * 10 + (s[|s| - 1] as int - '0' as int)
  }

  /** Reading back the decimal rendering gives the number. */
  lemma {:induction false} NatToStringRoundTrip(n: nat)
    ensures DigitsValue(NatToString(n)) == n
    decreases n
  {
    var r := NatToString(n);
    if n >= 10 {
      NatToStringRoundTrip(n / 10);
      var hi := NatToString(n / 10);
      assert r[..|r| - 1] == hi;
    }
  }

  /** A rendering has no leading zero unless it is the single digit `0`. */
  lemma {:induction false} NatToStringNoLeadingZero(n: nat)
    ensures NatToString(n)[0] == '0' ==> n == 0
    ensures n < 10 <==> |NatToString(n)| == 1
    decreases n
  {
    if n >= 10 {
      NatToStringNoLeadingZero(n / 10);
    }
  }
}

=== FILE: js_text.dfy ===
/** JavaScript string primitives the application relies on, written as sequence operations
    on `string` (a sequence of Unicode scalar values): `\s` and `trim`, `startsWith`,
    `endsWith`, `includes`, `indexOf`, `split` with a string separator, `replace` with a
    string pattern, and the ASCII case folding of a `/i` regular expression. */
module JsText {
  import opened Options

  /** The WhiteSpace and LineTerminator code points of ECMAScript: the class `\s` of a
      regular expression, and exactly what `String.prototype.trim` removes. */
  predicate IsSpace(c: char) {
    || c == '\t' || c == '\n' || c == '\U{000B}' || c == '\U{000C}' || c == '\r' || c == ' '
    || c == '\U{00A0}' || c == '\U{1680}' || ('\U{2000}' <= c <= '\U{200A}')
    || c == '\U{2028}' || c == '\U{2029}' || c == '\U{202F}' || c == '\U{205F}'
    || c == '\U{3000}' || c == '\U{FEFF}'
  }

  /** The LineTerminator code points: the characters a regular-expression `.` does not match. */
  predicate IsLineTerminator(c: char) {
    c == '\n' || c == '\r' || c == '\U{2028}' || c == '\U{2029}'
  }

  predicate NoSpace(s: string) {
    forall i :: 0 <= i < |s| ==> !IsSpace(s[i])
  }

  predicate StartsWith(s: string, prefix: string) {
    |prefix| <= |s| && s[..|prefix|] == prefix
  }

  predicate EndsWith(s: string, suffix: string) {
    |suffix| <= |s| && s[|s| - |suffix|..] == suffix
  }

  /** `pat` occurs in `s` starting at index `i`. */
  predicate OccursAt(s: string, pat: string, i: int) {
    0 <= i && i + |pat| <= |s| && s[i..i + |pat|] == pat
  }

  /** `s.indexOf(pat, from)`: the first occurrence at or after `from`. */
  function IndexOf(s: string, pat: string, from: nat): (r: Option<nat>)
    ensures r.Some? ==> from <= r.value && OccursAt(s, pat, r.value)
    ensures r.Some? ==> forall j :: from <= j < r.value ==> !OccursAt(s, pat, j)
    ensures r.None? ==> forall j :: from <= j ==> !OccursAt(s, pat, j)
    decreases |s| - from
  {
    if from + |pat| > |s| then None
    else if s[from..from + |pat|] == pat then Some(from)
    else IndexOf(s, pat, from + 1)
  }

  /** `s.includes(pat)`. */
  predicate Includes(s: string, pat: string) {
    IndexOf(s, pat, 0).Some?
  }

  lemma IncludesIff(s: string, pat: string)
    ensures Includes(s, pat) <==> exists j :: OccursAt(s, pat, j)
  {
    if exists j :: OccursAt(s, pat, j) {
      var j :| OccursAt(s, pat, j);
      assert 0 <= j;
    }
  }

  /** An occurrence inside a prefix is an occurrence in the whole string. */
  lemma IncludesPrefix(s: string, t: string, pat: string)
    requires Includes(s, pat)
    ensures Includes(s + t, pat)
  {
    var j := IndexOf(s, pat, 0).value;
    assert (s + t)[j..j + |pat|] == s[j..j + |pat|];
    assert OccursAt(s + t, pat, j);
  }

  /** A prefix of a string without `pat` does not contain `pat` either. */
  lemma ExcludesPrefix(s: string, t: string, pat: string)
    requires !Includes(s + t, pat)
    ensures !Includes(s, pat)
  {
    forall j | 0 <= j
      ensures !OccursAt(s, pat, j)
    {
      assert !OccursAt(s + t, pat, j);
      if j + |pat| <= |s| {
        assert s[j..j + |pat|] == (s + t)[j..j + |pat|];
      }
    }
  }

  /** `s.split(sep)` for a non-empty string separator: the pieces between the
      non-overlapping occurrences of `sep`, scanned from the left. */
  function Split(s: string, sep: string): (r: seq<string>)
    requires |sep| > 0
    ensures |r| >= 1
    decreases |s|, 1
  {
    SplitAt(s, sep, IndexOf(s, sep, 0))
  }

  /** `Split` once the first occurrence `ix` of the separator is known. */
  function SplitAt(s: string, sep: string, ix: Option<nat>): (r: seq<string>)
    requires |sep| > 0 && ix == IndexOf(s, sep, 0)
    ensures |r| >= 1
    decreases |s|, 0
  {
    if ix.None? then [s] else [s[..ix.value]] + Split(s[ix.value + |sep|..], sep)
  }

  /** `split` yields a single piece exactly when the separator does not occur. */
  lemma SplitSingleIff(s: string, sep: string)
    requires |sep| > 0
    ensures |Split(s, sep)| == 1 <==> !Includes(s, sep)
  {
    var ix := IndexOf(s, sep, 0);
    if ix.Some? {
      assert Split(s, sep) == [s[..ix.value]] + Split(s[ix.value + |sep|..], sep);
    }
  }

  /** `pieces.join(sep)`. */
  function Join(pieces: seq<string>, sep: string): string
    decreases |pieces|
  {
    if |pieces| == 0 then ""
    else if |pieces| == 1 then pieces[0]
    else pieces[0] + sep + Join(pieces[1..], sep)
  }

  /** `split` loses nothing: joining the pieces with the separator gives back the string,
      and no piece contains the separator. */
  lemma SplitJoin(s: string, sep: string)
    requires |sep| > 0
    ensures Join(Split(s, sep), sep) == s
    ensures forall k :: 0 <= k < |Split(s, sep)| ==> !Includes(Split(s, sep)[k], sep)
  {
    SplitJoinConcat(s, sep);
    SplitPiecesFree(s, sep);
  }

  lemma {:induction false} SplitJoinConcat(s: string, sep: string)
    requires |sep| > 0
    ensures Join(Split(s, sep), sep) == s
    decreases |s|
  {
    if Includes(s, sep) {
      SplitJoinConcat(s[IndexOf(s, sep, 0).value + |sep|..], sep);
      SplitJoinStep(s, sep);
    } else {
      SplitNone(s, sep);
    }
  }

  /** One step of `SplitJoinConcat`: the first piece, the separator, then the rest. */
  lemma SplitJoinStep(s: string, sep: string)
    requires |sep| > 0 && Includes(s, sep)
    requires var i := IndexOf(s, sep, 0).value;
             Join(Split(s[i + |sep|..], sep), sep) == s[i + |sep|..]
    ensures Join(Split(s, sep), sep) == s
  {
    var i := IndexOf(s, sep, 0).value;
    SplitUnfold(s, sep);
    JoinCons(s[..i], Split(s[i + |sep|..], sep), sep);
    RejoinAt(s, sep, i);
  }

  /** Cutting out an occurrence and putting it back gives the string again. */
  lemma RejoinAt(s: string, sep: string, i: nat)
    requires OccursAt(s, sep, i)
    ensures s[..i] + sep + s[i + |sep|..] == s
  {
    assert s[..i] + s[i..i + |sep|] + s[i + |sep|..] == s;
  }

  /** Joining a first piece onto a non-empty list puts the separator between them. */
  lemma JoinCons(a: string, tail: seq<string>, sep: string)
    requires |tail| >= 1
    ensures Join([a] + tail, sep) == a + sep + Join(tail, sep)
  {
    assert ([a] + tail)[1..] == tail;
  }

  lemma {:induction false} SplitPiecesFree(s: string, sep: string)
    requires |sep| > 0
    ensures forall k :: 0 <= k < |Split(s, sep)| ==> !Includes(Split(s, sep)[k], sep)
    decreases |s|
  {
    match IndexOf(s, sep, 0)
    case None =>
    case Some(i) =>
      var rest := s[i + |sep|..];
      SplitPiecesFree(rest, sep);
      var pieces := Split(s, sep);
      SplitUnfold(s, sep);
      NoEarlierOccurrence(s, sep, i);
      forall k | 0 <= k < |pieces|
        ensures !Includes(pieces[k], sep)
      {
        if k > 0 {
          assert pieces[k] == Split(rest, sep)[k - 1];
        }
      }
  }

  /** An occurrence with none before it is the one `indexOf` finds. */
  lemma IndexOfFirst(s: string, pat: string, i: nat)
    requires OccursAt(s, pat, i)
    requires forall j :: 0 <= j < i ==> !OccursAt(s, pat, j)
    ensures IndexOf(s, pat, 0) == Some(i)
  {
    var ix := IndexOf(s, pat, 0);
    assert ix.Some?;
  }

  /** The text before the first occurrence of a separator does not contain it. */
  lemma NoEarlierOccurrence(s: string, sep: string, i: nat)
    requires |sep| > 0
    requires IndexOf(s, sep, 0) == Some(i)
    ensures !Includes(s[..i], sep)
  {
    if Includes(s[..i], sep) {
      var j := IndexOf(s[..i], sep, 0).value;
      assert s[..i][j..j + |sep|] == s[j..j + |sep|];
      assert OccursAt(s, sep, j);
    }
  }

  /** `s.split(sep)[0]`: everything before the first occurrence of `sep`, or all of `s`. */
  function BeforeFirst(s: string, sep: string): (r: string)
    requires |sep| > 0
    ensures StartsWith(s, r) && !Includes(r, sep)
    ensures |r| == |s| || OccursAt(s, sep, |r|)
  {
    var ix := IndexOf(s, sep, 0);
    if ix.None? then s
    else
      NoEarlierOccurrence(s, sep, ix.value);
      s[..ix.value]
  }

  /** One unfolding of `Split` at the first occurrence of the separator. */
  lemma SplitUnfold(s: string, sep: string)
    requires |sep| > 0 && IndexOf(s, sep, 0).Some?
    ensures var i := IndexOf(s, sep, 0).value;
            Split(s, sep) == [s[..i]] + Split(s[i + |sep|..], sep)
  {
  }

  /** Without an occurrence of the separator, `split` yields the whole string. */
  lemma SplitNone(s: string, sep: string)
    requires |sep| > 0
    requires IndexOf(s, sep, 0).None?
    ensures Split(s, sep) == [s]
  {
    assert Split(s, sep) == SplitAt(s, sep, None);
  }

  /** The first piece of a split is `BeforeFirst`. */
  lemma SplitFirst(s: string, sep: string)
    requires |sep| > 0
    ensures Split(s, sep)[0] == BeforeFirst(s, sep)
  {
    var ix := IndexOf(s, sep, 0);
    if ix.Some? {
      SplitUnfold(s, sep);
    }
  }

  /** Characterises `split(sep)[1]` when the separator occurs: it runs from just after the
      first occurrence up to the next occurrence or the end. */
  lemma SplitSecond(s: string, sep: string)
    requires |sep| > 0 && Includes(s, sep)
    ensures |Split(s, sep)| >= 2
    ensures var i := IndexOf(s, sep, 0).value;
            Split(s, sep)[1] == BeforeFirst(s[i + |sep|..], sep)
  {
    var i := IndexOf(s, sep, 0).value;
    SplitUnfold(s, sep);
    SplitFirst(s[i + |sep|..], sep);
  }

  /** `s.split(sep).pop()`: the last piece of the split. */
  function AfterLast(s: string, sep: string): string
    requires |sep| > 0
  {
    var pieces := Split(s, sep);
    pieces[|pieces| - 1]
  }

  /** The last piece is a suffix free of the separator; it is all of `s` when the separator
      does not occur, and otherwise the separator stands just before it. */
  lemma {:induction false} AfterLastSpec(s: string, sep: string)
    requires |sep| > 0
    ensures EndsWith(s, AfterLast(s, sep)) && !Includes(AfterLast(s, sep), sep)
    ensures !Includes(s, sep) ==> AfterLast(s, sep) == s
    ensures Includes(s, sep) ==> EndsWith(s[..|s| - |AfterLast(s, sep)|], sep)
    decreases |s|
  {
    SplitPiecesFree(s, sep);
    match IndexOf(s, sep, 0)
    case None =>
      SplitNone(s, sep);
    case Some(i) =>
      AfterLastSpec(s[i + |sep|..], sep);
      AfterLastStep(s, sep, i);
  }

  /** One step of `AfterLastSpec`: the last piece of `s` is the last piece of the text after
      the first separator. */
  lemma AfterLastStep(s: string, sep: string, i: nat)
    requires |sep| > 0
    requires IndexOf(s, sep, 0) == Some(i)
    requires var rest := s[i + |sep|..];
             && EndsWith(rest, AfterLast(rest, sep))
             && (!Includes(rest, sep) ==> AfterLast(rest, sep) == rest)
             && (Includes(rest, sep) ==> EndsWith(rest[..|rest| - |AfterLast(rest, sep)|], sep))
    ensures EndsWith(s, AfterLast(s, sep))
    ensures EndsWith(s[..|s| - |AfterLast(s, sep)|], sep)
  {
    AfterLastUnfold(s, sep, i);
    SuffixAfterOccurrence(s, sep, i, AfterLast(s[i + |sep|..], sep));
  }

  /** The last piece of `s` is the last piece of the text after the first separator. */
  lemma AfterLastUnfold(s: string, sep: string, i: nat)
    requires |sep| > 0
    requires IndexOf(s, sep, 0) == Some(i)
    ensures AfterLast(s, sep) == AfterLast(s[i + |sep|..], sep)
  {
    var tail := Split(s[i + |sep|..], sep);
    var pieces := Split(s, sep);
    SplitUnfold(s, sep);
    LastOfCons(s[..i], tail);
    assert AfterLast(s, sep) == pieces[|pieces| - 1];
  }

  lemma LastOfCons<T>(x: T, t: seq<T>)
    requires |t| > 0
    ensures ([x] + t)[|t|] == t[|t| - 1]
  {
  }

  /** A suffix of the text after an occurrence of `sep` that is either all of that text or
      preceded by `sep` is a suffix of the whole text preceded by `sep`. */
  lemma SuffixAfterOccurrence(s: string, sep: string, i: nat, r: string)
    requires OccursAt(s, sep, i)
    requires var rest := s[i + |sep|..];
             && EndsWith(rest, r)
             && (r == rest || EndsWith(rest[..|rest| - |r|], sep))
    ensures EndsWith(s, r)
    ensures EndsWith(s[..|s| - |r|], sep)
  {
    var rest := s[i + |sep|..];
    assert s[|s| - |r|..] == rest[|rest| - |r|..];
    if r == rest {
      assert s[..|s| - |r|] == s[..i + |sep|];
      assert s[..i + |sep|][i..] == s[i..i + |sep|];
    } else {
      assert s[..|s| - |r|][|s| - |r| - |sep|..] == rest[..|rest| - |r|][|rest| - |r| - |sep|..];
    }
  }

  /** Without an occurrence, `BeforeFirst` is the whole string. */
  lemma BeforeFirstAbsent(s: string, sep: string)
    requires |sep| > 0 && !Includes(s, sep)
    ensures BeforeFirst(s, sep) == s
  {
  }

  lemma StartsWithTrans(s: string, t: string, u: string)
    requires StartsWith(s, t) && StartsWith(t, u)
    ensures StartsWith(s, u)
  {
    assert s[..|u|] == s[..|t|][..|u|];
  }

  /** `BeforeFirst` reaches at least to `k` when the separator does not start before `k`. */
  lemma BeforeFirstReaches(s: string, sep: string, k: nat)
    requires |sep| > 0 && k <= |s|
    requires forall j :: 0 <= j < k ==> !OccursAt(s, sep, j)
    ensures |BeforeFirst(s, sep)| >= k
  {
  }

  /** An occurrence of `sep` in `a + b` that starts inside `a` lies wholly inside `a` when `b`
      is empty or starts with a character `sep` does not contain. */
  lemma NoStraddle(a: string, b: string, sep: string)
    requires |sep| > 0 && !Includes(a, sep)
    requires b == [] || b[0] !in sep
    ensures forall j :: 0 <= j < |a| ==> !OccursAt(a + b, sep, j)
  {
    forall j | 0 <= j < |a|
      ensures !OccursAt(a + b, sep, j)
    {
      if j + |sep| <= |a| {
        assert a[j..j + |sep|] == (a + b)[j..j + |sep|];
        assert !OccursAt(a, sep, j);
      } else if j + |sep| <= |a + b| {
        assert (a + b)[j..j + |sep|][|a| - j] == b[0];
      }
    }
  }

  /** The first occurrence of `sep` in `a + sep + b` is the one after `a`, when `a` does not
      contain it and its last character does not occur earlier in it. */
  lemma FirstOccurrenceAfter(a: string, sep: string, b: string)
    requires |sep| > 0 && !Includes(a, sep)
    requires sep[|sep| - 1] !in sep[..|sep| - 1]
    ensures IndexOf(a + sep + b, sep, 0) == Some(|a|)
  {
    var s := a + sep + b;
    assert s[|a|..|a| + |sep|] == sep;
    forall j | 0 <= j < |a|
      ensures !OccursAt(s, sep, j)
    {
      if j + |sep| <= |a| {
        assert a[j..j + |sep|] == s[j..j + |sep|];
        assert !OccursAt(a, sep, j);
      } else {
        var k := j + |sep| - 1 - |a|;
        assert s[j..j + |sep|][|sep| - 1] == sep[k];
        assert sep[..|sep| - 1][k] == sep[k];
      }
    }
    assert OccursAt(s, sep, |a|);
  }

  /** With the separator first found right after `a`: the first piece is `a`, and the second
      piece is the first piece of `b`. */
  lemma SplitAfter(a: string, sep: string, b: string)
    requires |sep| > 0
    requires IndexOf(a + sep + b, sep, 0) == Some(|a|)
    ensures BeforeFirst(a + sep + b, sep) == a
    ensures |Split(a + sep + b, sep)| >= 2
    ensures Split(a + sep + b, sep)[1] == BeforeFirst(b, sep)
  {
    var s := a + sep + b;
    assert s[..|a|] == a;
    assert s[|a| + |sep|..] == b;
    SplitSecond(s, sep);
  }

  /** `s.replace(pat, rep)` with a string pattern: only the first occurrence is replaced. */
  function ReplaceFirst(s: string, pat: string, rep: string): (r: string)
    ensures !Includes(s, pat) ==> r == s
    ensures Includes(s, pat) ==>
              var i := IndexOf(s, pat, 0).value;
              r == s[..i] + rep + s[i + |pat|..]
  {
    match IndexOf(s, pat, 0)
    case None => s
    case Some(i) => s[..i] + rep + s[i + |pat|..]
  }

  /** Index of the first character at or after `i` that is not a space. */
  function SkipSpaces(s: string, i: nat): (r: nat)
    requires i <= |s|
    ensures i <= r <= |s|
    ensures forall k :: i <= k < r ==> IsSpace(s[k])
    ensures r < |s| ==> !IsSpace(s[r])
    decreases |s| - i
  {
    if i == |s| || !IsSpace(s[i]) then i else SkipSpaces(s, i + 1)
  }

  /** One past the last character before `j` that is not a space. */
  function SkipSpacesBack(s: string, lo: nat, j: nat): (r: nat)
    requires lo <= j <= |s|
    ensures lo <= r <= j
    ensures forall k :: r <= k < j ==> IsSpace(s[k])
    ensures r > lo ==> !IsSpace(s[r - 1])
    decreases j
  {
    if j == lo || !IsSpace(s[j - 1]) then j else SkipSpacesBack(s, lo, j - 1)
  }

  /** `s.trim()`: the longest slice of `s` that neither starts nor ends with a space. */
  function Trim(s: string): (r: string)
    ensures exists i, j :: 0 <= i <= j <= |s| && r == s[i..j]
                            && (forall k :: 0 <= k < i ==> IsSpace(s[k]))
                            && (forall k :: j <= k < |s| ==> IsSpace(s[k]))
    ensures r == [] || (!IsSpace(r[0]) && !IsSpace(r[|r| - 1]))
  {
    var i := SkipSpaces(s, 0);
    var j := SkipSpacesBack(s, i, |s|);
    assert forall k :: j <= k < |s| ==> IsSpace(s[k]);
    s[i..j]
  }

  /** A string trims to the empty string exactly when it is all spaces. */
  lemma TrimEmptyIff(s: string)
    ensures Trim(s) == [] <==> forall k :: 0 <= k < |s| ==> IsSpace(s[k])
  {
    var i := SkipSpaces(s, 0);
    if i < |s| {
      assert !IsSpace(s[i]);
      assert SkipSpacesBack(s, i, |s|) > i;
    }
  }

  /** Trimming a string without leading or trailing spaces leaves it unchanged. */
  lemma TrimNoEdgeSpaces(s: string)
    requires s == [] || (!IsSpace(s[0]) && !IsSpace(s[|s| - 1]))
    ensures Trim(s) == s
  {
    if s != [] {
      assert SkipSpaces(s, 0) == 0;
      assert SkipSpacesBack(s, 0, |s|) == |s|;
    }
  }

  /** Trimming is idempotent. */
  lemma TrimIdempotent(s: string)
    ensures Trim(Trim(s)) == Trim(s)
  {
    TrimNoEdgeSpaces(Trim(s));
  }

  /** ASCII lower case: the only case folding a non-Unicode `/i` regular expression applies
      between ASCII letters (no other character folds onto an ASCII letter). */
  function LowerAscii(c: char): char {
    if 'A' <= c <= 'Z' then (c as int + 32) as char else c
  }

  function LowerAsciiString(s: string): (r: string)
    ensures |r| == |s|
    ensures forall i :: 0 <= i < |s| ==> r[i] == LowerAscii(s[i])
  {
    seq(|s|, i requires 0 <= i < |s| => LowerAscii(s[i]))
  }

  /** `s` ends with `suffix` ignoring ASCII case, for a lower-case `suffix`. */
  predicate EndsWithIgnoreCase(s: string, suffix: string) {
    EndsWith(LowerAsciiString(s), suffix)
  }

  /** The regular expression `\.(mp4|mov|webm|avi|mkv)$` with the `i` flag: a media URL whose
      last characters name a video container. */
  predicate IsVideoFileUrl(url: string) {
    || EndsWithIgnoreCase(url, ".mp4") || EndsWithIgnoreCase(url, ".mov")
    || EndsWithIgnoreCase(url, ".webm") || EndsWithIgnoreCase(url, ".avi")
    || EndsWithIgnoreCase(url, ".mkv")
  }

  /** The video test does not depend on the case of the URL. */
  lemma VideoFileUrlIgnoresCase(url: string)
    ensures IsVideoFileUrl(url) == IsVideoFileUrl(LowerAsciiString(url))
  {
    LowerAsciiTwice(url);
  }

  /** Any name followed by one of the five container extensions is a video URL. */
  lemma VideoFileUrlOfName(name: string, ext: string)
    requires ext in [".mp4", ".mov", ".webm", ".avi", ".mkv"]
    ensures IsVideoFileUrl(name + ext)
  {
    assert forall i :: 0 <= i < |ext| ==> LowerAscii(ext[i]) == ext[i];
    EndsWithOwnLower(name, ext);
  }

  /** A name followed by a lower-case suffix ends with that suffix, ignoring case. */
  lemma EndsWithOwnLower(name: string, ext: string)
    requires forall i :: 0 <= i < |ext| ==> LowerAscii(ext[i]) == ext[i]
    ensures EndsWithIgnoreCase(name + ext, ext)
  {
    var u := name + ext;
    var l := LowerAsciiString(u);
    forall i | 0 <= i < |ext| ensures l[|name| + i] == ext[i] {
      assert u[|name| + i] == ext[i];
    }
    assert l[|l| - |ext|..] == ext;
  }

  /** Lower-casing twice is lower-casing once. */
  lemma LowerAsciiTwice(s: string)
    ensures LowerAsciiString(LowerAsciiString(s)) == LowerAsciiString(s)
  {
  }

  lemma VideoFileUrlExamples()
    ensures IsVideoFileUrl("https://cdn.example/clip.MP4")
    ensures IsVideoFileUrl("a.webm")
    ensures !IsVideoFileUrl("photo.jpg")
    ensures !IsVideoFileUrl("clip.mp4?x=1")
  {
    assert LowerAsciiString("https://cdn.example/clip.MP4")[24..] == ".mp4";
    assert LowerAsciiString("a.webm")[1..] == ".webm";
    var p := LowerAsciiString("photo.jpg");
    assert p[|p| - 4..] == ".jpg";
    assert p[|p| - 5..] == "o.jpg";
    var u := LowerAsciiString("clip.mp4?x=1");
    assert u[|u| - 4..] == "?x=1";
    assert u[|u| - 5..] == "4?x=1";
  }
}

=== FILE: json_strings.dfy ===
/** JSON text for the two kinds of value the application keeps in local storage: booleans
    and arrays of strings. `Stringify` is `JSON.stringify` on an array of strings (the
    QuoteJSONString escaping of section 25.5.2 of ECMA-262), `ParseStrings` is `JSON.parse`
    restricted to that shape, without insignificant white space. */
module JsonStrings {
  import opened Options
  import opened JsText
  import UriComponent

  /** `JSON.stringify(b)` for a boolean. */
  function BoolText(b: bool): string {
    if b then "true" else "false"
  }

  /** `JSON.parse(s)` when `s` is a JSON boolean; `None` for any other text. */
  function ParseBool(s: string): (r: Option<bool>)
    ensures r.Some? <==> s == "true" || s == "false"
  {
    if s == "true" then Some(true) else if s == "false" then Some(false) else None
  }

  lemma BoolRoundTrip(b: bool)
    ensures ParseBool(BoolText(b)) == Some(b)
  {
  }

  const LowerHex: string := "0123456789abcdef"

  /** The escape of one character inside a JSON string: the two-character escapes for
      backspace, tab, line feed, form feed, carriage return, quote and backslash, `\u00xx`
      with lower-case hex digits for the other control characters, the character itself
      otherwise. */
  function EscapeChar(c: char): (r: string)
    ensures |r| > 0 && r[0] != '"'
    ensures r[0] == '\\' || (r == [c] && c >= ' ' && c != '\\')
  {
    if c == '\U{0008}' then "\\b"
    else if c == '\t' then "\\t"
    else if c == '\n' then "\\n"
    else if c == '\U{000C}' then "\\f"
    else if c == '\r' then "\\r"
    else if c == '"' then "\\\""
    else if c == '\\' then "\\\\"
    else if c < ' ' then "\\u00" + [LowerHex[c as int / 16], LowerHex[c as int % 16]]
    else [c]
  }

  function EscapeAll(s: string): string
    decreases |s|
  {
    if s == [] then "" else EscapeChar(s[0]) + EscapeAll(s[1..])
  }

  /** A string as a JSON string literal. */
  function Quote(s: string): string {
    "\"" + EscapeAll(s) + "\""
  }

  /** The members after the first, each preceded by a comma. */
  function MoreMembers(xs: seq<string>): string
    decreases |xs|
  {
    if xs == [] then "" else "," + Quote(xs[0]) + MoreMembers(xs[1..])
  }

  /** `JSON.stringify(xs)` for an array of strings. */
  function Stringify(xs: seq<string>): (r: string)
    ensures |r| >= 2 && r[0] == '[' && r[|r| - 1] == ']'
  {
    if xs == [] then "[]" else "[" + Quote(xs[0]) + MoreMembers(xs[1..]) + "]"
  }

  /** One character of a string literal, which must not start with the closing quote: an
      escape sequence or a plain character other than a control character. A `\u` escape of
      a surrogate code unit is rejected, since a lone surrogate is not a character here. */
  function ReadChar(s: string): (r: Option<(char, string)>)
    requires s != [] && s[0] != '"'
    ensures r.Some? ==> |r.value.1| < |s|
  {
    if s[0] == '\\' then
      if |s| < 2 then None
      else if s[1] == 'b' then Some(('\U{0008}', s[2..]))
      else if s[1] == 't' then Some(('\t', s[2..]))
      else if s[1] == 'n' then Some(('\n', s[2..]))
      else if s[1] == 'f' then Some(('\U{000C}', s[2..]))
      else if s[1] == 'r' then Some(('\r', s[2..]))
      else if s[1] == '"' || s[1] == '\\' || s[1] == '/' then Some((s[1], s[2..]))
      else if s[1] == 'u' && |s| >= 6 then
        var h := [UriComponent.HexValue(s[2]), UriComponent.HexValue(s[3]),
                  UriComponent.HexValue(s[4]), UriComponent.HexValue(s[5])];
        if h[0].None? || h[1].None? || h[2].None? || h[3].None? then None
        else
          var v := ((h[0].value * 16 + h[1].value) * 16 + h[2].value) * 16 + h[3].value;
          if 0xD800 <= v < 0xE000 then None else Some((v as char, s[6..]))
      else None
    else if s[0] < ' ' then None
    else Some((s[0], s[1..]))
  }

  /** The rest of a string literal after its opening quote: its characters and the text after
      the closing quote. */
  function ReadString(s: string): (r: Option<(string, string)>)
    ensures r.Some? ==> |r.value.1| < |s|
    decreases |s|
  {
    if s == [] then None
    else if s[0] == '"' then Some(("", s[1..]))
    else
      match ReadChar(s)
      case None => None
      case Some((c, t)) =>
        match ReadString(t)
        case None => None
        case Some((x, u)) => Some(([c] + x, u))
  }

  /** The rest of an array after a member: `]` at the very end, or a comma and another string
      member. */
  function ReadMore(s: string): (r: Option<seq<string>>)
    decreases |s|
  {
    if s == "]" then Some([])
    else if |s| >= 2 && s[0] == ',' && s[1] == '"' then
      match ReadString(s[2..])
      case None => None
      case Some((x, t)) =>
        match ReadMore(t)
        case None => None
        case Some(xs) => Some([x] + xs)
    else None
  }

  /** `JSON.parse(s)` when `s` is an array of strings without white space between tokens;
      `None` for any other text. */
  function ParseStrings(s: string): (r: Option<seq<string>>)
    ensures s == "[]" ==> r == Some([])
  {
    if s == "[]" then Some([])
    else if |s| >= 2 && s[0] == '[' && s[1] == '"' then
      match ReadString(s[2..])
      case None => None
      case Some((x, t)) =>
        match ReadMore(t)
        case None => None
        case Some(xs) => Some([x] + xs)
    else None
  }

  lemma LowerHexValue(n: int)
    requires 0 <= n < 16
    ensures UriComponent.HexValue(LowerHex[n]) == Some(n)
  {
  }

  /** Reading an escaped character gives the character back. */
  lemma ReadEscaped(c: char, t: string)
    ensures ReadChar(EscapeChar(c) + t) == Some((c, t))
  {
    var e := EscapeChar(c);
    var s := e + t;
    if c < ' ' && c != '\U{0008}' && c != '\t' && c != '\n' && c != '\U{000C}' && c != '\r' {
      var hi := c as int / 16;
      var lo := c as int % 16;
      LowerHexValue(hi);
      LowerHexValue(lo);
      assert s[..6] == e;
      assert s[2] == '0' && s[3] == '0' && s[4] == LowerHex[hi] && s[5] == LowerHex[lo];
      assert ((0 * 16 + 0) * 16 + hi) * 16 + lo == c as int;
      assert s[6..] == t;
    } else if e[0] == '\\' {
      assert s[..2] == e;
      assert s[2..] == t;
    } else {
      assert s[1..] == t;
    }
  }

  /** Reading a quoted string's escaped body and closing quote gives the string back and
      leaves the text after the quote. */
  lemma {:induction false} ReadQuoted(x: string, t: string)
    ensures ReadString(EscapeAll(x) + "\"" + t) == Some((x, t))
    decreases |x|
  {
    var s := EscapeAll(x) + "\"" + t;
    if x == [] {
      assert s == "\"" + t;
      assert s[1..] == t;
    } else {
      var e := EscapeChar(x[0]);
      var rest := EscapeAll(x[1..]) + "\"" + t;
      assert s == e + rest;
      ReadEscaped(x[0], rest);
      ReadQuoted(x[1..], t);
      assert [x[0]] + x[1..] == x;
    }
  }

  /** Reading the members after the first gives them back. */
  lemma {:induction false} ReadMoreMembers(xs: seq<string>)
    ensures ReadMore(MoreMembers(xs) + "]") == Some(xs)
    decreases |xs|
  {
    if xs != [] {
      var t := MoreMembers(xs[1..]) + "]";
      MoreMembersShape(xs);
      ReadMoreMembers(xs[1..]);
      ReadNextMember(MoreMembers(xs) + "]", xs[0], t, xs[1..]);
      assert [xs[0]] + xs[1..] == xs;
    }
  }

  /** A quoted member after one opening character: the character, the quote, then the
      escaped body, the closing quote and what follows. */
  lemma QuotedAfter(open: string, x: string, t: string)
    requires |open| == 1
    ensures var s := open + Quote(x) + t;
            |s| >= 2 && s[0] == open[0] && s[1] == '"' && s[2..] == EscapeAll(x) + "\"" + t
  {
    var s := open + Quote(x) + t;
    var e := EscapeAll(x);
    assert s == open + "\"" + (e + "\"" + t);
    assert s[2..] == e + "\"" + t;
  }

  /** The members after the first, closed by `]`: a comma, the next quoted member, the rest. */
  lemma MoreMembersShape(xs: seq<string>)
    requires xs != []
    ensures var s := MoreMembers(xs) + "]";
            |s| >= 2 && s[0] == ',' && s[1] == '"'
            && s[2..] == EscapeAll(xs[0]) + "\"" + (MoreMembers(xs[1..]) + "]")
  {
    QuotedAfter(",", xs[0], MoreMembers(xs[1..]) + "]");
  }

  /** A comma and a quoted member in front of readable members. */
  lemma ReadNextMember(s: string, x: string, t: string, ys: seq<string>)
    requires |s| >= 2 && s[0] == ',' && s[1] == '"' && s[2..] == EscapeAll(x) + "\"" + t
    requires ReadMore(t) == Some(ys)
    ensures ReadMore(s) == Some([x] + ys)
  {
    ReadQuoted(x, t);
    assert s != "]" by { assert s[0] == ','; }
  }

  /** What is stored is what is read back: parsing the JSON text of an array of strings gives
      the array. */
  lemma StringifyRoundTrip(xs: seq<string>)
    ensures ParseStrings(Stringify(xs)) == Some(xs)
  {
    if xs != [] {
      var t := MoreMembers(xs[1..]) + "]";
      ReadMoreMembers(xs[1..]);
      QuotedAfter("[", xs[0], t);
      assert Stringify(xs) == "[" + Quote(xs[0]) + t;
      ParseFirstMember(Stringify(xs), xs[0], t, xs[1..]);
      assert [xs[0]] + xs[1..] == xs;
    }
  }

  /** An opening bracket and a quoted member in front of readable members. */
  lemma ParseFirstMember(s: string, x: string, t: string, ys: seq<string>)
    requires |s| >= 2 && s[0] == '[' && s[1] == '"' && s[2..] == EscapeAll(x) + "\"" + t
    requires ReadMore(t) == Some(ys)
    ensures ParseStrings(s) == Some([x] + ys)
  {
    ReadQuoted(x, t);
    assert s != "[]" by { assert s[1] == '"'; }
  }

  /** Two arrays with the same JSON text are equal. */
  lemma StringifyInjective(xs: seq<string>, ys: seq<string>)
    requires Stringify(xs) == Stringify(ys)
    ensures xs == ys
  {
    StringifyRoundTrip(xs);
    StringifyRoundTrip(ys);
  }
}

=== FILE: link_scan.dfy ===
/** The map popup's search for a video link inside an incident description: the global
    regular expression `(https?:\/\/[^\s]+)` collects every URL-like token, and the first
    token naming a known video host is taken. */
module LinkScan {
  import opened Options
  import opened JsText

  /** `scheme` starts at `i` and is followed by at least one non-space character, so the
      pattern can match there. */
  predicate SchemeAt(s: string, i: nat, scheme: string) {
    OccursAt(s, scheme, i) && i + |scheme| < |s| && !IsSpace(s[i + |scheme|])
  }

  /** The pattern matches at position `i` (with or without the optional `s`). */
  predicate UrlStartsAt(s: string, i: nat) {
    SchemeAt(s, i, "https://") || SchemeAt(s, i, "http://")
  }

  /** End of the run of non-space characters starting at `i`. */
  function RunEnd(s: string, i: nat): (r: nat)
    requires i <= |s|
    ensures i <= r <= |s|
    ensures forall k :: i <= k < r ==> !IsSpace(s[k])
    ensures r < |s| ==> IsSpace(s[r])
    decreases |s| - i
  {
    if i == |s| || IsSpace(s[i]) then i else RunEnd(s, i + 1)
  }

  /** The matches of the global search from position `i`: the leftmost match, which runs to
      the end of its non-space run because `[^\s]+` is greedy, then the matches after it. */
  function MatchesFrom(s: string, i: nat): (r: seq<string>)
    requires i <= |s|
    decreases |s| - i
  {
    if i == |s| then []
    else if UrlStartsAt(s, i) then
      assert !IsSpace(s[i]) by { assert s[i..i + 4][0] == s[i]; }
      [s[i..RunEnd(s, i)]] + MatchesFrom(s, RunEnd(s, i))
    else MatchesFrom(s, i + 1)
  }

  /** `description.match(/(https?:\/\/[^\s]+)/g)`, with "no match" as the empty list. */
  function Matches(s: string): seq<string> {
    MatchesFrom(s, 0)
  }

  /** A token that the pattern matches in full: a scheme, at least one more character, and no
      white space. */
  predicate IsUrlToken(t: string) {
    ((StartsWith(t, "https://") && |t| > 8) || (StartsWith(t, "http://") && |t| > 7)) && NoSpace(t)
  }

  /** The hosts the popup knows how to embed. */
  predicate KnownHost(link: string) {
    Includes(link, "youtube.com") || Includes(link, "youtu.be")
    || Includes(link, "facebook.com") || Includes(link, "fb.watch")
  }

  /** `matches.find(...)`: the first token naming a known host. */
  function FirstKnown(ms: seq<string>): (r: Option<string>)
    ensures r.Some? ==> r.value in ms && KnownHost(r.value)
    ensures r.None? <==> forall i :: 0 <= i < |ms| ==> !KnownHost(ms[i])
    ensures r.Some? ==> exists i :: 0 <= i < |ms| && ms[i] == r.value
                                   && forall k :: 0 <= k < i ==> !KnownHost(ms[k])
    decreases |ms|
  {
    if ms == [] then None
    else if KnownHost(ms[0]) then Some(ms[0])
    else
      var r := FirstKnown(ms[1..]);
      if r.Some? then
        var i :| 0 <= i < |ms[1..]| && ms[1..][i] == r.value
                 && forall k :: 0 <= k < i ==> !KnownHost(ms[1..][k]);
        assert ms[i + 1] == r.value;
        assert forall k :: 0 <= k < i + 1 ==> !KnownHost(ms[k]) by {
          forall k | 0 <= k < i + 1 ensures !KnownHost(ms[k]) {
            if k > 0 { assert ms[k] == ms[1..][k - 1]; }
          }
        }
        r
      else
        assert forall i :: 0 <= i < |ms| ==> !KnownHost(ms[i]) by {
          forall i | 0 <= i < |ms| ensures !KnownHost(ms[i]) {
            if i > 0 { assert ms[i] == ms[1..][i - 1]; }
          }
        }
        r
  }

  /** A known link appended after matches that name no known host is the one found. */
  lemma {:induction false} FirstKnownAfterUnknown(ms: seq<string>, l: string)
    requires FirstKnown(ms).None? && KnownHost(l)
    ensures FirstKnown(ms + [l]) == Some(l)
    decreases |ms|
  {
    if ms == [] {
      assert ms + [l] == [l];
    } else {
      assert (ms + [l])[1..] == ms[1..] + [l];
      assert (ms + [l])[0] == ms[0];
      FirstKnownAfterUnknown(ms[1..], l);
    }
  }

  /** The popup's video link: the explicit `video_link` when set, otherwise the first URL in
      a non-empty description that names a known host, otherwise none (`""`). */
  function VideoLinkOf(videoLink: string, description: string): (r: string)
    ensures videoLink != "" ==> r == videoLink
    ensures videoLink == "" && r != "" ==> r in Matches(description) && KnownHost(r)
    ensures videoLink == "" && r != "" ==>
              exists i :: 0 <= i < |Matches(description)| && Matches(description)[i] == r
                          && forall j :: 0 <= j < i ==> !KnownHost(Matches(description)[j])
    ensures videoLink == "" && r == "" ==>
              forall i :: 0 <= i < |Matches(description)| ==> !KnownHost(Matches(description)[i])
  {
    if videoLink != "" then videoLink
    else if description == "" then ""
    else
      match FirstKnown(Matches(description))
      case None => ""
      case Some(l) => l
  }

  /** Every match is a URL token found in the text at or after the start position. */
  lemma {:induction false} MatchesAreTokens(s: string, i: nat)
    requires i <= |s|
    ensures forall m :: m in MatchesFrom(s, i) ==> IsUrlToken(m) && exists j :: i <= j && OccursAt(s, m, j)
    decreases |s| - i
  {
    if i < |s| {
      if UrlStartsAt(s, i) {
        MatchesAreTokens(s, RunEnd(s, i));
        TokenAt(s, i);
      } else {
        MatchesAreTokens(s, i + 1);
      }
    }
  }

  /** The match at a position where the pattern matches is a URL token found there. */
  lemma TokenAt(s: string, i: nat)
    requires i < |s| && UrlStartsAt(s, i)
    ensures IsUrlToken(s[i..RunEnd(s, i)]) && OccursAt(s, s[i..RunEnd(s, i)], i)
  {
    if SchemeAt(s, i, "https://") {
      assert NoSpace("https://");
      SchemeToken(s, i, "https://");
    } else {
      assert NoSpace("http://");
      SchemeToken(s, i, "http://");
    }
  }

  /** The non-space run at a scheme match starts with the scheme, reaches past it, and holds
      no white space. */
  lemma SchemeToken(s: string, i: nat, scheme: string)
    requires SchemeAt(s, i, scheme) && NoSpace(scheme)
    ensures var m := s[i..RunEnd(s, i)];
            StartsWith(m, scheme) && |m| > |scheme| && NoSpace(m) && OccursAt(s, m, i)
  {
    RunPastScheme(s, i, scheme);
    var m := s[i..RunEnd(s, i)];
    assert m[..|scheme|] == s[i..i + |scheme|];
    forall k | 0 <= k < |m|
      ensures !IsSpace(m[k])
    {
      assert m[k] == s[i + k];
    }
  }

  /** The non-space run at a scheme match reaches past the scheme. */
  lemma RunPastScheme(s: string, i: nat, scheme: string)
    requires SchemeAt(s, i, scheme) && NoSpace(scheme)
    ensures RunEnd(s, i) > i + |scheme|
  {
    forall k | i <= k <= i + |scheme|
      ensures !IsSpace(s[k])
    {
      if k < i + |scheme| {
        assert s[k] == s[i..i + |scheme|][k - i];
      }
    }
  }

  /** Matching in `a + b` where `b` starts with white space: the matches inside `a`, then the
      matches from the start of `b`; no match crosses the boundary. */
  lemma {:induction false} MatchesSplit(a: string, b: string, i: nat)
    requires i <= |a| && |b| > 0 && IsSpace(b[0])
    ensures MatchesFrom(a + b, i) == MatchesFrom(a, i) + MatchesFrom(a + b, |a|)
    decreases |a| - i
  {
    var s := a + b;
    if i < |a| {
      UrlStartsSame(a, b, i);
      if UrlStartsAt(a, i) {
        RunEndSame(a, b, i);
        var e := RunEnd(a, i);
        assert s[i..e] == a[i..e];
        MatchesSplit(a, b, e);
      } else {
        MatchesSplit(a, b, i + 1);
      }
    }
  }

  /** A match start inside `a` does not look past `a` when `b` starts with white space. */
  lemma UrlStartsSame(a: string, b: string, i: nat)
    requires i < |a| && |b| > 0 && IsSpace(b[0])
    ensures UrlStartsAt(a + b, i) <==> UrlStartsAt(a, i)
  {
    var s := a + b;
    SchemeSame(a, b, i, "https://");
    SchemeSame(a, b, i, "http://");
  }

  lemma SchemeSame(a: string, b: string, i: nat, scheme: string)
    requires i < |a| && |b| > 0 && IsSpace(b[0])
    requires NoSpace(scheme)
    ensures SchemeAt(a + b, i, scheme) <==> SchemeAt(a, i, scheme)
  {
    var s := a + b;
    var n := |scheme|;
    if SchemeAt(s, i, scheme) {
      assert forall k :: i <= k <= i + n ==> !IsSpace(s[k]) by {
        forall k | i <= k <= i + n ensures !IsSpace(s[k]) {
          if k < i + n {
            assert s[i..i + n][k - i] == s[k];
          }
        }
      }
      assert IsSpace(s[|a|]);
      assert a[i..i + n] == s[i..i + n];
    }
    if SchemeAt(a, i, scheme) {
      assert a[i..i + n] == s[i..i + n];
    }
  }

  lemma {:induction false} RunEndSame(a: string, b: string, i: nat)
    requires i <= |a| && |b| > 0 && IsSpace(b[0])
    ensures RunEnd(a + b, i) == RunEnd(a, i)
    decreases |a| - i
  {
    if i < |a| {
      RunEndSame(a, b, i + 1);
    }
  }

  /** Positions where no match starts are skipped. */
  lemma {:induction false} MatchesSkip(s: string, i: nat, j: nat)
    requires i <= j <= |s|
    requires forall k :: i <= k < j ==> !UrlStartsAt(s, k)
    ensures MatchesFrom(s, i) == MatchesFrom(s, j)
    decreases j - i
  {
    if i < j {
      MatchesSkip(s, i + 1, j);
    }
  }

  /** No match starts at a character other than `h`. */
  lemma NoStartWithoutH(s: string, k: nat)
    requires k < |s| && s[k] != 'h'
    ensures !UrlStartsAt(s, k)
  {
    if k + 7 <= |s| {
      assert s[k..k + 7][0] == s[k];
    }
    if k + 8 <= |s| {
      assert s[k..k + 8][0] == s[k];
    }
  }

  /** A URL token that runs to the end of the text is the last match. */
  lemma TrailingToken(a: string, t: string)
    requires IsUrlToken(t)
    ensures MatchesFrom(a + t, |a|) == [t]
  {
    var s := a + t;
    TokenStarts(a, t);
    TokenRunsToEnd(a, t);
    assert MatchesFrom(s, |a|) == [s[|a|..|s|]] + MatchesFrom(s, |s|);
    assert s[|a|..|s|] == t;
  }

  lemma TokenRunsToEnd(a: string, t: string)
    requires NoSpace(t)
    ensures RunEnd(a + t, |a|) == |a + t|
  {
    var s := a + t;
    forall k | |a| <= k < |s| ensures !IsSpace(s[k]) {
      assert s[k] == t[k - |a|];
    }
    RunEndNoSpace(s, |a|);
  }

  lemma TokenStarts(a: string, t: string)
    requires IsUrlToken(t)
    ensures UrlStartsAt(a + t, |a|)
  {
    var s := a + t;
    if StartsWith(t, "https://") && |t| > 8 {
      assert s[|a|..|a| + 8] == t[..8];
      assert s[|a| + 8] == t[8];
    } else {
      assert s[|a|..|a| + 7] == t[..7];
      assert s[|a| + 7] == t[7];
    }
  }

  lemma {:induction false} RunEndNoSpace(s: string, i: nat)
    requires i <= |s|
    requires forall k :: i <= k < |s| ==> !IsSpace(s[k])
    ensures RunEnd(s, i) == |s|
    decreases |s| - i
  {
    if i < |s| {
      RunEndNoSpace(s, i + 1);
    }
  }

  /** The matches of a text that has none are empty. */
  lemma MatchesEmpty()
    ensures Matches("") == []
    ensures Matches("see http:// later") == []
  {
    var s := "see http:// later";
    forall k | 0 <= k < |s| ensures !UrlStartsAt(s, k) {
      if k == 4 {
        assert s[11] == ' ';
      } else {
        NoStartWithoutH(s, k);
      }
    }
    MatchesSkip(s, 0, |s|);
  }
}

=== FILE: map_markers.dfy ===
/** The live map's marker bookkeeping: three registries keyed by row id (fellow volunteers,
    public cameras, incidents) kept in step with the initial fetches and the realtime change
    events, the video embed chosen for an incident popup, and the 3D tilt toggle. The map
    library itself (layers, popups as HTML, camera animation) is represented only by the
    values it is handed. */
module MapMarkers {
  import opened Options
  import opened JsText
  import opened UriComponent
  import opened LinkScan

  type Id = string

  datatype Pos = Pos(lat: real, lng: real)

  // ---------------------------------------------------------------- video embeds

  /** The embed placed in an incident popup. */
  datatype Embed = NoEmbed | YouTube(videoId: string) | Facebook(encodedHref: string)

  predicate IsYouTubeLink(link: string) {
    Includes(link, "youtube.com") || Includes(link, "youtu.be")
  }

  predicate IsFacebookLink(link: string) {
    Includes(link, "facebook.com") || Includes(link, "fb.watch")
  }

  /** The YouTube video id: after the first `v=`, cut at the next `v=` and then at the first
      `&`; failing that, after the first `youtu.be/`, cut at the next `youtu.be/` and then at
      the first `?`; failing both, empty. */
  function YouTubeId(link: string): (r: string)
    ensures Includes(link, "v=") ==>
              var tail := link[IndexOf(link, "v=", 0).value + 2..];
              && StartsWith(tail, r) && !Includes(r, "&") && !Includes(r, "v=")
              && (r == tail || OccursAt(tail, "&", |r|) || OccursAt(tail, "v=", |r|))
    ensures !Includes(link, "v=") && Includes(link, "youtu.be/") ==>
              var tail := link[IndexOf(link, "youtu.be/", 0).value + 9..];
              && StartsWith(tail, r) && !Includes(r, "?") && !Includes(r, "youtu.be/")
              && (r == tail || OccursAt(tail, "?", |r|) || OccursAt(tail, "youtu.be/", |r|))
    ensures !Includes(link, "v=") && !Includes(link, "youtu.be/") ==> r == ""
  {
    if Includes(link, "v=") then
      SecondPiece(link, "v=", "&")
    else if Includes(link, "youtu.be/") then
      SecondPiece(link, "youtu.be/", "?")
    else ""
  }

  /** `link.split(sep)[1].split(stop)[0]` for a link containing `sep`. */
  function SecondPiece(link: string, sep: string, stop: string): (r: string)
    requires |sep| > 0 && |stop| > 0 && Includes(link, sep)
    ensures var i := IndexOf(link, sep, 0).value;
            StartsWith(link[i + |sep|..], r) && !Includes(r, stop)
    ensures !Includes(r, sep)
    ensures var tail := link[IndexOf(link, sep, 0).value + |sep|..];
            r == tail || OccursAt(tail, stop, |r|) || OccursAt(tail, sep, |r|)
  {
    SplitSecond(link, sep);
    CutOfCut(link[IndexOf(link, sep, 0).value + |sep|..], sep, stop);
    BeforeFirst(Split(link, sep)[1], stop)
  }

  /** Cutting a text at `sep` and the piece at `stop` leaves a prefix of the text free of
      `sep` and `stop` that is the whole text or is followed by `stop` or `sep`. */
  lemma CutOfCut(tail: string, sep: string, stop: string)
    requires |sep| > 0 && |stop| > 0
    ensures var r := BeforeFirst(BeforeFirst(tail, sep), stop);
            && StartsWith(tail, r) && !Includes(r, sep) && !Includes(r, stop)
            && (r == tail || OccursAt(tail, stop, |r|) || OccursAt(tail, sep, |r|))
  {
    var piece := BeforeFirst(tail, sep);
    var r := BeforeFirst(piece, stop);
    PrefixOfFreePiece(tail, piece, r, sep);
    if |r| < |piece| {
      OccursInPrefix(tail, piece, stop, |r|);
    } else if |piece| == |tail| {
      WholePrefix(tail, r);
    }
  }

  /** An occurrence inside a prefix of a text is an occurrence in the text. */
  lemma OccursInPrefix(s: string, p: string, pat: string, i: nat)
    requires StartsWith(s, p) && OccursAt(p, pat, i)
    ensures OccursAt(s, pat, i)
  {
    assert s[i..i + |pat|] == p[i..i + |pat|];
  }

  /** A prefix as long as the text is the text. */
  lemma WholePrefix(s: string, p: string)
    requires StartsWith(s, p) && |p| == |s|
    ensures p == s
  {
    assert s[..|p|] == s;
  }

  /** A prefix of a piece free of `sep` that starts a text also starts that text and is free
      of `sep`. */
  lemma PrefixOfFreePiece(s: string, piece: string, r: string, sep: string)
    requires StartsWith(s, piece) && !Includes(piece, sep) && StartsWith(piece, r)
    ensures StartsWith(s, r) && !Includes(r, sep)
  {
    StartsWithTrans(s, piece, r);
    var rest := piece[|r|..];
    assert r + rest == piece;
    ExcludesPrefix(r, rest, sep);
  }

  /** A link of the form `prefix + sep + id + rest`, where `rest` is empty or starts with the
      `stop` character, gives back `id`. */
  lemma SecondPieceOf(prefix: string, sep: string, id: string, rest: string, stop: char)
    requires |sep| > 0 && sep[|sep| - 1] !in sep[..|sep| - 1] && stop !in sep
    requires !Includes(prefix, sep) && !Includes(id, sep) && !Includes(id, [stop])
    requires rest == [] || rest[0] == stop
    ensures Includes(prefix + sep + id + rest, sep)
    ensures SecondPiece(prefix + sep + id + rest, sep, [stop]) == id
  {
    var t := id + rest;
    assert prefix + sep + id + rest == prefix + sep + t;
    FirstOccurrenceAfter(prefix, sep, t);
    SplitAfter(prefix, sep, t);
    var tail := PieceAfterId(id, rest, sep, stop);
    CutAtStop(id, tail, stop);
  }

  /** The piece `BeforeFirst(id + rest, sep)` is `id` followed by nothing or by `stop`. */
  lemma PieceAfterId(id: string, rest: string, sep: string, stop: char) returns (tail: string)
    requires |sep| > 0 && stop !in sep && !Includes(id, sep)
    requires rest == [] || rest[0] == stop
    ensures BeforeFirst(id + rest, sep) == id + tail
    ensures tail == [] || tail[0] == stop
  {
    var t := id + rest;
    var u := BeforeFirst(t, sep);
    NoStraddle(id, rest, sep);
    BeforeFirstReaches(t, sep, |id|);
    assert u == t[..|u|];
    tail := u[|id|..];
    assert u == id + tail;
    if tail != [] {
      assert tail[0] == t[|id|];
    }
  }

  /** Cutting `id + tail` at the first `stop` gives `id` when `id` has no `stop` and `tail` is
      empty or starts with it. */
  lemma CutAtStop(id: string, tail: string, stop: char)
    requires !Includes(id, [stop])
    requires tail == [] || tail[0] == stop
    ensures BeforeFirst(id + tail, [stop]) == id
  {
    if tail == [] {
      assert id + tail == id;
      BeforeFirstAbsent(id, [stop]);
    } else {
      var more := tail[1..];
      assert id + tail == id + [stop] + more;
      FirstOccurrenceAfter(id, [stop], more);
      SplitAfter(id, [stop], more);
    }
  }

  /** A watch link `…v=<id>` or `…v=<id>&…` gives `id`. */
  lemma WatchLinkId(prefix: string, id: string, rest: string)
    requires !Includes(prefix, "v=") && !Includes(id, "v=") && !Includes(id, "&")
    requires rest == "" || rest[0] == '&'
    ensures YouTubeId(prefix + "v=" + id + rest) == id
  {
    assert "v="[..1] == "v";
    SecondPieceOf(prefix, "v=", id, rest, '&');
  }

  /** A short link `…youtu.be/<id>` or `…youtu.be/<id>?…` gives `id`, when the link has no
      `v=` anywhere (which would take precedence). */
  lemma ShortLinkId(prefix: string, id: string, rest: string)
    requires !Includes(prefix + "youtu.be/" + id + rest, "v=")
    requires !Includes(prefix, "youtu.be/") && !Includes(id, "youtu.be/") && !Includes(id, "?")
    requires rest == "" || rest[0] == '?'
    ensures YouTubeId(prefix + "youtu.be/" + id + rest) == id
  {
    assert "youtu.be/"[..8] == "youtu.be";
    SecondPieceOf(prefix, "youtu.be/", id, rest, '?');
  }

  /** The popup embed for an incident: YouTube hosts are checked first and need a non-empty
      id; Facebook hosts embed the percent-encoded link; anything else embeds nothing. */
  function EmbedOf(videoLink: string, description: string): (r: Embed)
    ensures var link := VideoLinkOf(videoLink, description);
            && (r.YouTube? <==> IsYouTubeLink(link) && YouTubeId(link) != "")
            && (r.YouTube? ==> r.videoId == YouTubeId(link))
            && (r.Facebook? <==> !IsYouTubeLink(link) && IsFacebookLink(link))
            && (r.Facebook? ==> r.encodedHref == Encode(link))
            && (r.Facebook? ==> Decode(r.encodedHref) == Some(link))
  {
    var link := VideoLinkOf(videoLink, description);
    if link == "" then NoEmbed
    else if IsYouTubeLink(link) then
      var id := YouTubeId(link);
      if id == "" then NoEmbed else YouTube(id)
    else if IsFacebookLink(link) then
      DecodeEncode(link);
      Facebook(Encode(link))
    else NoEmbed
  }

  const YouTubeEmbedPrefix: string := "https://www.youtube.com/embed/"
  const FacebookPluginPrefix: string := "https://www.facebook.com/plugins/video.php?href="
  const FacebookPluginSuffix: string := "&show_text=false&width=280"

  /** The `src` of the popup's iframe, `""` without an embed. */
  function EmbedSrc(e: Embed): string {
    match e
    case NoEmbed => ""
    case YouTube(id) => YouTubeEmbedPrefix + id
    case Facebook(href) => FacebookPluginPrefix + href + FacebookPluginSuffix
  }

  /** The Facebook plugin URL carries the link intact: its `href` parameter, read up to the
      next `&`, decodes to the link. */
  lemma FacebookHrefRoundTrip(link: string)
    ensures var src := EmbedSrc(Facebook(Encode(link)));
            var param := BeforeFirst(src[|FacebookPluginPrefix|..], "&");
            Decode(param) == Some(link)
  {
    var enc := Encode(link);
    PluginSrcShape(enc);
    EncodedHasNoAmpersand(link);
    FirstOccurrenceAfter(enc, "&", FacebookPluginSuffix[1..]);
    SplitAfter(enc, "&", FacebookPluginSuffix[1..]);
    DecodeEncode(link);
  }

  /** After the plugin prefix comes the `href` value, then the suffix, which opens with `&`. */
  lemma PluginSrcShape(href: string)
    ensures EmbedSrc(Facebook(href))[|FacebookPluginPrefix|..] == href + "&" + FacebookPluginSuffix[1..]
  {
    assert FacebookPluginSuffix == "&" + FacebookPluginSuffix[1..];
  }

  /** An encoded URI component holds no `&`. */
  lemma EncodedHasNoAmpersand(link: string)
    ensures !Includes(Encode(link), "&")
  {
    var enc := Encode(link);
    EncodeAlphabet(link);
    forall j | 0 <= j < |enc| ensures !OccursAt(enc, "&", j) {
      assert enc[j..j + 1][0] == enc[j];
    }
  }

  // ---------------------------------------------------------------- fellow volunteers

  /** A row of the presence table. */
  datatype UserRow = UserRow(id: Id, pos: Pos)

  /** A change event on the presence table: an insert or update carries the new row, a
      delete the old row's id. */
  datatype UserEvent = UserUpserted(row: UserRow) | UserDeleted(id: Id)

  /** One realtime event: the device's own row is ignored on insert and update; another row is
      created or moved; a delete removes the marker if there is one. */
  function ApplyUserEvent(reg: map<Id, Pos>, own: Id, ev: UserEvent): (r: map<Id, Pos>)
    ensures ev.UserUpserted? && ev.row.id == own ==> r == reg
    ensures ev.UserUpserted? && ev.row.id != own ==>
              r.Keys == reg.Keys + {ev.row.id} && r[ev.row.id] == ev.row.pos
    ensures ev.UserDeleted? ==> r.Keys == reg.Keys - {ev.id}
    ensures forall k :: k in r && k != EventId(ev) ==> k in reg && r[k] == reg[k]
  {
    match ev
    case UserUpserted(row) => if row.id == own then reg else reg[row.id := row.pos]
    case UserDeleted(id) => reg - {id}
  }

  function EventId(ev: UserEvent): Id {
    match ev
    case UserUpserted(row) => row.id
    case UserDeleted(id) => id
  }

  /** The first listed row with the given id. */
  function FirstRow(rows: seq<UserRow>, k: Id): Option<UserRow>
    decreases |rows|
  {
    if rows == [] then None else if rows[0].id == k then Some(rows[0]) else FirstRow(rows[1..], k)
  }

  /** The initial presence fetch: every listed user except the device itself and those
      already shown gets a marker, placed where that user's first row puts it; markers
      already shown are not moved. */
  function SeedUsers(reg: map<Id, Pos>, own: Id, rows: seq<UserRow>): (r: map<Id, Pos>)
    ensures forall k :: k in reg ==> k in r && r[k] == reg[k]
    ensures forall i :: 0 <= i < |rows| && rows[i].id != own ==> rows[i].id in r
    ensures forall k :: k in r ==> k in reg || exists i :: 0 <= i < |rows| && rows[i].id == k && k != own
    ensures forall k :: k in r && k !in reg ==>
              k != own && FirstRow(rows, k).Some? && r[k] == FirstRow(rows, k).value.pos
    decreases |rows|
  {
    if rows == [] then reg
    else
      var row := rows[0];
      var next := if row.id == own || row.id in reg then reg else reg[row.id := row.pos];
      var r := SeedUsers(next, own, rows[1..]);
      SeedUsersStep(reg, own, rows, r);
      SeedUsersMembers(reg, own, rows, r);
      r
  }

  /** One row in front of the rest: every listed user but the device is shown, and every
      shown user was already shown or listed. */
  lemma SeedUsersMembers(reg: map<Id, Pos>, own: Id, rows: seq<UserRow>, r: map<Id, Pos>)
    requires rows != []
    requires var row := rows[0];
             var next := if row.id == own || row.id in reg then reg else reg[row.id := row.pos];
             && (forall k :: k in next ==> k in r)
             && (forall i :: 0 <= i < |rows[1..]| && rows[1..][i].id != own ==> rows[1..][i].id in r)
             && (forall k :: k in r ==> k in next || exists i :: 0 <= i < |rows[1..]| && rows[1..][i].id == k && k != own)
    ensures forall i :: 0 <= i < |rows| && rows[i].id != own ==> rows[i].id in r
    ensures forall k :: k in r ==> k in reg || exists i :: 0 <= i < |rows| && rows[i].id == k && k != own
  {
    var row := rows[0];
    var next := if row.id == own || row.id in reg then reg else reg[row.id := row.pos];
    forall k | k in r && k !in reg
      ensures exists i :: 0 <= i < |rows| && rows[i].id == k && k != own
    {
      if k in next {
        assert rows[0].id == k && k != own;
      } else {
        var i :| 0 <= i < |rows[1..]| && rows[1..][i].id == k && k != own;
        assert rows[i + 1].id == k;
      }
    }
    forall i | 0 <= i < |rows| && rows[i].id != own ensures rows[i].id in r {
      if i > 0 { assert rows[i] == rows[1..][i - 1]; }
    }
  }

  /** One row in front of the rest: a marker new to the registry sits at the first row of its
      id, whether that row is the front one or one of the rest. */
  lemma SeedUsersStep(reg: map<Id, Pos>, own: Id, rows: seq<UserRow>, r: map<Id, Pos>)
    requires rows != []
    requires var row := rows[0];
             var next := if row.id == own || row.id in reg then reg else reg[row.id := row.pos];
             && (forall k :: k in next ==> k in r && r[k] == next[k])
             && (forall k :: k in r && k !in next ==>
                   k != own && FirstRow(rows[1..], k).Some? && r[k] == FirstRow(rows[1..], k).value.pos)
    ensures forall k :: k in r && k !in reg ==>
              k != own && FirstRow(rows, k).Some? && r[k] == FirstRow(rows, k).value.pos
  {
    var row := rows[0];
    var next := if row.id == own || row.id in reg then reg else reg[row.id := row.pos];
    forall k | k in r && k !in reg
      ensures k != own && FirstRow(rows, k).Some? && r[k] == FirstRow(rows, k).value.pos
    {
      if k in next {
        assert k == row.id && r[k] == row.pos;
      } else {
        assert k != row.id;
      }
    }
  }

  /** The device's own marker never appears among the fellow markers. */
  lemma {:induction false} OwnNeverShown(reg: map<Id, Pos>, own: Id, rows: seq<UserRow>, evs: seq<UserEvent>)
    requires own !in reg
    ensures own !in ApplyUserEvents(SeedUsers(reg, own, rows), own, evs)
    decreases |evs|
  {
    if evs != [] {
      var seeded := SeedUsers(reg, own, rows);
      OwnStaysOut(seeded, own, evs);
    }
  }

  lemma {:induction false} OwnStaysOut(reg: map<Id, Pos>, own: Id, evs: seq<UserEvent>)
    requires own !in reg
    ensures own !in ApplyUserEvents(reg, own, evs)
    decreases |evs|
  {
    if evs != [] {
      OwnStaysOut(ApplyUserEvent(reg, own, evs[0]), own, evs[1..]);
    }
  }

  /** Events in arrival order. */
  function ApplyUserEvents(reg: map<Id, Pos>, own: Id, evs: seq<UserEvent>): map<Id, Pos>
    decreases |evs|
  {
    if evs == [] then reg else ApplyUserEvents(ApplyUserEvent(reg, own, evs[0]), own, evs[1..])
  }

  /** Fetching the same rows again changes nothing. */
  lemma {:induction false} SeedUsersIdempotent(reg: map<Id, Pos>, own: Id, rows: seq<UserRow>)
    ensures SeedUsers(SeedUsers(reg, own, rows), own, rows) == SeedUsers(reg, own, rows)
  {
    var once := SeedUsers(reg, own, rows);
    SeedUsersNoop(once, own, rows);
  }

  lemma {:induction false} SeedUsersNoop(reg: map<Id, Pos>, own: Id, rows: seq<UserRow>)
    requires forall i :: 0 <= i < |rows| && rows[i].id != own ==> rows[i].id in reg
    ensures SeedUsers(reg, own, rows) == reg
    decreases |rows|
  {
    if rows != [] {
      assert forall i :: 0 <= i < |rows[1..]| && rows[1..][i].id != own ==> rows[1..][i].id in reg by {
        forall i | 0 <= i < |rows[1..]| && rows[1..][i].id != own ensures rows[1..][i].id in reg {
          assert rows[1..][i] == rows[i + 1];
        }
      }
      SeedUsersNoop(reg, own, rows[1..]);
    }
  }

  /** Events about different users commute. */
  lemma UserEventsCommute(reg: map<Id, Pos>, own: Id, e1: UserEvent, e2: UserEvent)
    requires EventId(e1) != EventId(e2)
    ensures ApplyUserEvent(ApplyUserEvent(reg, own, e1), own, e2)
         == ApplyUserEvent(ApplyUserEvent(reg, own, e2), own, e1)
  {
    var a := ApplyUserEvent(ApplyUserEvent(reg, own, e1), own, e2);
    var b := ApplyUserEvent(ApplyUserEvent(reg, own, e2), own, e1);
    assert a.Keys == b.Keys;
    forall k | k in a
      ensures a[k] == b[k]
    {
    }
  }

  // ---------------------------------------------------------------- public cameras

  datatype Camera = Camera(id: Id, pos: Pos, streamUrl: string, name: string, active: bool)

  /** A camera marker; its popup shows the stream and name it was created with. */
  datatype CameraMarker = CameraMarker(pos: Pos, streamUrl: string, name: string)

  /** `addCCTVMarker`: an existing marker is only moved, keeping its popup; otherwise exactly
      one marker is created. */
  function AddCamera(reg: map<Id, CameraMarker>, cam: Camera): (r: map<Id, CameraMarker>)
    ensures r.Keys == reg.Keys + {cam.id}
    ensures cam.id in reg ==> r[cam.id] == reg[cam.id].(pos := cam.pos)
    ensures cam.id !in reg ==> r[cam.id] == CameraMarker(cam.pos, cam.streamUrl, cam.name)
    ensures forall k :: k in reg && k != cam.id ==> r[k] == reg[k]
  {
    if cam.id in reg then reg[cam.id := reg[cam.id].(pos := cam.pos)]
    else reg[cam.id := CameraMarker(cam.pos, cam.streamUrl, cam.name)]
  }

  datatype ChangeKind = Insert | Update | Delete

  /** The old row of a change event as delivered (it may lack the id). */
  datatype OldRow = OldRow(id: Option<Id>)

  /** A change event on the camera table: `cam` is `None` for the empty new row of a delete, `before` is the old row. */
  datatype CameraEvent = CameraEvent(kind: ChangeKind, cam: Option<Camera>, before: Option<OldRow>)

  /** A delete, or an update whose new row is not active. */
  predicate IsRemoval(ev: CameraEvent) {
    ev.kind == Delete || (ev.kind == Update && !(ev.cam.Some? && ev.cam.value.active))
  }

  /** The id a removal targets: the old row's when there is an old row, else the new row's. */
  function RemovalId(ev: CameraEvent): Option<Id> {
    if ev.before.Some? then ev.before.value.id
    else if ev.cam.Some? then Some(ev.cam.value.id)
    else None
  }

  /** One realtime camera event. */
  function ApplyCameraEvent(reg: map<Id, CameraMarker>, ev: CameraEvent): (r: map<Id, CameraMarker>)
    ensures IsRemoval(ev) && RemovalId(ev).Some? ==> r == reg - {RemovalId(ev).value}
    ensures IsRemoval(ev) && RemovalId(ev).None? ==> r == reg
    ensures !IsRemoval(ev) && ev.cam.Some? && ev.cam.value.active ==> r == AddCamera(reg, ev.cam.value)
    ensures !IsRemoval(ev) && !(ev.cam.Some? && ev.cam.value.active) ==> r == reg
  {
    if IsRemoval(ev) then
      match RemovalId(ev)
      case None => reg
      case Some(id) => reg - {id}
    else if ev.cam.Some? && ev.cam.value.active then AddCamera(reg, ev.cam.value)
    else reg
  }

  /** Only the event's own camera can change. */
  lemma CameraEventLocal(reg: map<Id, CameraMarker>, ev: CameraEvent, k: Id)
    requires k in reg
    requires RemovalId(ev) != Some(k) && (ev.cam.Some? ==> ev.cam.value.id != k)
    ensures k in ApplyCameraEvent(reg, ev) && ApplyCameraEvent(reg, ev)[k] == reg[k]
  {
  }

  /** Turning a camera off removes its marker whatever it was before, and turning it back on
      shows it at its new place with its current stream and name. */
  lemma CameraOffThenOn(reg: map<Id, CameraMarker>, cam: Camera)
    requires cam.active
    ensures var off := ApplyCameraEvent(reg, CameraEvent(Update, Some(cam.(active := false)), Some(OldRow(Some(cam.id)))));
            && cam.id !in off
            && ApplyCameraEvent(off, CameraEvent(Update, Some(cam), Some(OldRow(Some(cam.id)))))[cam.id]
               == CameraMarker(cam.pos, cam.streamUrl, cam.name)
  {
  }

  /** The first received camera with the given id. */
  function FirstCamera(cams: seq<Camera>, k: Id): Option<Camera>
    decreases |cams|
  {
    if cams == [] then None else if cams[0].id == k then Some(cams[0]) else FirstCamera(cams[1..], k)
  }

  /** The last received camera with the given id. */
  function LastCamera(cams: seq<Camera>, k: Id): Option<Camera>
    decreases |cams|
  {
    if cams == [] then None
    else
      var later := LastCamera(cams[1..], k);
      if later.Some? then later else if cams[0].id == k then Some(cams[0]) else None
  }

  /** The initial camera fetch, in the order received: a camera ends where its last row puts
      it, and its popup is the one already shown or else the one of its first row. */
  function SeedCameras(reg: map<Id, CameraMarker>, cams: seq<Camera>): (r: map<Id, CameraMarker>)
    ensures forall k :: k in reg ==> k in r
    ensures forall i :: 0 <= i < |cams| ==> cams[i].id in r
    ensures forall k :: k in r ==> k in reg || exists i :: 0 <= i < |cams| && cams[i].id == k
    ensures forall k :: k in r <==> k in reg || FirstCamera(cams, k).Some?
    ensures forall k :: k in r && LastCamera(cams, k).Some? ==> r[k].pos == LastCamera(cams, k).value.pos
    ensures forall k :: k in r && LastCamera(cams, k).None? ==> k in reg && r[k].pos == reg[k].pos
    ensures forall k :: k in reg ==> r[k].streamUrl == reg[k].streamUrl && r[k].name == reg[k].name
    ensures forall k :: k in r && k !in reg ==>
              && FirstCamera(cams, k).Some?
              && r[k].streamUrl == FirstCamera(cams, k).value.streamUrl
              && r[k].name == FirstCamera(cams, k).value.name
    decreases |cams|
  {
    if cams == [] then reg
    else
      var r := SeedCameras(AddCamera(reg, cams[0]), cams[1..]);
      SeedCamerasStep(reg, cams, r);
      SeedCamerasMembers(reg, cams, r);
      r
  }

  /** One received camera in front of the rest: every received camera is shown, and every
      shown camera was already shown or received. */
  lemma SeedCamerasMembers(reg: map<Id, CameraMarker>, cams: seq<Camera>, r: map<Id, CameraMarker>)
    requires cams != []
    requires var a := AddCamera(reg, cams[0]);
             && (forall k :: k in a ==> k in r)
             && (forall i :: 0 <= i < |cams[1..]| ==> cams[1..][i].id in r)
             && (forall k :: k in r ==> k in a || exists i :: 0 <= i < |cams[1..]| && cams[1..][i].id == k)
    ensures forall i :: 0 <= i < |cams| ==> cams[i].id in r
    ensures forall k :: k in r ==> k in reg || exists i :: 0 <= i < |cams| && cams[i].id == k
  {
    forall i | 0 <= i < |cams| ensures cams[i].id in r {
      if i > 0 { assert cams[i] == cams[1..][i - 1]; }
    }
    forall k | k in r && k !in reg ensures exists i :: 0 <= i < |cams| && cams[i].id == k {
      if k !in AddCamera(reg, cams[0]) {
        var i :| 0 <= i < |cams[1..]| && cams[1..][i].id == k;
        assert cams[i + 1].id == k;
      } else {
        assert cams[0].id == k;
      }
    }
  }

  /** One received camera in front of the rest: the facts about seeding the rest from the
      registry with that camera added carry over to seeding everything. */
  lemma SeedCamerasStep(reg: map<Id, CameraMarker>, cams: seq<Camera>, r: map<Id, CameraMarker>)
    requires cams != []
    requires var a := AddCamera(reg, cams[0]);
             && (forall k :: k in r <==> k in a || FirstCamera(cams[1..], k).Some?)
             && (forall k :: k in r && LastCamera(cams[1..], k).Some? ==> r[k].pos == LastCamera(cams[1..], k).value.pos)
             && (forall k :: k in r && LastCamera(cams[1..], k).None? ==> k in a && r[k].pos == a[k].pos)
             && (forall k :: k in a ==> r[k].streamUrl == a[k].streamUrl && r[k].name == a[k].name)
             && (forall k :: k in r && k !in a ==>
                   && FirstCamera(cams[1..], k).Some?
                   && r[k].streamUrl == FirstCamera(cams[1..], k).value.streamUrl
                   && r[k].name == FirstCamera(cams[1..], k).value.name)
    ensures forall k :: k in r <==> k in reg || FirstCamera(cams, k).Some?
    ensures forall k :: k in r && LastCamera(cams, k).Some? ==> r[k].pos == LastCamera(cams, k).value.pos
    ensures forall k :: k in r && LastCamera(cams, k).None? ==> k in reg && r[k].pos == reg[k].pos
    ensures forall k :: k in reg ==> r[k].streamUrl == reg[k].streamUrl && r[k].name == reg[k].name
    ensures forall k :: k in r && k !in reg ==>
              && FirstCamera(cams, k).Some?
              && r[k].streamUrl == FirstCamera(cams, k).value.streamUrl
              && r[k].name == FirstCamera(cams, k).value.name
  {
    var a := AddCamera(reg, cams[0]);
    CameraLookupsUnfold(cams);
    SeedCamerasStepPos(reg, cams, a, r);
    SeedCamerasStepPopup(reg, cams, a, r);
  }

  /** The first and last camera with an id, one received camera at a time. */
  lemma CameraLookupsUnfold(cams: seq<Camera>)
    requires cams != []
    ensures forall k :: FirstCamera(cams, k) == if cams[0].id == k then Some(cams[0]) else FirstCamera(cams[1..], k)
    ensures forall k :: LastCamera(cams, k) ==
              if LastCamera(cams[1..], k).Some? then LastCamera(cams[1..], k)
              else if cams[0].id == k then Some(cams[0]) else None
  {
  }

  /** The positions part of `SeedCamerasStep`. */
  lemma SeedCamerasStepPos(reg: map<Id, CameraMarker>, cams: seq<Camera>, a: map<Id, CameraMarker>, r: map<Id, CameraMarker>)
    requires cams != [] && a == AddCamera(reg, cams[0])
    requires forall k :: LastCamera(cams, k) ==
               if LastCamera(cams[1..], k).Some? then LastCamera(cams[1..], k)
               else if cams[0].id == k then Some(cams[0]) else None
    requires forall k :: k in r && LastCamera(cams[1..], k).Some? ==> r[k].pos == LastCamera(cams[1..], k).value.pos
    requires forall k :: k in r && LastCamera(cams[1..], k).None? ==> k in a && r[k].pos == a[k].pos
    ensures forall k :: k in r && LastCamera(cams, k).Some? ==> r[k].pos == LastCamera(cams, k).value.pos
    ensures forall k :: k in r && LastCamera(cams, k).None? ==> k in reg && r[k].pos == reg[k].pos
  {
  }

  /** The popup part of `SeedCamerasStep`. */
  lemma SeedCamerasStepPopup(reg: map<Id, CameraMarker>, cams: seq<Camera>, a: map<Id, CameraMarker>, r: map<Id, CameraMarker>)
    requires cams != [] && a == AddCamera(reg, cams[0])
    requires forall k :: FirstCamera(cams, k) == if cams[0].id == k then Some(cams[0]) else FirstCamera(cams[1..], k)
    requires forall k :: k in r <==> k in a || FirstCamera(cams[1..], k).Some?
    requires forall k :: k in a ==> r[k].streamUrl == a[k].streamUrl && r[k].name == a[k].name
    requires forall k :: k in r && k !in a ==>
               && FirstCamera(cams[1..], k).Some?
               && r[k].streamUrl == FirstCamera(cams[1..], k).value.streamUrl
               && r[k].name == FirstCamera(cams[1..], k).value.name
    ensures forall k :: k in r <==> k in reg || FirstCamera(cams, k).Some?
    ensures forall k :: k in reg ==> r[k].streamUrl == reg[k].streamUrl && r[k].name == reg[k].name
    ensures forall k :: k in r && k !in reg ==>
              && FirstCamera(cams, k).Some?
              && r[k].streamUrl == FirstCamera(cams, k).value.streamUrl
              && r[k].name == FirstCamera(cams, k).value.name
  {
  }

  /** Seeding the same cameras twice leaves the markers of seeding once: every camera is
      already shown, keeps its popup and ends at the same last position. */
  lemma SeedCamerasTwice(reg: map<Id, CameraMarker>, cams: seq<Camera>)
    ensures SeedCameras(SeedCameras(reg, cams), cams) == SeedCameras(reg, cams)
  {
    var once := SeedCameras(reg, cams);
    var twice := SeedCameras(once, cams);
    assert twice.Keys == once.Keys;
    forall k | k in twice
      ensures twice[k] == once[k]
    {
    }
  }

  // ---------------------------------------------------------------- incidents

  /** A report row as the map reads it; `videoLink` is `""` when the row has none. */
  datatype Incident = Incident(id: Id, pos: Pos, description: string, videoLink: string)

  datatype IncidentMarker = IncidentMarker(pos: Pos, embed: Embed)

  /** `addIncidentMarker`: an id already on the map is left alone; a new one gets a marker
      with its embed. */
  function AddIncident(reg: map<Id, IncidentMarker>, inc: Incident): (r: map<Id, IncidentMarker>)
    ensures r.Keys == reg.Keys + {inc.id}
    ensures inc.id in reg ==> r == reg
    ensures inc.id !in reg ==> r[inc.id] == IncidentMarker(inc.pos, EmbedOf(inc.videoLink, inc.description))
    ensures forall k :: k in reg ==> r[k] == reg[k]
  {
    if inc.id in reg then reg
    else reg[inc.id := IncidentMarker(inc.pos, EmbedOf(inc.videoLink, inc.description))]
  }

  /** Adding an incident whose id is already shown, even with different contents, changes
      nothing: at most one marker per incident id, fixed by the first arrival. */
  lemma AddIncidentIdempotent(reg: map<Id, IncidentMarker>, a: Incident, b: Incident)
    requires a.id == b.id
    ensures AddIncident(AddIncident(reg, a), b) == AddIncident(reg, a)
  {
  }

  /** The first arrival with the given id. */
  function FirstIncident(incs: seq<Incident>, k: Id): Option<Incident>
    decreases |incs|
  {
    if incs == [] then None else if incs[0].id == k then Some(incs[0]) else FirstIncident(incs[1..], k)
  }

  /** The marker an incident gets when its id is new. */
  function MarkerOf(inc: Incident): IncidentMarker {
    IncidentMarker(inc.pos, EmbedOf(inc.videoLink, inc.description))
  }

  /** The initial incident fetch followed by the realtime inserts, in order: a new id's
      marker is made from its first arrival. */
  function AddIncidents(reg: map<Id, IncidentMarker>, incs: seq<Incident>): (r: map<Id, IncidentMarker>)
    ensures forall k :: k in reg ==> k in r && r[k] == reg[k]
    ensures forall i :: 0 <= i < |incs| ==> incs[i].id in r
    ensures forall k :: k in r ==> k in reg || exists i :: 0 <= i < |incs| && incs[i].id == k
    ensures forall k :: k in r && k !in reg ==>
              FirstIncident(incs, k).Some? && r[k] == MarkerOf(FirstIncident(incs, k).value)
    decreases |incs|
  {
    if incs == [] then reg
    else
      var r := AddIncidents(AddIncident(reg, incs[0]), incs[1..]);
      AddIncidentsStep(reg, incs, r);
      AddIncidentsMembers(reg, incs, r);
      r
  }

  /** One arrival in front of the rest: every arrival is shown, and every shown id was
      already shown or arrived. */
  lemma AddIncidentsMembers(reg: map<Id, IncidentMarker>, incs: seq<Incident>, r: map<Id, IncidentMarker>)
    requires incs != []
    requires var next := AddIncident(reg, incs[0]);
             && (forall k :: k in next ==> k in r)
             && (forall i :: 0 <= i < |incs[1..]| ==> incs[1..][i].id in r)
             && (forall k :: k in r ==> k in next || exists i :: 0 <= i < |incs[1..]| && incs[1..][i].id == k)
    ensures forall i :: 0 <= i < |incs| ==> incs[i].id in r
    ensures forall k :: k in r ==> k in reg || exists i :: 0 <= i < |incs| && incs[i].id == k
  {
    forall i | 0 <= i < |incs| ensures incs[i].id in r {
      if i > 0 { assert incs[i] == incs[1..][i - 1]; }
    }
    forall k | k in r && k !in reg ensures exists i :: 0 <= i < |incs| && incs[i].id == k {
      if k !in AddIncident(reg, incs[0]) {
        var i :| 0 <= i < |incs[1..]| && incs[1..][i].id == k;
        assert incs[i + 1].id == k;
      } else {
        assert incs[0].id == k;
      }
    }
  }

  /** One arrival in front of the rest: a marker new to the registry is made from the first
      arrival of its id, whether that is the front one or one of the rest. */
  lemma AddIncidentsStep(reg: map<Id, IncidentMarker>, incs: seq<Incident>, r: map<Id, IncidentMarker>)
    requires incs != []
    requires var next := AddIncident(reg, incs[0]);
             && (forall k :: k in next ==> k in r && r[k] == next[k])
             && (forall k :: k in r && k !in next ==>
                   FirstIncident(incs[1..], k).Some? && r[k] == MarkerOf(FirstIncident(incs[1..], k).value))
    ensures forall k :: k in r && k !in reg ==>
              FirstIncident(incs, k).Some? && r[k] == MarkerOf(FirstIncident(incs, k).value)
  {
    var next := AddIncident(reg, incs[0]);
    forall k | k in r && k !in reg
      ensures FirstIncident(incs, k).Some? && r[k] == MarkerOf(FirstIncident(incs, k).value)
    {
      if k in next {
        assert k == incs[0].id && r[k] == MarkerOf(incs[0]);
      } else {
        assert k != incs[0].id;
      }
    }
  }

  /** Re-delivering incidents already shown changes nothing. */
  lemma {:induction false} AddIncidentsTwice(reg: map<Id, IncidentMarker>, incs: seq<Incident>)
    ensures AddIncidents(AddIncidents(reg, incs), incs) == AddIncidents(reg, incs)
  {
    AddIncidentsNoop(AddIncidents(reg, incs), incs);
  }

  lemma {:induction false} AddIncidentsNoop(reg: map<Id, IncidentMarker>, incs: seq<Incident>)
    requires forall i :: 0 <= i < |incs| ==> incs[i].id in reg
    ensures AddIncidents(reg, incs) == reg
    decreases |incs|
  {
    if incs != [] {
      assert forall i :: 0 <= i < |incs[1..]| ==> incs[1..][i].id in reg by {
        forall i | 0 <= i < |incs[1..]| ensures incs[1..][i].id in reg {
          assert incs[1..][i] == incs[i + 1];
        }
      }
      AddIncidentsNoop(reg, incs[1..]);
    }
  }

  // ---------------------------------------------------------------- 3D tilt

  /** The 3D flag and the pitch last requested from the map. */
  datatype Tilt = Tilt(is3D: bool, pitch: int)

  /** At mount the flag is on and the map starts at pitch 45. */
  const InitialTilt: Tilt := Tilt(true, 45)

  /** `toggle3D`: with a map, ease to pitch 0 when leaving 3D and 60 when entering it. */
  function Toggle3D(mapReady: bool, t: Tilt): (r: Tilt)
    ensures !mapReady ==> r == t
    ensures mapReady ==> r.is3D == !t.is3D && Settled(r)
  {
    if !mapReady then t else Tilt(!t.is3D, if t.is3D then 0 else 60)
  }

  /** `handleLocate`: with a known position and a map, fly there at pitch 60 in 3D mode. */
  function Locate(hasPosition: bool, mapReady: bool, t: Tilt): (r: Tilt)
    ensures hasPosition && mapReady ==> r.is3D && Settled(r)
    ensures !(hasPosition && mapReady) ==> r == t
  {
    if hasPosition && mapReady then Tilt(true, 60) else t
  }

  /** The flag and the requested pitch agree. */
  predicate Settled(t: Tilt) {
    t.pitch == (if t.is3D then 60 else 0)
  }

  /** Two toggles restore the flag, and from the initial state the first toggle flattens the
      map. */
  lemma ToggleTwice(t: Tilt)
    ensures Toggle3D(true, Toggle3D(true, t)).is3D == t.is3D
    ensures Settled(t) ==> Toggle3D(true, Toggle3D(true, t)) == t
    ensures Toggle3D(true, InitialTilt) == Tilt(false, 0)
  {
  }

  /** Locating keeps the flag and the pitch in agreement, locating again changes nothing, and
      the tilt toggle right after a locate flattens the map. */
  lemma LocateSettles(hasPosition: bool, mapReady: bool, t: Tilt)
    requires Settled(t)
    ensures Settled(Locate(hasPosition, mapReady, t))
    ensures Locate(hasPosition, mapReady, Locate(hasPosition, mapReady, t)) == Locate(hasPosition, mapReady, t)
    ensures Toggle3D(true, Locate(true, true, t)) == Tilt(false, 0)
  {
  }
}

=== FILE: options.dfy ===
/** The optional value used wherever the JavaScript code tests a field or a lookup for
    null/undefined. */
module Options {

  datatype Option<+T> = None | Some(value: T) {

    /** The value, or `default` when there is none (JavaScript `x ?? default`). */
    function GetOr(default: T): T {
      match this
      case Some(v) => v
      case None => default
    }
  }
}

=== FILE: preferences.dfy ===
/** The application's preference store: language, theme, notifications, satellite view and
    the emergency-contact list, each kept in memory and written through to local storage,
    and the initial load that reads them back. */
module Preferences {
  import opened Options
  import opened JsonStrings

  /** Local storage: a map from key to stored text. */
  type Store = map<string, string>

  datatype Prefs = Prefs(
    language: string,
    dark: bool,
    notifications: bool,
    satellite: bool,
    contacts: seq<string>)

  /** The values before anything is loaded. */
  const Defaults: Prefs := Prefs("en", false, true, false, [])

  const LangKey: string := "ncp_lang"
  const ThemeKey: string := "ncp_theme"
  const NotifKey: string := "ncp_notif"
  const SatKey: string := "ncp_sat"
  const ContactsKey: string := "ncp_contacts"

  /** The provider's state: the preferences in memory and local storage. */
  datatype App = App(prefs: Prefs, store: Store)

  /** A stored flag written with `JSON.stringify`: the default when the key is absent, the
      parsed boolean otherwise (`None` when the text is not a JSON boolean). */
  function LoadFlag(store: Store, key: string, default: bool): (r: Option<bool>)
    ensures key !in store ==> r == Some(default)
    ensures key in store ==> r == ParseBool(store[key])
  {
    if key in store then ParseBool(store[key]) else Some(default)
  }

  /** The initial load: a non-empty stored language replaces `en`; only a stored `dark`
      turns dark mode on; a stored flag replaces its default; a non-empty stored contact list
      replaces the empty one. `None` when a stored flag or list is not one of the JSON texts
      read here. */
  function Load(store: Store): (r: Option<Prefs>)
    ensures r.Some? ==> (r.value.dark <==> ThemeKey in store && store[ThemeKey] == "dark")
    ensures r.Some? && (LangKey !in store || store[LangKey] == "") ==> r.value.language == "en"
    ensures r.Some? && LangKey in store && store[LangKey] != "" ==> r.value.language == store[LangKey]
    ensures r.Some? && NotifKey !in store ==> r.value.notifications
    ensures r.Some? && SatKey !in store ==> !r.value.satellite
    ensures r.Some? && (ContactsKey !in store || store[ContactsKey] == "") ==> r.value.contacts == []
    ensures r.Some? && NotifKey in store ==> ParseBool(store[NotifKey]) == Some(r.value.notifications)
    ensures r.Some? && SatKey in store ==> ParseBool(store[SatKey]) == Some(r.value.satellite)
    ensures r.Some? && ContactsKey in store && store[ContactsKey] != "" ==>
              ParseStrings(store[ContactsKey]) == Some(r.value.contacts)
    ensures r.None? <==> || (NotifKey in store && ParseBool(store[NotifKey]).None?)
                         || (SatKey in store && ParseBool(store[SatKey]).None?)
                         || (&& ContactsKey in store && store[ContactsKey] != ""
                             && ParseStrings(store[ContactsKey]).None?)
    ensures (&& LangKey !in store && ThemeKey !in store && NotifKey !in store
             && SatKey !in store && ContactsKey !in store) ==> r == Some(Defaults)
  {
    var language := if LangKey in store && store[LangKey] != "" then store[LangKey] else "en";
    var dark := ThemeKey in store && store[ThemeKey] == "dark";
    var notif := LoadFlag(store, NotifKey, true);
    var sat := LoadFlag(store, SatKey, false);
    var contacts := if ContactsKey in store && store[ContactsKey] != "" then ParseStrings(store[ContactsKey]) else Some([]);
    if notif.None? || sat.None? || contacts.None? then None
    else Some(Prefs(language, dark, notif.value, sat.value, contacts.value))
  }

  /** `toggleLanguage`: `en` becomes `bn`, anything else becomes `en`; the new value is
      stored. */
  function ToggleLanguage(a: App): (r: App)
    ensures r.prefs == a.prefs.(language := r.prefs.language)
    ensures a.prefs.language == "en" <==> r.prefs.language == "bn"
    ensures r.prefs.language == "en" || r.prefs.language == "bn"
    ensures r.store == a.store[LangKey := r.prefs.language]
  {
    var lang := if a.prefs.language == "en" then "bn" else "en";
    App(a.prefs.(language := lang), a.store[LangKey := lang])
  }

  /** `toggleDarkMode`: flips the theme and stores `dark` or `light`. */
  function ToggleDarkMode(a: App): (r: App)
    ensures r.prefs == a.prefs.(dark := !a.prefs.dark)
    ensures r.store == a.store[ThemeKey := if r.prefs.dark then "dark" else "light"]
  {
    var dark := !a.prefs.dark;
    App(a.prefs.(dark := dark), a.store[ThemeKey := if dark then "dark" else "light"])
  }

  /** `toggleNotifications`: flips the flag and stores its JSON text. */
  function ToggleNotifications(a: App): (r: App)
    ensures r.prefs == a.prefs.(notifications := !a.prefs.notifications)
    ensures NotifKey in r.store && ParseBool(r.store[NotifKey]) == Some(r.prefs.notifications)
    ensures forall k :: k != NotifKey ==> (k in r.store <==> k in a.store)
    ensures forall k :: k != NotifKey && k in a.store ==> r.store[k] == a.store[k]
  {
    var v := !a.prefs.notifications;
    BoolRoundTrip(v);
    App(a.prefs.(notifications := v), a.store[NotifKey := BoolText(v)])
  }

  /** `toggleSatellite`: flips the flag and stores its JSON text. */
  function ToggleSatellite(a: App): (r: App)
    ensures r.prefs == a.prefs.(satellite := !a.prefs.satellite)
    ensures SatKey in r.store && ParseBool(r.store[SatKey]) == Some(r.prefs.satellite)
    ensures forall k :: k != SatKey ==> (k in r.store <==> k in a.store)
    ensures forall k :: k != SatKey && k in a.store ==> r.store[k] == a.store[k]
  {
    var v := !a.prefs.satellite;
    BoolRoundTrip(v);
    App(a.prefs.(satellite := v), a.store[SatKey := BoolText(v)])
  }

  /** `filter((_, i) => i !== index)`: every element except the one at `index`. */
  function ExceptIndex<T>(xs: seq<T>, index: int): (r: seq<T>)
    ensures 0 <= index < |xs| ==> r == xs[..index] + xs[index + 1..]
    ensures !(0 <= index < |xs|) ==> r == xs
    decreases |xs|
  {
    if xs == [] then []
    else
      var tail := ExceptIndex(xs[1..], index - 1);
      if index == 0 then
        assert xs[1..] == xs[..0] + xs[1..];
        tail
      else
        assert index > 0 && index < |xs| ==> [xs[0]] + xs[1..][..index - 1] == xs[..index];
        assert [xs[0]] + xs[1..] == xs;
        [xs[0]] + tail
  }

  /** `addEmergencyContact`: appends the contact (duplicates allowed) and stores the list. */
  function AddContact(a: App, contact: string): (r: App)
    ensures |r.prefs.contacts| == |a.prefs.contacts| + 1
    ensures r.prefs.contacts[..|a.prefs.contacts|] == a.prefs.contacts
    ensures r.prefs.contacts[|a.prefs.contacts|] == contact
    ensures r.prefs == a.prefs.(contacts := r.prefs.contacts)
    ensures ContactsKey in r.store && ParseStrings(r.store[ContactsKey]) == Some(r.prefs.contacts)
  {
    var cs := a.prefs.contacts + [contact];
    StringifyRoundTrip(cs);
    App(a.prefs.(contacts := cs), a.store[ContactsKey := Stringify(cs)])
  }

  /** `removeEmergencyContact`: removes exactly the contact at `index` (nothing when it is out
      of range) and stores the list. */
  function RemoveContact(a: App, index: int): (r: App)
    ensures 0 <= index < |a.prefs.contacts| ==>
              r.prefs.contacts == a.prefs.contacts[..index] + a.prefs.contacts[index + 1..]
    ensures !(0 <= index < |a.prefs.contacts|) ==> r.prefs.contacts == a.prefs.contacts
    ensures r.prefs == a.prefs.(contacts := r.prefs.contacts)
    ensures ContactsKey in r.store && ParseStrings(r.store[ContactsKey]) == Some(r.prefs.contacts)
  {
    var cs := ExceptIndex(a.prefs.contacts, index);
    StringifyRoundTrip(cs);
    App(a.prefs.(contacts := cs), a.store[ContactsKey := Stringify(cs)])
  }

  /** The store agrees with memory: loading it gives back the preferences in memory. */
  predicate Persisted(a: App) {
    Load(a.store) == Some(a.prefs)
  }

  /** The language toggle keeps memory and storage in agreement. */
  lemma ToggleLanguagePersisted(a: App)
    requires Persisted(a)
    ensures Persisted(ToggleLanguage(a))
  {
  }

  /** The theme toggle keeps memory and storage in agreement. */
  lemma ToggleDarkModePersisted(a: App)
    requires Persisted(a)
    ensures Persisted(ToggleDarkMode(a))
  {
  }

  /** The notification toggle keeps memory and storage in agreement. */
  lemma ToggleNotificationsPersisted(a: App)
    requires Persisted(a)
    ensures Persisted(ToggleNotifications(a))
  {
    BoolRoundTrip(!a.prefs.notifications);
  }

  /** The satellite toggle keeps memory and storage in agreement. */
  lemma ToggleSatellitePersisted(a: App)
    requires Persisted(a)
    ensures Persisted(ToggleSatellite(a))
  {
    BoolRoundTrip(!a.prefs.satellite);
  }

  /** Adding a contact keeps memory and storage in agreement. */
  lemma AddContactPersisted(a: App, contact: string)
    requires Persisted(a)
    ensures Persisted(AddContact(a, contact))
  {
    var cs := a.prefs.contacts + [contact];
    StringifyRoundTrip(cs);
    StoreContacts(a.store, a.prefs, Stringify(cs), cs);
  }

  /** Removing a contact keeps memory and storage in agreement. */
  lemma RemoveContactPersisted(a: App, index: int)
    requires Persisted(a)
    ensures Persisted(RemoveContact(a, index))
  {
    var cs := ExceptIndex(a.prefs.contacts, index);
    StringifyRoundTrip(cs);
    StoreContacts(a.store, a.prefs, Stringify(cs), cs);
  }

  /** Storing a contact list's text changes the loaded contacts and nothing else. */
  lemma StoreContacts(store: Store, prefs: Prefs, text: string, cs: seq<string>)
    requires Load(store) == Some(prefs)
    requires text != "" && ParseStrings(text) == Some(cs)
    ensures Load(store[ContactsKey := text]) == Some(prefs.(contacts := cs))
  {
    ContactsKeyDistinct();
  }

  /** The contact list's key is none of the other keys. */
  lemma ContactsKeyDistinct()
    ensures ContactsKey != LangKey && ContactsKey != ThemeKey
    ensures ContactsKey != NotifKey && ContactsKey != SatKey
  {
    assert ContactsKey[4] == 'c';
    assert LangKey[4] == 'l' && ThemeKey[4] == 't' && NotifKey[4] == 'n' && SatKey[4] == 's';
  }

  /** Toggling the language twice restores `en` and `bn`; any other stored language ends at
      `bn`. */
  lemma ToggleLanguageTwice(a: App)
    ensures a.prefs.language == "en" || a.prefs.language == "bn" ==>
              ToggleLanguage(ToggleLanguage(a)).prefs.language == a.prefs.language
    ensures a.prefs.language != "en" ==> ToggleLanguage(ToggleLanguage(a)).prefs.language == "bn"
  {
  }

  /** Removing the contact just appended gives back the previous list. */
  lemma AddThenRemoveLast(a: App, contact: string)
    ensures RemoveContact(AddContact(a, contact), |a.prefs.contacts|).prefs == a.prefs
  {
    var b := AddContact(a, contact);
    assert b.prefs.contacts[..|a.prefs.contacts|] == a.prefs.contacts;
  }
}

=== FILE: relay.dfy ===
/** The incident relay endpoint (`POST /api/send-incident`): it turns one incident report into
    a Telegram alert and fans it out to the primary channel and the reporter's emergency
    contacts. Each HTTP call to Telegram is modelled by its outcome, supplied by a function
    argument; `Promise.all` is an order-preserving map over the recipients. */
module IncidentRelay {
  import opened Options
  import opened Seqs
  import opened JsText
  import opened JsNumber

  /** The two server credentials; an unset variable is the empty string. */
  datatype Credentials = Credentials(token: string, chatId: string)

  /** `emergencyContacts` in the request body: absent (defaulted to `[]`), a value that is not
      an array (its `filter` throws), or a list of contact strings (`""` for a falsy one). */
  datatype ContactsField = Absent | NotList | Items(items: seq<string>)

  /** The fields of the request body. `lat`, `lng` and `description` are the text their
      template-literal rendering produces; `reporter`, `videoLink` and `imageUrl` are `""` when
      falsy. */
  datatype Report = Report(
    lat: string, lng: string, description: string, reporter: string,
    videoLink: string, imageUrl: string, contacts: ContactsField)

  /** The body as `request.json()` delivers it: malformed JSON throws. */
  datatype Body = Unparseable | Parsed(report: Report)

  /** One Telegram Bot API call; every shape carries `parse_mode: 'Markdown'`, and the text
      message also `disable_web_page_preview: false`. */
  datatype Payload =
    | Video(chatId: string, video: string, caption: string)
    | Photo(chatId: string, photo: string, caption: string)
    | Message(chatId: string, text: string)

  const ParseMode: string := "Markdown"

  /** What a call came back with: an OK response, a non-OK response with its JSON body, or
      a thrown error (network failure or an unreadable response body) with its message. */
  datatype Delivery = Ok | NotOk(data: string) | Threw(message: string)

  datatype Status = Sent | Failed(data: string) | Errored(message: string)

  datatype Outcome = Outcome(chatId: string, status: Status)

  datatype FailureKind = Misconfigured | Exception

  /** The JSON the endpoint answers with: `{ success: true, results }`, or
      `{ success: false, error }` with HTTP status 500. */
  datatype Response =
    | Delivered(results: seq<Outcome>)
    | Failure(httpStatus: int, kind: FailureKind)

  const Banner: string := "\U{1F6A8} *NCP ALERT!* \U{1F6A8}\n\nIncident reported.\nView on Maps: "
  const MapsPrefix: string := "https://www.google.com/maps/search/?api=1&query="
  const VideoLine: string := "\n\nVideo/Post Link: "
  const Anonymous: string := "Anonymous"

  function MapLink(lat: string, lng: string): (r: string)
    ensures StartsWith(r, MapsPrefix) && EndsWith(r, "," + lng)
  {
    MapsPrefix + lat + "," + lng
  }

  /** `reporter_info || 'Anonymous'`. */
  function ReporterOr(reporter: string): (r: string)
    ensures r != ""
    ensures reporter != "" ==> r == reporter
  {
    if reporter == "" then Anonymous else reporter
  }

  /** The caption without the optional video line. */
  function BaseCaption(rep: Report): string {
    Banner + MapLink(rep.lat, rep.lng) + "\n\nDescription: " + rep.description
    + "\nReporter: " + ReporterOr(rep.reporter)
  }

  /** The alert caption: the video line is appended exactly when a video link was given. */
  function Caption(rep: Report): (r: string)
    ensures StartsWith(r, BaseCaption(rep))
    ensures rep.videoLink == "" <==> r == BaseCaption(rep)
    ensures rep.videoLink != "" <==> r == BaseCaption(rep) + VideoLine + rep.videoLink
  {
    var base := BaseCaption(rep);
    if rep.videoLink == "" then base
    else
      var r := base + VideoLine + rep.videoLink;
      assert r[..|base|] == base;
      r
  }

  /** A concatenation starts with its left part and ends with its right part. */
  lemma ConcatParts(a: string, b: string)
    ensures StartsWith(a + b, a) && EndsWith(a + b, b)
  {
    assert (a + b)[..|a|] == a;
    assert (a + b)[|a|..] == b;
  }

  /** The caption opens with the banner and the Maps link for `lat,lng`, then the description,
      and its base part ends with the reporter (or `Anonymous`). */
  lemma CaptionLayout(rep: Report)
    ensures StartsWith(Caption(rep), Banner + MapsPrefix + rep.lat + "," + rep.lng + "\n\nDescription: "
                                     + rep.description + "\nReporter: ")
    ensures EndsWith(BaseCaption(rep), "\nReporter: " + ReporterOr(rep.reporter))
  {
    var who := ReporterOr(rep.reporter);
    var head := Banner + MapsPrefix + rep.lat + "," + rep.lng + "\n\nDescription: "
                + rep.description + "\nReporter: ";
    var front := Banner + MapLink(rep.lat, rep.lng) + "\n\nDescription: " + rep.description;
    var tail := "\nReporter: " + who;
    BaseSplits(rep, head, front);
    ConcatParts(head, who);
    ConcatParts(front, tail);
    StartsWithTrans(Caption(rep), BaseCaption(rep), head);
  }

  /** The base caption read two ways: the head up to the reporter, then the reporter; or
      everything up to the reporter line, then that line. */
  lemma BaseSplits(rep: Report, head: string, front: string)
    requires head == Banner + MapsPrefix + rep.lat + "," + rep.lng + "\n\nDescription: "
                     + rep.description + "\nReporter: "
    requires front == Banner + MapLink(rep.lat, rep.lng) + "\n\nDescription: " + rep.description
    ensures BaseCaption(rep) == head + ReporterOr(rep.reporter)
    ensures BaseCaption(rep) == front + ("\nReporter: " + ReporterOr(rep.reporter))
  {
    Regroup(Banner, MapsPrefix, rep.lat, ",", rep.lng, "\n\nDescription: ", rep.description,
            "\nReporter: ", ReporterOr(rep.reporter));
  }

  /** Regrouping the nine parts of a caption. */
  lemma Regroup(a: string, b: string, c: string, d: string, e: string, f: string, g: string, h: string, i: string)
    ensures a + (b + c + d + e) + f + g + h + i == (a + b + c + d + e + f + g + h) + i
    ensures a + (b + c + d + e) + f + g + h + i == (a + (b + c + d + e) + f + g) + (h + i)
  {
    assert a + (b + c + d + e) == a + b + c + d + e;
  }

  /** The contact filter: truthy, and either a channel handle or numeric under `isNaN`'s
      coercion. */
  predicate ValidContact(c: string) {
    c != "" && (StartsWith(c, "@") || IsNumeric(c))
  }

  /** The primary channel, then the valid contacts, de-duplicated keeping first occurrences. */
  function Recipients(primary: string, contacts: seq<string>): (r: seq<string>)
    ensures |r| > 0 && r[0] == primary
    ensures NoDuplicates(r)
    ensures forall c :: c in r <==> c == primary || (c in contacts && ValidContact(c))
  {
    var all := [primary] + Filter(ValidContact, contacts);
    var r := Dedupe(all);
    assert forall c :: c in r ==> c in all by {
      forall c | c in r ensures c in all {
        var i :| 0 <= i < |r| && r[i] == c;
      }
    }
    assert forall c :: c in all ==> c in r by {
      forall c | c in all ensures c in r {
        var i :| 0 <= i < |all| && all[i] == c;
      }
    }
    r
  }

  /** The contacts after the primary channel keep the order in which they first occur. */
  lemma RecipientsOrder(primary: string, contacts: seq<string>)
    ensures var r := Recipients(primary, contacts);
            forall i, j :: 1 <= i < j < |r| ==>
              r[i] in contacts && r[j] in contacts && FirstIndex(contacts, r[i]) < FirstIndex(contacts, r[j])
  {
    var f := Filter(ValidContact, contacts);
    var all := [primary] + f;
    var r := Recipients(primary, contacts);
    assert r == Dedupe(all);
    DedupeOrder(all);
    forall i, j | 1 <= i < j < |r|
      ensures r[i] in contacts && r[j] in contacts && FirstIndex(contacts, r[i]) < FirstIndex(contacts, r[j])
    {
      assert r[0] == primary;
      assert r[i] != primary && r[j] != primary;
      assert r[i] in f && r[j] in f;
      FirstIndexCons(primary, f, r[i]);
      FirstIndexCons(primary, f, r[j]);
      FilterKeepsOrder(ValidContact, contacts, r[i], r[j]);
    }
  }

  /** The call made for one recipient: a video when the media URL has a video extension,
      a photo for any other media URL, a text message when there is none; the caption is the
      same in every case. */
  function PayloadFor(chatId: string, caption: string, imageUrl: string): (r: Payload)
    ensures r.chatId == chatId
    ensures r.Video? <==> imageUrl != "" && IsVideoFileUrl(imageUrl)
    ensures r.Photo? <==> imageUrl != "" && !IsVideoFileUrl(imageUrl)
    ensures r.Message? <==> imageUrl == ""
    ensures r.Message? ==> r.text == caption
    ensures !r.Message? ==> r.caption == caption
    ensures r.Video? ==> r.video == imageUrl
    ensures r.Photo? ==> r.photo == imageUrl
  {
    if imageUrl == "" then Message(chatId, caption)
    else if IsVideoFileUrl(imageUrl) then Video(chatId, imageUrl, caption)
    else Photo(chatId, imageUrl, caption)
  }

  /** The Bot API method a payload is posted to. */
  function Method(p: Payload): string {
    match p
    case Video(_, _, _) => "sendVideo"
    case Photo(_, _, _) => "sendPhoto"
    case Message(_, _) => "sendMessage"
  }

  function TelegramUrl(token: string, p: Payload): (r: string)
    ensures StartsWith(r, "https://api.telegram.org/bot" + token + "/")
    ensures EndsWith(r, "/" + Method(p))
  {
    var head := "https://api.telegram.org/bot" + token + "/";
    var r := head + Method(p);
    assert r[..|head|] == head;
    assert r[|r| - |"/" + Method(p)|..] == "/" + Method(p);
    r
  }

  /** A recipient's status from its own call's outcome. */
  function StatusOf(d: Delivery): (r: Status)
    ensures r.Sent? <==> d.Ok?
    ensures r.Failed? <==> d.NotOk?
    ensures r.Errored? <==> d.Threw?
    ensures d.NotOk? ==> r == Failed(d.data)
    ensures d.Threw? ==> r == Errored(d.message)
  {
    match d
    case Ok => Sent
    case NotOk(data) => Failed(data)
    case Threw(msg) => Errored(msg)
  }

  /** `Promise.all` over the recipients: one outcome per recipient, in recipient order, each
      decided by that recipient's own call only. */
  function FanOut(token: string, caption: string, imageUrl: string, recipients: seq<string>,
                  deliver: (string, Payload) -> Delivery): (r: seq<Outcome>)
    ensures |r| == |recipients|
    ensures forall i :: 0 <= i < |r| ==>
              r[i].chatId == recipients[i]
              && r[i].status == StatusOf(deliver(TelegramUrl(token, PayloadFor(recipients[i], caption, imageUrl)),
                                                 PayloadFor(recipients[i], caption, imageUrl)))
  {
    seq(|recipients|, i requires 0 <= i < |recipients| =>
      var p := PayloadFor(recipients[i], caption, imageUrl);
      Outcome(recipients[i], StatusOf(deliver(TelegramUrl(token, p), p))))
  }

  /** The contact list after the destructuring default: absent means empty. */
  function ContactList(f: ContactsField): Option<seq<string>> {
    match f
    case Absent => Some([])
    case NotList => None
    case Items(cs) => Some(cs)
  }

  /** The whole handler. Parsing comes first, then the credential check, then the contact
      filter (which throws on a non-list); once the fan-out starts the answer is success,
      whatever the individual calls returned. */
  function Relay(creds: Credentials, body: Body, deliver: (string, Payload) -> Delivery): (r: Response)
    ensures body.Unparseable? ==> r == Failure(500, Exception)
    ensures body.Parsed? && (creds.token == "" || creds.chatId == "") ==> r == Failure(500, Misconfigured)
    ensures body.Parsed? && creds.token != "" && creds.chatId != "" && body.report.contacts.NotList?
            ==> r == Failure(500, Exception)
    ensures r.Delivered? <==>
              body.Parsed? && creds.token != "" && creds.chatId != "" && !body.report.contacts.NotList?
    ensures r.Failure? ==> r.httpStatus == 500
    ensures r.Delivered? ==>
              var cs := ContactList(body.report.contacts).value;
              var rs := Recipients(creds.chatId, cs);
              |r.results| == |rs| && r.results[0].chatId == creds.chatId
              && forall i :: 0 <= i < |rs| ==> r.results[i].chatId == rs[i]
  {
    match body
    case Unparseable => Failure(500, Exception)
    case Parsed(rep) =>
      if creds.token == "" || creds.chatId == "" then Failure(500, Misconfigured)
      else
        match ContactList(rep.contacts)
        case None => Failure(500, Exception)
        case Some(cs) =>
          var rs := Recipients(creds.chatId, cs);
          Delivered(FanOut(creds.token, Caption(rep), rep.imageUrl, rs, deliver))
  }

  /** A missing credential or an unreadable body contacts nobody: the answer does not depend
      on what any Telegram call would have returned. */
  lemma NoContactOnRejection(creds: Credentials, body: Body, d1: (string, Payload) -> Delivery,
                             d2: (string, Payload) -> Delivery)
    requires body.Unparseable? || creds.token == "" || creds.chatId == ""
    ensures Relay(creds, body, d1) == Relay(creds, body, d2)
    ensures Relay(creds, body, d1).Failure?
  {
  }

  /** Once the request is accepted the answer is success even if every call failed, and each
      outcome is the status of that recipient's own call. */
  lemma SuccessWhateverOutcomes(creds: Credentials, rep: Report, deliver: (string, Payload) -> Delivery)
    requires creds.token != "" && creds.chatId != "" && !rep.contacts.NotList?
    ensures var r := Relay(creds, Parsed(rep), deliver);
            var rs := Recipients(creds.chatId, ContactList(rep.contacts).value);
            && r.Delivered?
            && forall i :: 0 <= i < |rs| ==>
                 var p := PayloadFor(rs[i], Caption(rep), rep.imageUrl);
                 r.results[i] == Outcome(rs[i], StatusOf(deliver(TelegramUrl(creds.token, p), p)))
  {
  }

  /** The primary channel is contacted first and exactly once, even if a contact repeats it. */
  lemma {:induction false} PrimaryFirstAndOnce(primary: string, contacts: seq<string>)
    ensures Recipients(primary, contacts)[0] == primary
    ensures Count(Recipients(primary, contacts), primary) == 1
  {
    HeadOnce(primary, Filter(ValidContact, contacts));
  }

  /** Without repeated or invalid contacts, the recipients are the primary channel followed by
      the contacts exactly as given. */
  lemma {:induction false} RecipientsOfCleanList(primary: string, contacts: seq<string>)
    requires forall i :: 0 <= i < |contacts| ==> ValidContact(contacts[i])
    requires NoDuplicates([primary] + contacts)
    ensures Recipients(primary, contacts) == [primary] + contacts
  {
    FilterAll(ValidContact, contacts);
    DedupeDistinct([primary] + contacts);
  }

  /** Which contacts survive: channel handles and numeric ids stay; empty strings, names and
      numbers with trailing text go. */
  lemma ContactFilterExamples()
    ensures ValidContact("@fire_dept")
    ensures ValidContact("123456789")
    ensures ValidContact("-1001234")
    ensures !ValidContact("")
    ensures !ValidContact("Alice")
    ensures !ValidContact("12a")
    ensures !ValidContact("123abc")
  {
    HandleKept();
    ChatIdsKept();
    NameDropped();
    TrailingTextDropped();
  }

  /** A plain name is neither a handle nor numeric. */
  lemma NameDropped()
    ensures !ValidContact("Alice")
  {
    assert "Alice"[..1][0] == 'A';
    NotNumericStart("Alice");
  }

  /** A channel handle is kept for its `@`. */
  lemma HandleKept()
    ensures ValidContact("@fire_dept")
  {
    assert "@fire_dept"[..1] == "@";
  }

  /** User and group chat ids are kept as numeric text. */
  lemma ChatIdsKept()
    ensures ValidContact("123456789") && ValidContact("-1001234")
  {
    UserIdKept();
    GroupIdKept();
  }

  /** A user's chat id is all digits. */
  lemma UserIdKept()
    ensures ValidContact("123456789")
  {
    var s := "123456789";
    assert IsDigits(s) by {
      assert forall i :: 0 <= i < |s| ==> IsDigit(s[i]);
    }
    DigitsAreNumeric(s);
  }

  /** A group's chat id is a minus sign and digits. */
  lemma GroupIdKept()
    ensures ValidContact("-1001234")
  {
    var s := "-1001234";
    var t := s[1..];
    assert t == "1001234";
    assert IsDigits(t) by {
      assert forall i :: 0 <= i < |t| ==> IsDigit(t[i]);
    }
    DigitsAreNumeric(s);
  }

  /** A number followed by letters is dropped. */
  lemma TrailingTextDropped()
    ensures !ValidContact("12a") && !ValidContact("123abc")
  {
    TrailingLetterIsNotNumeric();
  }
}

=== FILE: report_submission.dfy ===
/** The incident report form: the platform badge of a pasted video link, the submit guard,
    the record written to the `reports` table, the body sent to the relay endpoint, and the
    form state after a submit attempt. */
module ReportSubmission {
  import opened Options
  import opened JsText
  import opened LinkScan
  import opened Uploads
  import opened MapMarkers
  import IncidentRelay

  /** The badge shown under the video-link field. */
  datatype Platform = NoPlatform | FacebookVideo | YouTubeVideo

  /** Facebook hosts are checked before YouTube ones. */
  function PlatformOf(link: string): (r: Platform)
    ensures r == FacebookVideo <==> IsFacebookLink(link)
    ensures r == YouTubeVideo <==> !IsFacebookLink(link) && IsYouTubeLink(link)
    ensures r == NoPlatform <==> !KnownHost(link)
  {
    if Includes(link, "facebook.com") || Includes(link, "fb.watch") then FacebookVideo
    else if Includes(link, "youtube.com") || Includes(link, "youtu.be") then YouTubeVideo
    else NoPlatform
  }

  /** The badge and the map popup agree on a link that names hosts of only one family: a
      Facebook badge means a Facebook embed, and a YouTube embed means a YouTube badge. A link
      naming both families gets the Facebook badge, while the popup treats it as YouTube. */
  lemma PlatformAgreesWithEmbed(link: string)
    requires link != ""
    ensures !(IsFacebookLink(link) && IsYouTubeLink(link)) ==>
              (PlatformOf(link) == FacebookVideo <==> EmbedOf(link, "").Facebook?)
    ensures EmbedOf(link, "").YouTube? ==> IsYouTubeLink(link)
    ensures !IsFacebookLink(link) && EmbedOf(link, "").YouTube? ==> PlatformOf(link) == YouTubeVideo
    ensures IsFacebookLink(link) && IsYouTubeLink(link) ==>
              PlatformOf(link) == FacebookVideo && !EmbedOf(link, "").Facebook?
  {
  }

  /** The form's fields and flags. `file` is the chosen file's name. */
  datatype Form = Form(
    description: string,
    file: Option<string>,
    reporter: string,
    videoLink: string,
    submitting: bool,
    status: FormStatus)

  datatype FormStatus = NoStatus | Success | Error

  /** The submit button is disabled while submitting or without a location. */
  predicate SubmitDisabled(f: Form, location: Option<Pos>) {
    f.submitting || location.None?
  }

  const VideoSeparator: string := "\n\nVideo: "

  /** The stored description: the video link goes after the text, since the table has no
      column for it. */
  function DbDescription(description: string, videoLink: string): (r: string)
    ensures videoLink == "" ==> r == description
    ensures videoLink != "" ==> StartsWith(r, description) && EndsWith(r, VideoSeparator + videoLink)
  {
    if videoLink != "" then
      var r := description + VideoSeparator + videoLink;
      assert r[..|description|] == description;
      assert r[|r| - |VideoSeparator + videoLink|..] == VideoSeparator + videoLink;
      r
    else description
  }

  /** The row written to `reports`. */
  datatype DbRecord = DbRecord(
    location: Pos,
    description: string,
    imageUrl: string,
    reporterInfo: string,
    status: string)

  function DbRecordOf(location: Pos, f: Form, imageUrl: string): (r: DbRecord)
    ensures r.reporterInfo != "" && (f.reporter != "" ==> r.reporterInfo == f.reporter)
    ensures r.status == "open" && r.location == location && r.imageUrl == imageUrl
    ensures r.description == DbDescription(f.description, f.videoLink)
  {
    DbRecord(location, DbDescription(f.description, f.videoLink), imageUrl,
             if f.reporter != "" then f.reporter else "Anonymous", "open")
  }

  /** The relay body: the row's fields with the description as typed, plus the video link and
      the emergency contacts. The coordinates reach the relay as their number-to-text
      rendering, which is the parameter `numText`. */
  function RelayBody(rec: DbRecord, f: Form, contacts: seq<string>, numText: real -> string): (r: IncidentRelay.Report)
    ensures r.description == f.description && r.videoLink == f.videoLink
    ensures r.reporter == rec.reporterInfo && r.imageUrl == rec.imageUrl
    ensures r.contacts == IncidentRelay.Items(contacts)
    ensures r.lat == numText(rec.location.lat) && r.lng == numText(rec.location.lng)
  {
    IncidentRelay.Report(numText(rec.location.lat), numText(rec.location.lng), f.description,
                         rec.reporterInfo, f.videoLink, rec.imageUrl, IncidentRelay.Items(contacts))
  }

  /** How the relay call ended; the form ignores it. */
  datatype RelayCall = RelayOk | RelayNotOk | RelayThrew

  /** The services a submit meets: the public URL of the uploaded file (`None` when the upload
      reports an error), whether the insert succeeds, how the relay call ends, and the stamp
      of the upload name. */
  datatype Services = Services(upload: Option<string>, insertOk: bool, relay: RelayCall, stamp: string)

  /** What a submit attempt did: whether it only alerted for a missing location, the upload
      name, the row handed to the insert, the body handed to the relay, and the form
      afterwards. */
  datatype Attempt = Attempt(
    noLocationAlert: bool,
    uploadName: Option<string>,
    record: Option<DbRecord>,
    relayBody: Option<IncidentRelay.Report>,
    after: Form)

  /** `handleSubmit`. */
  function Submit(f: Form, location: Option<Pos>, contacts: seq<string>, numText: real -> string,
                  sv: Services): (r: Attempt)
    ensures location.None? ==> r == Attempt(true, None, None, None, f)
    ensures location.Some? ==> !r.after.submitting && !r.noLocationAlert
    ensures r.record.Some? <==> location.Some? && (f.file.None? || sv.upload.Some?)
    ensures r.relayBody.Some? <==> r.record.Some? && sv.insertOk
    ensures r.relayBody.Some? ==> r.relayBody.value == RelayBody(r.record.value, f, contacts, numText)
    ensures location.Some? ==> (r.after.status == Success <==> r.relayBody.Some?)
    ensures location.Some? ==> (r.after.status == Error <==> r.relayBody.None?)
    ensures location.Some? && r.after.status == Success ==>
              r.after == Form("", None, "", f.videoLink, false, Success)
    ensures location.Some? && r.after.status == Error ==>
              r.after == f.(submitting := false, status := Error)
  {
    if location.None? then Attempt(true, None, None, None, f)
    else
      var failed := Attempt(false, None, None, None, f.(submitting := false, status := Error));
      var name := if f.file.Some? then Some(UploadName(sv.stamp, f.file.value)) else None;
      if f.file.Some? && sv.upload.None? then failed.(uploadName := name)
      else
        var url := if f.file.Some? then sv.upload.value else "";
        var rec := DbRecordOf(location.value, f, url);
        if !sv.insertOk then failed.(uploadName := name, record := Some(rec))
        else
          var body := RelayBody(rec, f, contacts, numText);
          var after := f.(description := "", file := None, reporter := "", submitting := false, status := Success);
          Attempt(false, name, Some(rec), Some(body), after)
  }

  /** The relay's outcome never changes what the form does: once the row is stored the report
      is a success however the notification ends. */
  lemma RelayOutcomeIgnored(f: Form, location: Option<Pos>, contacts: seq<string>, numText: real -> string,
                            sv: Services, other: RelayCall)
    ensures Submit(f, location, contacts, numText, sv) == Submit(f, location, contacts, numText, sv.(relay := other))
  {
  }

  /** The relay body and the stored row tell the same story: the relay gets the text as typed
      and the link separately, and the row's description is that text with the link appended;
      the relay's caption names the same reporter as the row. */
  lemma RelayBodyMatchesRow(f: Form, location: Option<Pos>, contacts: seq<string>, numText: real -> string,
                            sv: Services)
    requires Submit(f, location, contacts, numText, sv).relayBody.Some?
    ensures var a := Submit(f, location, contacts, numText, sv);
            var body := a.relayBody.value;
            && a.record.value.description == DbDescription(body.description, body.videoLink)
            && IncidentRelay.ReporterOr(body.reporter) == a.record.value.reporterInfo
            && body.contacts == IncidentRelay.Items(contacts)
  {
  }

  /** A video link appended to the stored description is the one the map popup finds again,
      when it is a single URL token naming a known host and the typed text holds no earlier
      URL naming one. */
  lemma MapFindsAppendedLink(description: string, link: string)
    requires IsUrlToken(link) && KnownHost(link)
    requires FirstKnown(Matches(description)).None?
    ensures VideoLinkOf("", DbDescription(description, link)) == link
  {
    var s := description + VideoSeparator + link;
    assert |link| > 0;
    assert DbDescription(description, link) == s;
    AppendedLinkMatches(description, link);
    FirstKnownAfterUnknown(Matches(description), link);
  }

  /** The matches of the stored description: those of the typed text, then the link. */
  lemma AppendedLinkMatches(description: string, link: string)
    requires IsUrlToken(link)
    ensures Matches(description + VideoSeparator + link) == Matches(description) + [link]
  {
    var sep := VideoSeparator;
    var s := description + sep + link;
    var a := |description|;
    assert s == description + (sep + link);
    assert IsSpace((sep + link)[0]);
    MatchesSplit(description, sep + link, 0);
    SeparatorSkipped(description, link);
    assert (description + sep) + link == s;
    TrailingToken(description + sep, link);
  }

  /** No match starts inside the separator, which has no `h`. */
  lemma SeparatorSkipped(description: string, link: string)
    ensures var s := description + VideoSeparator + link;
            MatchesFrom(s, |description|) == MatchesFrom(s, |description| + |VideoSeparator|)
  {
    var sep := VideoSeparator;
    var s := description + sep + link;
    var a := |description|;
    SeparatorHasNoH();
    forall k | a <= k < a + |sep| ensures !UrlStartsAt(s, k) {
      assert s[k] == sep[k - a];
      NoStartWithoutH(s, k);
    }
    MatchesSkip(s, a, a + |sep|);
  }

  lemma SeparatorHasNoH()
    ensures forall j :: 0 <= j < |VideoSeparator| ==> VideoSeparator[j] != 'h'
  {
    assert VideoSeparator == ['\n', '\n', 'V', 'i', 'd', 'e', 'o', ':', ' '];
  }
}

=== FILE: scroll_hide.dfy ===
/** The header that hides while scrolling down a panel and comes back while scrolling up.
    The settings panel and the incident history share the rule: nothing happens until the
    scroll position has moved more than 20 pixels from the last reference point; then the
    header hides iff the move was downwards and the position is past 50 pixels, and the
    position becomes the new reference point. */
module ScrollHide {

  datatype Header = Header(hidden: bool, lastY: real)

  const Threshold: real := 20.0
  const Floor: real := 50.0

  /** Shown, with the reference point at the top. */
  const InitialHeader: Header := Header(false, 0.0)

  function Abs(x: real): real { if x < 0.0 then -x else x }

  /** One scroll event at position `latest`. */
  function OnScroll(h: Header, latest: real): (r: Header)
    ensures Abs(latest - h.lastY) <= Threshold ==> r == h
    ensures Abs(latest - h.lastY) > Threshold ==> r.lastY == latest
    ensures Abs(latest - r.lastY) <= Threshold
    ensures r.hidden != h.hidden ==> r.lastY == latest
  {
    var diff := latest - h.lastY;
    if Abs(diff) > Threshold then Header(diff > 0.0 && latest > Floor, latest) else h
  }

  /** A sequence of scroll events. */
  function Scroll(h: Header, ys: seq<real>): Header
    decreases |ys|
  {
    if ys == [] then h else Scroll(OnScroll(h, ys[0]), ys[1..])
  }

  /** The header is only ever hidden with the reference point past the floor. */
  predicate HiddenPastFloor(h: Header) {
    h.hidden ==> h.lastY > Floor
  }

  /** Every run of scroll events from the initial state keeps the header shown near the top:
      hidden implies the last reference point is past 50. */
  lemma {:induction false} ScrollKeepsHiddenPastFloor(h: Header, ys: seq<real>)
    requires HiddenPastFloor(h)
    ensures HiddenPastFloor(Scroll(h, ys))
    decreases |ys|
  {
    if ys != [] {
      var next := OnScroll(h, ys[0]);
      assert HiddenPastFloor(next);
      ScrollKeepsHiddenPastFloor(next, ys[1..]);
    }
  }

  /** A move of more than 20 pixels up always shows the header; a move of more than 20 pixels
      down to a position past 50 always hides it. */
  lemma DirectionDecides(h: Header, latest: real)
    ensures latest < h.lastY - Threshold ==> !OnScroll(h, latest).hidden
    ensures latest > h.lastY + Threshold && latest > Floor ==> OnScroll(h, latest).hidden
  {
  }

  /** Repeating the same position changes nothing more. */
  lemma OnScrollIdempotent(h: Header, latest: real)
    ensures OnScroll(OnScroll(h, latest), latest) == OnScroll(h, latest)
  {
  }
}

=== FILE: seqs.dfy ===
/** Sequence helpers shared by the feeds and lists: `Array.prototype.filter`, duplicate
    removal in first-occurrence order, and the facts the rest of the model needs about them. */
module Seqs {

  /** `xs.filter(keep)`: the kept elements, in their original order. */
  function Filter<T(!new)>(keep: T -> bool, xs: seq<T>): (r: seq<T>)
    ensures |r| <= |xs|
    ensures forall x :: x in r <==> x in xs && keep(x)
    decreases |xs|
  {
    if xs == [] then []
    else if keep(xs[0]) then [xs[0]] + Filter(keep, xs[1..])
    else Filter(keep, xs[1..])
  }

  /** Filtering a concatenation filters each part in place. */
  lemma {:induction false} FilterAppend<T(!new)>(keep: T -> bool, xs: seq<T>, ys: seq<T>)
    ensures Filter(keep, xs + ys) == Filter(keep, xs) + Filter(keep, ys)
    decreases |xs|
  {
    if xs == [] {
      assert xs + ys == ys;
    } else {
      assert (xs + ys)[1..] == xs[1..] + ys;
      FilterAppend(keep, xs[1..], ys);
    }
  }

  /** Filtering keeps the order of first occurrences. */
  lemma {:induction false} FilterKeepsOrder<T(!new)>(keep: T -> bool, xs: seq<T>, y: T, z: T)
    requires y in Filter(keep, xs) && z in Filter(keep, xs)
    requires FirstIndex(Filter(keep, xs), y) < FirstIndex(Filter(keep, xs), z)
    ensures FirstIndex(xs, y) < FirstIndex(xs, z)
    decreases |xs|
  {
    var f := Filter(keep, xs);
    var tail := Filter(keep, xs[1..]);
    if keep(xs[0]) {
      assert f == [xs[0]] + tail;
      if y != xs[0] {
        assert z != xs[0];
        FirstIndexCons(xs[0], tail, y);
        FirstIndexCons(xs[0], tail, z);
        FilterKeepsOrder(keep, xs[1..], y, z);
      }
    } else {
      assert f == tail;
      FilterKeepsOrder(keep, xs[1..], y, z);
    }
  }

  /** Filtering with a predicate every element satisfies changes nothing. */
  lemma {:induction false} FilterAll<T(!new)>(keep: T -> bool, xs: seq<T>)
    requires forall i :: 0 <= i < |xs| ==> keep(xs[i])
    ensures Filter(keep, xs) == xs
    decreases |xs|
  {
    if xs != [] {
      FilterAll(keep, xs[1..]);
    }
  }

  /** No element occurs twice. */
  predicate NoDuplicates<T(==)>(xs: seq<T>) {
    forall i, j :: 0 <= i < j < |xs| ==> xs[i] != xs[j]
  }

  /** Number of occurrences of `x` in `xs`. */
  function Count<T(==)>(xs: seq<T>, x: T): nat
    decreases |xs|
  {
    if xs == [] then 0 else (if xs[0] == x then 1 else 0) + Count(xs[1..], x)
  }

  /** In a sequence without duplicates every member occurs exactly once. */
  lemma {:induction false} CountNoDuplicates<T>(xs: seq<T>, x: T)
    requires NoDuplicates(xs)
    ensures Count(xs, x) == (if x in xs then 1 else 0)
    decreases |xs|
  {
    if xs != [] {
      assert NoDuplicates(xs[1..]) by {
        forall i, j | 0 <= i < j < |xs[1..]| ensures xs[1..][i] != xs[1..][j] {
          assert xs[1..][i] == xs[i + 1] && xs[1..][j] == xs[j + 1];
        }
      }
      CountNoDuplicates(xs[1..], x);
      if xs[0] == x {
        assert x !in xs[1..] by {
          forall k | 0 <= k < |xs[1..]| ensures xs[1..][k] != x {
            assert xs[1..][k] == xs[k + 1];
          }
        }
      } else {
        assert x in xs <==> x in xs[1..] by {
          if x in xs {
            var k :| 0 <= k < |xs| && xs[k] == x;
            assert k > 0 && xs[1..][k - 1] == x;
          }
        }
      }
    }
  }

  /** `xs.indexOf(x)` for a member: the position of its first occurrence. */
  function FirstIndex<T(==)>(xs: seq<T>, x: T): (r: nat)
    requires x in xs
    ensures r < |xs| && xs[r] == x
    ensures forall k :: 0 <= k < r ==> xs[k] != x
    decreases |xs|
  {
    if xs[0] == x then 0 else 1 + FirstIndex(xs[1..], x)
  }

  /** Appending an element leaves the first occurrences of the earlier members where they
      were, and a new element first occurs at the end. */
  lemma FirstIndexAppend<T>(xs: seq<T>, x: T, y: T)
    requires y in xs + [x]
    ensures y in xs ==> FirstIndex(xs + [x], y) == FirstIndex(xs, y)
    ensures y !in xs ==> FirstIndex(xs + [x], y) == |xs|
  {
    var i := FirstIndex(xs + [x], y);
    if y in xs {
      var j := FirstIndex(xs, y);
      assert (xs + [x])[j] == y;
      assert i <= j;
      assert xs[i] == y;
    } else {
      assert forall k :: 0 <= k < |xs| ==> (xs + [x])[k] != y;
    }
  }

  /** Behind a different head, a member first occurs one place later than in the tail. */
  lemma FirstIndexCons<T>(x: T, ys: seq<T>, y: T)
    requires y in ys && y != x
    ensures FirstIndex([x] + ys, y) == 1 + FirstIndex(ys, y)
  {
    assert ([x] + ys)[1..] == ys;
  }

  /** `[...new Set(xs)]`: each value once, at the place of its first occurrence. A `Set`
      inserts in iteration order and ignores values it already holds. */
  function Dedupe<T(==)>(xs: seq<T>): (r: seq<T>)
    ensures NoDuplicates(r)
    ensures |r| <= |xs|
    ensures forall i :: 0 <= i < |r| ==> r[i] in xs
    ensures forall i :: 0 <= i < |xs| ==> xs[i] in r
    ensures |xs| > 0 ==> |r| > 0 && r[0] == xs[0]
    decreases |xs|
  {
    if xs == [] then []
    else
      var prefix := Dedupe(xs[..|xs| - 1]);
      var last := xs[|xs| - 1];
      if last in prefix then prefix else prefix + [last]
  }

  /** The values come out in the order of their first occurrence. */
  lemma {:induction false} DedupeOrder<T>(xs: seq<T>)
    ensures forall i, j :: 0 <= i < j < |Dedupe(xs)| ==>
              FirstIndex(xs, Dedupe(xs)[i]) < FirstIndex(xs, Dedupe(xs)[j])
    decreases |xs|
  {
    if xs != [] {
      var init := xs[..|xs| - 1];
      var prefix := Dedupe(init);
      var last := xs[|xs| - 1];
      DedupeOrder(init);
      assert xs == init + [last];
      if last in prefix {
        DedupeOrderKept(init, last, prefix);
      } else {
        DedupeOrderExtended(init, last, prefix);
      }
    }
  }

  /** A repeated last element leaves the first-occurrence order of the earlier ones. */
  lemma DedupeOrderKept<T>(init: seq<T>, last: T, prefix: seq<T>)
    requires forall i :: 0 <= i < |prefix| ==> prefix[i] in init
    requires forall i, j :: 0 <= i < j < |prefix| ==> FirstIndex(init, prefix[i]) < FirstIndex(init, prefix[j])
    ensures forall i, j :: 0 <= i < j < |prefix| ==>
              FirstIndex(init + [last], prefix[i]) < FirstIndex(init + [last], prefix[j])
  {
    forall i, j | 0 <= i < j < |prefix|
      ensures FirstIndex(init + [last], prefix[i]) < FirstIndex(init + [last], prefix[j])
    {
      FirstIndexAppend(init, last, prefix[i]);
      FirstIndexAppend(init, last, prefix[j]);
    }
  }

  /** A new last element first occurs after every earlier one. */
  lemma DedupeOrderExtended<T>(init: seq<T>, last: T, prefix: seq<T>)
    requires last !in init
    requires forall i :: 0 <= i < |prefix| ==> prefix[i] in init
    requires forall i, j :: 0 <= i < j < |prefix| ==> FirstIndex(init, prefix[i]) < FirstIndex(init, prefix[j])
    ensures forall i, j :: 0 <= i < j < |prefix + [last]| ==>
              FirstIndex(init + [last], (prefix + [last])[i]) < FirstIndex(init + [last], (prefix + [last])[j])
  {
    var r := prefix + [last];
    forall i, j | 0 <= i < j < |r|
      ensures FirstIndex(init + [last], r[i]) < FirstIndex(init + [last], r[j])
    {
      assert r[i] == prefix[i];
      FirstIndexAppend(init, last, r[i]);
      FirstIndexAppend(init, last, r[j]);
    }
  }

  /** A list without duplicates passes through the set unchanged. */
  lemma {:induction false} DedupeDistinct<T>(xs: seq<T>)
    requires NoDuplicates(xs)
    ensures Dedupe(xs) == xs
    decreases |xs|
  {
    if xs != [] {
      var init := xs[..|xs| - 1];
      assert NoDuplicates(init);
      DedupeDistinct(init);
      assert xs[|xs| - 1] !in init by {
        forall k | 0 <= k < |init| ensures init[k] != xs[|xs| - 1] {
          assert init[k] == xs[k];
        }
      }
      assert init + [xs[|xs| - 1]] == xs;
    }
  }

  /** De-duplicating twice is de-duplicating once. */
  lemma DedupeIdempotent<T>(xs: seq<T>)
    ensures Dedupe(Dedupe(xs)) == Dedupe(xs)
  {
    DedupeDistinct(Dedupe(xs));
  }

  /** The head of the list comes first and, however often it is repeated, only once. */
  lemma HeadOnce<T>(x: T, ys: seq<T>)
    ensures Dedupe([x] + ys)[0] == x
    ensures Count(Dedupe([x] + ys), x) == 1
  {
    var r := Dedupe([x] + ys);
    CountNoDuplicates(r, x);
  }
}

=== FILE: settings_panel.dfy ===
/** The settings panel's emergency-contact form: the add button's enabled state, the trimmed
    add, and the per-row delete buttons. */
module SettingsPanel {
  import opened JsText
  import opened Preferences

  /** The add button is disabled only while the field is empty. */
  predicate AddEnabled(field: string) {
    field != ""
  }

  /** `handleAddContact`: a field with text after trimming adds the trimmed text and clears the
      field; any other field changes nothing. */
  function HandleAddContact(a: App, field: string): (r: (App, string))
    ensures Trim(field) == "" ==> r == (a, field)
    ensures Trim(field) != "" ==> r.1 == "" && r.0 == AddContact(a, Trim(field))
  {
    var text := Trim(field);
    if text != "" then (AddContact(a, text), "") else (a, field)
  }

  /** A field of white space enables the button but adds nothing and stays as typed. */
  lemma BlankFieldEnabledButInert(a: App, field: string)
    requires field != [] && forall k :: 0 <= k < |field| ==> IsSpace(field[k])
    ensures AddEnabled(field)
    ensures HandleAddContact(a, field) == (a, field)
  {
    TrimEmptyIff(field);
  }

  /** An added contact is never blank and never has white space at either end, so adding it
      again as typed would add the same text. */
  lemma AddedContactIsTrimmed(a: App, field: string)
    requires Trim(field) != ""
    ensures var cs := HandleAddContact(a, field).0.prefs.contacts;
            var c := cs[|cs| - 1];
            c != "" && Trim(c) == c && HandleAddContact(a, c).0 == HandleAddContact(a, field).0
  {
    TrimIdempotent(field);
  }

  /** The delete button of row `i` removes that row's contact once: the other contacts keep
      their order, and the multiset of contacts loses exactly one copy of it. */
  lemma DeleteRowRemovesIt(a: App, i: nat)
    requires i < |a.prefs.contacts|
    ensures var cs := a.prefs.contacts;
            var r := RemoveContact(a, i).prefs.contacts;
            |r| == |cs| - 1
            && (forall k :: 0 <= k < i ==> r[k] == cs[k])
            && (forall k :: i <= k < |r| ==> r[k] == cs[k + 1])
            && multiset(r) == multiset(cs) - multiset{cs[i]}
  {
    var cs := a.prefs.contacts;
    assert cs == cs[..i] + [cs[i]] + cs[i + 1..];
    assert multiset(cs) == multiset(cs[..i]) + multiset{cs[i]} + multiset(cs[i + 1..]);
  }
}

=== FILE: storage_purge.dfy ===
/** The fresh-launch purge of local storage: when the stored clear date is missing or earlier
    than the launch date, every key the application wrote is removed, and the launch date is
    stored so that the purge does not run again. The home page and the standalone cleanup
    script hold the same routine; it is modelled once here. */
module StoragePurge {
  import opened JsText
  import opened Seqs

  type Store = map<string, string>

  const FreshLaunchDate: string := "2026-02-12"
  const MarkerKey: string := "last_data_clear"

  /** JavaScript `<` on strings, over Dafny's scalar-value characters: scalar-value order,
      which is code-unit order below U+10000; a proper prefix comes before its extensions. */
  predicate LexLess(a: string, b: string)
    decreases |a|
  {
    if b == [] then false
    else if a == [] then true
    else if a[0] != b[0] then a[0] < b[0]
    else LexLess(a[1..], b[1..])
  }

  /** No string is before itself. */
  lemma {:induction false} LexLessIrreflexive(a: string)
    ensures !LexLess(a, a)
    decreases |a|
  {
    if a != [] {
      LexLessIrreflexive(a[1..]);
    }
  }

  /** `!lastClear || lastClear < FRESH_LAUNCH_DATE`: an absent or empty marker, or one that
      sorts before the launch date. */
  predicate PurgeDue(store: Store) {
    MarkerKey !in store || store[MarkerKey] == "" || LexLess(store[MarkerKey], FreshLaunchDate)
  }

  /** The keys the application wrote: the `ncp_` keys and any key mentioning a username, a
      user id, an incident or the chat. */
  predicate PurgeKey(key: string) {
    key != "" &&
    (StartsWith(key, "ncp_") || Includes(key, "username") || Includes(key, "user_id")
     || Includes(key, "incident") || Includes(key, "chat"))
  }

  /** The first pass: the keys to remove, gathered before anything is removed. */
  method CollectKeys(keys: seq<string>) returns (toRemove: seq<string>)
    ensures forall k :: k in toRemove <==> k in keys && PurgeKey(k)
    ensures |toRemove| <= |keys|
  {
    toRemove := [];
    var i := 0;
    while i < |keys|
      invariant 0 <= i <= |keys|
      invariant |toRemove| <= i
      invariant forall k :: k in toRemove <==> k in keys[..i] && PurgeKey(k)
    {
      if PurgeKey(keys[i]) {
        toRemove := toRemove + [keys[i]];
      }
      assert keys[..i + 1] == keys[..i] + [keys[i]];
      i := i + 1;
    }
    assert keys[..i] == keys;
  }

  /** The second pass: `removeItem` for each collected key in turn. */
  function RemoveAll(store: Store, ks: seq<string>): (r: Store)
    ensures forall k :: k in r <==> k in store && k !in ks
    ensures forall k :: k in r ==> r[k] == store[k]
    decreases |ks|
  {
    if ks == [] then store else RemoveAll(store - {ks[0]}, ks[1..])
  }

  /** The store after a purge, stated directly: the keys the application did not write, and
      the marker holding the launch date. */
  function Purged(store: Store): (r: Store)
    ensures MarkerKey in r && r[MarkerKey] == FreshLaunchDate
  {
    (map k | k in store && !PurgeKey(k) :: store[k])[MarkerKey := FreshLaunchDate]
  }

  /** The effect run on mount, given the keys local storage lists (each key of the store). */
  method RunPurge(store: Store, keys: seq<string>) returns (r: Store)
    requires forall k :: k in keys <==> k in store
    ensures !PurgeDue(store) ==> r == store
    ensures PurgeDue(store) ==> r == Purged(store)
  {
    if !PurgeDue(store) {
      return store;
    }
    var toRemove := CollectKeys(keys);
    var kept := RemoveAll(store, toRemove);
    r := kept[MarkerKey := FreshLaunchDate];
    assert r.Keys == Purged(store).Keys;
  }

  /** The marker key is not one the purge removes. */
  lemma MarkerKeyKept()
    ensures !PurgeKey(MarkerKey)
  {
    assert !StartsWith(MarkerKey, "ncp_") by { assert MarkerKey[0] == 'l'; }
    assert !Includes(MarkerKey, "username") by { MarkerKeyAvoids("username"); }
    assert !Includes(MarkerKey, "user_id") by { MarkerKeyAvoids("user_id"); }
    assert !Includes(MarkerKey, "incident") by { MarkerKeyAvoids("incident"); }
    assert !Includes(MarkerKey, "chat") by { MarkerKeyAvoids("chat"); }
  }

  /** The marker key avoids every needle that starts with `u`, `i` or `ch`. */
  lemma MarkerKeyAvoids(needle: string)
    requires |needle| >= 2
    requires needle[0] == 'u' || needle[0] == 'i' || (needle[0] == 'c' && needle[1] == 'h')
    ensures !Includes(MarkerKey, needle)
  {
    var s := MarkerKey;
    assert s == ['l','a','s','t','_','d','a','t','a','_','c','l','e','a','r'];
    forall i | 0 <= i < |s| - 1
      ensures !(s[i] == needle[0] && s[i + 1] == needle[1])
    {
    }
    NotIncluded(s, needle);
  }

  /** A text in which the needle's first two characters never appear side by side does not
      include it. */
  lemma NotIncluded(s: string, needle: string)
    requires |needle| >= 2
    requires forall i :: 0 <= i < |s| - 1 ==> !(s[i] == needle[0] && s[i + 1] == needle[1])
    ensures !Includes(s, needle)
  {
    forall j ensures !OccursAt(s, needle, j) {
      if 0 <= j && j + |needle| <= |s| {
        assert s[j..j + |needle|][0] == s[j] && s[j..j + |needle|][1] == s[j + 1];
      }
    }
    IncludesIff(s, needle);
  }

  /** After a purge the purge is no longer due, so running the effect again changes
      nothing; the keys the application did not write keep their values. */
  lemma PurgeSettles(store: Store)
    ensures !PurgeDue(Purged(store))
    ensures forall k :: k in store && !PurgeKey(k) && k != MarkerKey ==> k in Purged(store) && Purged(store)[k] == store[k]
    ensures forall k :: k in Purged(store) && k != MarkerKey ==> k in store && !PurgeKey(k)
  {
    LexLessIrreflexive(FreshLaunchDate);
  }

  /** A purge removes at least the application's keys and at most them. */
  lemma PurgeRemovesExactly(store: Store, k: string)
    requires PurgeDue(store)
    ensures PurgeKey(k) ==> k !in Purged(store)
    ensures !PurgeKey(k) ==> (k in Purged(store) <==> k in store || k == MarkerKey)
  {
    MarkerKeyKept();
  }

  /** A marker from before the launch date triggers the purge, one from after it does not. */
  lemma GuardExamples()
    ensures PurgeDue(map[MarkerKey := "2025-12-31"])
    ensures PurgeDue(map[MarkerKey := "2026-02-1"])
    ensures !PurgeDue(map[MarkerKey := "2026-03-01"])
    ensures PurgeDue(map[])
  {
    EarlierYearDue();
    ShorterDateDue();
    LaterMonthNotDue();
  }

  lemma EarlierYearDue()
    ensures LexLess("2025-12-31", FreshLaunchDate)
  {
    assert FreshLaunchDate == ['2','0','2','6','-','0','2','-','1','2'];
    assert "2025-12-31"[1..] == ['0','2','5','-','1','2','-','3','1'];
    assert FreshLaunchDate[1..] == ['0','2','6','-','0','2','-','1','2'];
  }

  /** A proper prefix of the launch date sorts before it. */
  lemma ShorterDateDue()
    ensures LexLess("2026-02-1", FreshLaunchDate)
  {
    PrefixLexLess("2026-02-1", FreshLaunchDate);
  }

  lemma {:induction false} PrefixLexLess(a: string, b: string)
    requires |a| < |b| && b[..|a|] == a
    ensures LexLess(a, b)
    decreases |a|
  {
    if a != [] {
      assert a[1..] == b[1..][..|a| - 1];
      PrefixLexLess(a[1..], b[1..]);
    }
  }

  lemma LaterMonthNotDue()
    ensures !LexLess("2026-03-01", FreshLaunchDate)
  {
    assert FreshLaunchDate == ['2','0','2','6','-','0','2','-','1','2'];
    assert "2026-03-01"[..6] == FreshLaunchDate[..6];
    LexLessSkip("2026-03-01", FreshLaunchDate, 6);
  }

  /** Two texts with a common prefix compare as the texts after it. */
  lemma {:induction false} LexLessSkip(a: string, b: string, n: nat)
    requires n <= |a| && n <= |b| && a[..n] == b[..n]
    ensures LexLess(a, b) == LexLess(a[n..], b[n..])
    decreases n
  {
    if n > 0 {
      assert a[0] == a[..n][0] && b[0] == b[..n][0];
      assert a[1..][..n - 1] == a[..n][1..] && b[1..][..n - 1] == b[..n][1..];
      LexLessSkip(a[1..], b[1..], n - 1);
      assert a[1..][n - 1..] == a[n..] && b[1..][n - 1..] == b[n..];
    }
  }
}

=== FILE: uploads.dfy ===
/** The storage name given to an uploaded file by the chat composer and the report form:
    a stamp made of the upload time and a random suffix, a dot, and the extension of the
    original file name. The time and the random suffix are inputs here. */
module Uploads {
  import opened JsText

  /** The storage name of an upload: the stamp, a dot, and the text after the file name's
      last dot. */
  function UploadName(stamp: string, fileName: string): (r: string)
    ensures StartsWith(r, stamp + ".")
    ensures EndsWith(r, "." + AfterLast(fileName, "."))
    ensures !Includes(r[|stamp| + 1..], ".")
  {
    AfterLastSpec(fileName, ".");
    var ext := AfterLast(fileName, ".");
    var r := stamp + "." + ext;
    assert r[..|stamp| + 1] == stamp + ".";
    assert r[|r| - |"." + ext|..] == "." + ext;
    assert r[|stamp| + 1..] == ext;
    r
  }

  /** The upload keeps the file's extension: the storage name's text after its last dot is
      the file name's, when the stamp has no dot. */
  lemma UploadNameKeepsExtension(stamp: string, fileName: string)
    requires !Includes(stamp, ".")
    ensures AfterLast(UploadName(stamp, fileName), ".") == AfterLast(fileName, ".")
  {
    var ext := AfterLast(fileName, ".");
    var s := UploadName(stamp, fileName);
    assert s == stamp + "." + ext;
    FirstOccurrenceAfter(stamp, ".", ext);
    SplitUnfold(s, ".");
    assert s[|stamp| + 1..] == ext;
    SplitSingleIff(ext, ".");
    assert Split(s, ".") == [s[..|stamp|]] + Split(ext, ".");
  }
}

=== FILE: uri_component.dfy ===
/** `encodeURIComponent` and `decodeURIComponent` (sections 19.2.6.4-19.2.6.5 of ECMA-262):
    every character outside the unreserved set of section 2.3 of RFC 3986 (plus the marks
    `! ~ * ' ( )`) becomes the percent-encoded bytes of its UTF-8 form, as section 2.1 of
    RFC 3986 describes. The map uses it to hand a Facebook link to the video plugin. */
module UriComponent {
  import opened Options

  /** Characters `encodeURIComponent` leaves alone. */
  predicate Unreserved(c: char) {
    || ('A' <= c <= 'Z') || ('a' <= c <= 'z') || ('0' <= c <= '9')
    || c == '-' || c == '_' || c == '.' || c == '!' || c == '~' || c == '*' || c == '\''
    || c == '(' || c == ')'
  }

  predicate IsByte(b: int) { 0 <= b < 256 }

  predicate AreBytes(bs: seq<int>) {
    forall i :: 0 <= i < |bs| ==> IsByte(bs[i])
  }

  predicate IsScalar(cp: int) {
    (0 <= cp < 0xD800) || (0xE000 <= cp < 0x11_0000)
  }

  /** The UTF-8 encoding of one scalar value. */
  function Utf8(c: char): (r: seq<int>)
    ensures 1 <= |r| <= 4 && AreBytes(r)
    ensures |r| == 1 <==> (c as int) < 0x80
    ensures |r| == 1 ==> r[0] == c as int
  {
    var cp := c as int;
    if cp < 0x80 then [cp]
    else if cp < 0x800 then [0xC0 + cp / 64, 0x80 + cp % 64]
    else if cp < 0x1_0000 then [0xE0 + cp / 4096, 0x80 + (cp / 64) % 64, 0x80 + cp % 64]
    else [0xF0 + cp / 0x4_0000, 0x80 + (cp / 4096) % 64, 0x80 + (cp / 64) % 64, 0x80 + cp % 64]
  }

  const HexDigits: string := "0123456789ABCDEF"

  /** Value of a hexadecimal digit of either case. */
  function HexValue(c: char): (r: Option<int>)
    ensures r.Some? ==> 0 <= r.value < 16
  {
    if '0' <= c <= '9' then Some(c as int - '0' as int)
    else if 'A' <= c <= 'F' then Some(c as int - 'A' as int + 10)
    else if 'a' <= c <= 'f' then Some(c as int - 'a' as int + 10)
    else None
  }

  /** `%XY` with upper-case hex digits. */
  function Percent(b: int): (r: string)
    requires IsByte(b)
    ensures |r| == 3 && r[0] == '%'
  {
    ['%', HexDigits[b / 16], HexDigits[b % 16]]
  }

  function PercentAll(bs: seq<int>): (r: string)
    requires AreBytes(bs)
    ensures |r| == 3 * |bs|
    decreases |bs|
  {
    if bs == [] then [] else Percent(bs[0]) + PercentAll(bs[1..])
  }

  function EncodeChar(c: char): string {
    if Unreserved(c) then [c] else PercentAll(Utf8(c))
  }

  /** `encodeURIComponent(s)`. Dafny strings hold scalar values only, so the lone-surrogate
      `URIError` cannot arise. */
  function Encode(s: string): (r: string)
    ensures |r| >= |s|
    decreases |s|
  {
    if s == [] then [] else EncodeChar(s[0]) + Encode(s[1..])
  }

  /** The byte spelled by `%XY` at position `i`, if there is one. */
  function ReadByte(e: string, i: nat): (r: Option<int>)
    ensures r.Some? ==> IsByte(r.value) && i + 3 <= |e|
  {
    if i + 3 <= |e| && e[i] == '%' && HexValue(e[i + 1]).Some? && HexValue(e[i + 2]).Some? then
      Some(HexValue(e[i + 1]).value * 16 + HexValue(e[i + 2]).value)
    else None
  }

  /** `k` further `%XY` groups from position `i`, each a UTF-8 continuation byte. */
  function ReadContinuations(e: string, i: nat, k: nat): (r: Option<seq<int>>)
    ensures r.Some? ==> |r.value| == k && (k > 0 ==> i + 3 * k <= |e|)
    ensures r.Some? ==> forall j :: 0 <= j < k ==> 0x80 <= r.value[j] < 0xC0
    decreases k
  {
    if k == 0 then Some([])
    else
      match ReadByte(e, i)
      case None => None
      case Some(b) =>
        if !(0x80 <= b < 0xC0) then None
        else
          match ReadContinuations(e, i + 3, k - 1)
          case None => None
          case Some(rest) => Some([b] + rest)
  }

  /** Number of bytes announced by a UTF-8 lead byte; 0 for a byte that cannot lead. */
  function SequenceLength(b: int): (n: nat)
    ensures n <= 4
  {
    if b < 0x80 then 1
    else if 0xC0 <= b < 0xE0 then 2
    else if 0xE0 <= b < 0xF0 then 3
    else if 0xF0 <= b < 0xF8 then 4
    else 0
  }

  /** The code point of a lead byte and its continuation bytes. */
  function CodePoint(lead: int, cont: seq<int>): int {
    if |cont| == 1 then (lead - 0xC0) * 64 + (cont[0] - 0x80)
    else if |cont| == 2 then (lead - 0xE0) * 4096 + (cont[0] - 0x80) * 64 + (cont[1] - 0x80)
    else if |cont| == 3 then
      (lead - 0xF0) * 0x4_0000 + (cont[0] - 0x80) * 4096 + (cont[1] - 0x80) * 64 + (cont[2] - 0x80)
    else lead
  }

  /** Smallest code point that needs `n` bytes; a shorter form is an overlong encoding. */
  function MinCodePoint(n: nat): int {
    if n == 2 then 0x80 else if n == 3 then 0x800 else if n == 4 then 0x1_0000 else 0
  }

  /** `decodeURIComponent(e)`; `None` is the `URIError` it throws for a malformed escape or
      an invalid UTF-8 sequence. */
  function Decode(e: string): (r: Option<string>)
    decreases |e|
  {
    if e == [] then Some([])
    else if e[0] != '%' then
      match Decode(e[1..])
      case None => None
      case Some(rest) => Some([e[0]] + rest)
    else
      match ReadByte(e, 0)
      case None => None
      case Some(b) =>
        var n := SequenceLength(b);
        if n == 0 then None
        else if n == 1 then
          match Decode(e[3..])
          case None => None
          case Some(rest) => Some([b as char] + rest)
        else
          match ReadContinuations(e, 3, n - 1)
          case None => None
          case Some(cont) =>
            var cp := CodePoint(b, cont);
            if !(MinCodePoint(n) <= cp && IsScalar(cp)) then None
            else
              match Decode(e[3 * n..])
              case None => None
              case Some(rest) => Some([cp as char] + rest)
  }

  /** Every character of an encoding is unreserved, a `%`, or an upper-case hex digit. */
  predicate EncodedAlphabet(c: char) {
    Unreserved(c) || c == '%' || ('A' <= c <= 'F')
  }

  lemma {:induction false} PercentAllAlphabet(bs: seq<int>)
    requires AreBytes(bs)
    ensures forall i :: 0 <= i < |PercentAll(bs)| ==> EncodedAlphabet(PercentAll(bs)[i])
    decreases |bs|
  {
    if bs != [] {
      PercentAllAlphabet(bs[1..]);
      var p := Percent(bs[0]);
      assert forall i :: 0 <= i < 3 ==> EncodedAlphabet(p[i]);
    }
  }

  /** The output of `Encode` uses only the unreserved characters, `%` and `0-9A-F`. */
  lemma {:induction false} EncodeAlphabet(s: string)
    ensures forall i :: 0 <= i < |Encode(s)| ==> EncodedAlphabet(Encode(s)[i])
    decreases |s|
  {
    if s != [] {
      EncodeAlphabet(s[1..]);
      if !Unreserved(s[0]) {
        PercentAllAlphabet(Utf8(s[0]));
      }
    }
  }

  /** A string of unreserved characters is its own encoding. */
  lemma {:induction false} EncodeUnreserved(s: string)
    requires forall i :: 0 <= i < |s| ==> Unreserved(s[i])
    ensures Encode(s) == s
    decreases |s|
  {
    if s != [] {
      EncodeUnreserved(s[1..]);
    }
  }

  lemma HexRoundTrip(n: int)
    requires 0 <= n < 16
    ensures HexValue(HexDigits[n]) == Some(n)
  {
  }

  lemma ReadPercent(b: int, rest: string)
    requires IsByte(b)
    ensures ReadByte(Percent(b) + rest, 0) == Some(b)
  {
    HexRoundTrip(b / 16);
    HexRoundTrip(b % 16);
  }

  /** Reading `k` continuation bytes back from their percent form. */
  lemma {:induction false} ReadContinuationsOf(bs: seq<int>, rest: string)
    requires AreBytes(bs)
    requires forall j :: 0 <= j < |bs| ==> 0x80 <= bs[j] < 0xC0
    ensures ReadContinuations(PercentAll(bs) + rest, 0, |bs|) == Some(bs)
    decreases |bs|
  {
    if bs != [] {
      assert forall j :: 0 <= j < |bs[1..]| ==> 0x80 <= bs[1..][j] < 0xC0 by {
        forall j | 0 <= j < |bs[1..]| ensures 0x80 <= bs[1..][j] < 0xC0 {
          assert bs[1..][j] == bs[j + 1];
        }
      }
      ReadContinuationsOf(bs[1..], rest);
      ReadContinuationsOfStep(bs, rest);
    }
  }

  /** One step of `ReadContinuationsOf`: the first byte, then the ones already read. */
  lemma ReadContinuationsOfStep(bs: seq<int>, rest: string)
    requires AreBytes(bs) && bs != [] && 0x80 <= bs[0] < 0xC0
    requires ReadContinuations(PercentAll(bs[1..]) + rest, 0, |bs| - 1) == Some(bs[1..])
    ensures ReadContinuations(PercentAll(bs) + rest, 0, |bs|) == Some(bs)
  {
    PercentAllCons(bs, rest);
    ReadContinuationStep(bs[0], PercentAll(bs[1..]) + rest, bs[1..]);
    assert [bs[0]] + bs[1..] == bs;
  }

  /** The percent form of a non-empty byte sequence, followed by more text. */
  lemma PercentAllCons(bs: seq<int>, rest: string)
    requires AreBytes(bs) && bs != []
    ensures PercentAll(bs) + rest == Percent(bs[0]) + (PercentAll(bs[1..]) + rest)
  {
  }

  /** A continuation byte in percent form in front of `k` readable ones gives `k + 1`. */
  lemma ReadContinuationStep(b: int, t: string, more: seq<int>)
    requires IsByte(b) && 0x80 <= b < 0xC0
    requires ReadContinuations(t, 0, |more|) == Some(more)
    ensures ReadContinuations(Percent(b) + t, 0, |more| + 1) == Some([b] + more)
  {
    var p := Percent(b);
    ReadPercent(b, t);
    ReadContinuationsShift(p, t, |more|);
    ReadContinuationsCons(p + t, |more| + 1, b, more);
  }

  /** One step of `ReadContinuations`: a continuation byte, then the rest read from three
      characters on. */
  lemma ReadContinuationsCons(e: string, k: nat, b: int, more: seq<int>)
    requires k > 0 && ReadByte(e, 0) == Some(b) && 0x80 <= b < 0xC0
    requires ReadContinuations(e, 3, k - 1) == Some(more)
    ensures ReadContinuations(e, 0, k) == Some([b] + more)
  {
  }

  /** Reading from position 3 past a three-character prefix is reading the remainder. */
  lemma {:induction false} ReadContinuationsShift(p: string, e: string, k: nat)
    requires |p| == 3
    ensures ReadContinuations(p + e, 3, k) == ReadContinuations(e, 0, k)
  {
    ReadContinuationsShiftAt(p, e, 0, k);
  }

  lemma {:induction false} ReadContinuationsShiftAt(p: string, e: string, i: nat, k: nat)
    requires |p| == 3
    ensures ReadContinuations(p + e, 3 + i, k) == ReadContinuations(e, i, k)
    decreases k
  {
    if k > 0 {
      assert ReadByte(p + e, 3 + i) == ReadByte(e, i) by {
        if i + 3 <= |e| {
          assert (p + e)[3 + i] == e[i] && (p + e)[4 + i] == e[i + 1] && (p + e)[5 + i] == e[i + 2];
        }
      }
      ReadContinuationsShiftAt(p, e, i + 3, k - 1);
    }
  }

  /** The UTF-8 bytes of a character after the first are continuation bytes, the first is a
      lead byte announcing the right length, and they spell the character's code point. */
  lemma Utf8Shape(c: char)
    ensures var bs := Utf8(c);
            && SequenceLength(bs[0]) == |bs|
            && (forall j :: 1 <= j < |bs| ==> 0x80 <= bs[j] < 0xC0)
            && (|bs| > 1 ==> CodePoint(bs[0], bs[1..]) == c as int
                             && MinCodePoint(|bs|) <= c as int && IsScalar(c as int))
  {
    var cp := c as int;
    if 0x80 <= cp < 0x800 {
      Utf8TwoBytes(c);
    } else if 0x800 <= cp < 0x1_0000 {
      Utf8ThreeBytes(c);
    } else if 0x1_0000 <= cp {
      Utf8FourBytes(c);
    }
  }

  lemma Utf8TwoBytes(c: char)
    requires 0x80 <= c as int < 0x800
    ensures var bs := Utf8(c);
            && |bs| == 2 && SequenceLength(bs[0]) == 2 && 0x80 <= bs[1] < 0xC0
            && CodePoint(bs[0], bs[1..]) == c as int && MinCodePoint(2) <= c as int
  {
    var cp := c as int;
    assert Utf8(c)[1..] == [0x80 + cp % 64];
  }

  lemma Utf8ThreeBytes(c: char)
    requires 0x800 <= c as int < 0x1_0000
    ensures var bs := Utf8(c);
            && |bs| == 3 && SequenceLength(bs[0]) == 3
            && 0x80 <= bs[1] < 0xC0 && 0x80 <= bs[2] < 0xC0
            && CodePoint(bs[0], bs[1..]) == c as int && MinCodePoint(3) <= c as int
  {
    var cp := c as int;
    ThreeByteDigits(cp);
    assert Utf8(c)[1..] == [0x80 + (cp / 64) % 64, 0x80 + cp % 64];
  }

  /** The base-64 digits of a three-byte code point put it back together. */
  lemma ThreeByteDigits(cp: int)
    requires 0x800 <= cp < 0x1_0000
    ensures (cp / 4096) * 4096 + ((cp / 64) % 64) * 64 + cp % 64 == cp
  {
    assert cp / 64 == (cp / 4096) * 64 + (cp / 64) % 64;
  }

  lemma Utf8FourBytes(c: char)
    requires 0x1_0000 <= c as int
    ensures var bs := Utf8(c);
            && |bs| == 4 && SequenceLength(bs[0]) == 4
            && 0x80 <= bs[1] < 0xC0 && 0x80 <= bs[2] < 0xC0 && 0x80 <= bs[3] < 0xC0
            && CodePoint(bs[0], bs[1..]) == c as int && MinCodePoint(4) <= c as int
  {
    var cp := c as int;
    FourByteDigits(cp);
    assert Utf8(c)[1..] == [0x80 + (cp / 4096) % 64, 0x80 + (cp / 64) % 64, 0x80 + cp % 64];
  }

  /** The base-64 digits of a four-byte code point put it back together, and its lead byte
      announces four bytes. */
  lemma FourByteDigits(cp: int)
    requires 0x1_0000 <= cp < 0x11_0000
    ensures 0xF0 <= 0xF0 + cp / 0x4_0000 < 0xF8
    ensures (cp / 0x4_0000) * 0x4_0000 + ((cp / 4096) % 64) * 4096 + ((cp / 64) % 64) * 64 + cp % 64 == cp
  {
    assert cp / 64 == (cp / 4096) * 64 + (cp / 64) % 64;
    assert cp / 4096 == (cp / 0x4_0000) * 64 + (cp / 4096) % 64;
  }

  /** The result of decoding `rest` with `c` put in front. */
  function Prepend(c: char, r: Option<string>): Option<string> {
    match r
    case None => None
    case Some(t) => Some([c] + t)
  }

  /** Decoding one encoded character gives it back and continues after it. */
  lemma DecodeChar(c: char, rest: string)
    ensures Decode(EncodeChar(c) + rest) == Prepend(c, Decode(rest))
  {
    if Unreserved(c) {
      assert ([c] + rest)[1..] == rest;
    } else if (c as int) < 0x80 {
      DecodeSingleByte(c, rest);
    } else {
      DecodeMultiByte(c, rest);
    }
  }

  lemma DecodeSingleByte(c: char, rest: string)
    requires !Unreserved(c) && (c as int) < 0x80
    ensures Decode(EncodeChar(c) + rest) == Prepend(c, Decode(rest))
  {
    var bs := Utf8(c);
    var e := EncodeChar(c) + rest;
    assert EncodeChar(c) == Percent(bs[0]);
    ReadPercent(bs[0], rest);
    assert e[3..] == rest;
    assert (bs[0] as char) == c;
  }

  lemma DecodeMultiByte(c: char, rest: string)
    requires (c as int) >= 0x80
    ensures Decode(EncodeChar(c) + rest) == Prepend(c, Decode(rest))
  {
    var bs := Utf8(c);
    Utf8Shape(c);
    MultiByteReadable(c, rest);
    DecodeLead(EncodeChar(c) + rest, bs[0], bs[1..]);
  }

  /** The percent form of a character of two or more UTF-8 bytes reads back as its lead byte
      and its continuation bytes, and the text after it starts three characters per byte on. */
  lemma MultiByteReadable(c: char, rest: string)
    requires (c as int) >= 0x80
    ensures var bs := Utf8(c);
            var e := EncodeChar(c) + rest;
            && |bs| >= 2 && |e| > 0 && e[0] == '%' && ReadByte(e, 0) == Some(bs[0])
            && ReadContinuations(e, 3, |bs| - 1) == Some(bs[1..])
            && e[3 * |bs|..] == rest
  {
    var bs := Utf8(c);
    Utf8Shape(c);
    PercentAllCons(bs, rest);
    ReadLeadAndConts(bs[0], bs[1..], rest);
  }

  /** A byte and continuation bytes in percent form read back as themselves, and the text
      after them starts three characters per byte on. */
  lemma ReadLeadAndConts(b: int, cont: seq<int>, rest: string)
    requires IsByte(b) && AreBytes(cont)
    requires forall j :: 0 <= j < |cont| ==> 0x80 <= cont[j] < 0xC0
    ensures var e := Percent(b) + (PercentAll(cont) + rest);
            && e[0] == '%' && ReadByte(e, 0) == Some(b)
            && ReadContinuations(e, 3, |cont|) == Some(cont)
            && e[3 * (|cont| + 1)..] == rest
  {
    ReadPercent(b, PercentAll(cont) + rest);
    ContinuationsAfterLead(b, cont, rest);
    TextAfterBytes(Percent(b), PercentAll(cont), rest);
  }

  lemma ContinuationsAfterLead(b: int, cont: seq<int>, rest: string)
    requires IsByte(b) && AreBytes(cont)
    requires forall j :: 0 <= j < |cont| ==> 0x80 <= cont[j] < 0xC0
    ensures ReadContinuations(Percent(b) + (PercentAll(cont) + rest), 3, |cont|) == Some(cont)
  {
    ReadContinuationsOf(cont, rest);
    ReadContinuationsShift(Percent(b), PercentAll(cont) + rest, |cont|);
  }

  lemma TextAfterBytes(p: string, q: string, rest: string)
    ensures (p + (q + rest))[|p| + |q|..] == rest
  {
    assert p + (q + rest) == (p + q) + rest;
  }

  /** One step of `Decode` at a valid multi-byte sequence: its character, then the decoding
      of what follows it. */
  lemma DecodeLead(e: string, b: int, cont: seq<int>)
    requires |e| > 0 && e[0] == '%' && ReadByte(e, 0) == Some(b)
    requires |cont| >= 1 && SequenceLength(b) == |cont| + 1
    requires ReadContinuations(e, 3, |cont|) == Some(cont)
    requires MinCodePoint(|cont| + 1) <= CodePoint(b, cont) && IsScalar(CodePoint(b, cont))
    ensures Decode(e) == Prepend(CodePoint(b, cont) as char, Decode(e[3 * (|cont| + 1)..]))
  {
  }

  /** `decodeURIComponent(encodeURIComponent(s)) === s`. */
  lemma {:induction false} DecodeEncode(s: string)
    ensures Decode(Encode(s)) == Some(s)
    decreases |s|
  {
    if s != [] {
      DecodeEncode(s[1..]);
      DecodeChar(s[0], Encode(s[1..]));
      assert [s[0]] + s[1..] == s;
    }
  }

  /** Different texts have different encodings. */
  lemma EncodeInjective(s: string, t: string)
    requires Encode(s) == Encode(t)
    ensures s == t
  {
    DecodeEncode(s);
    DecodeEncode(t);
  }
}
